=== FILE: README.md ===
# A verified model of a small x86 teaching kernel

This project models the bookkeeping of a small 32-bit x86 kernel. The kernel
has six process slots, three virtual terminals, a read-only file system, a
keyboard line discipline, a round-robin scheduler driven by the timer, and a
real-time clock. The model is written in Dafny.

The whole machine state is one immutable record, `Process.Kernel`. It holds:

- the process table and the six PCBs;
- the terminals and the screen pages;
- the keyboard state;
- the file system's descriptor array;
- the page directory and the video page table;
- the TSS;
- the clock's register A;
- the PIC masks;
- the file-system image.

Each system call, interrupt handler and initialisation routine is a pure
function or a method from one state to the next. Some code leaves the kernel:
the `iret` into user mode, and the jump onto a parent's or another process's
kernel stack. That code returns a `Transfer` value (`EnterUser`,
`ResumeParent`, `Return`) and does not execute the handoff. Bytes printed
with `putc`/`puts` are appended to a console byte sequence. Keyboard effects
on the screen are `KeyAction` values.

There is one module per source file:

| Module | Source file | Contents |
|---|---|---|
| `Pic` | `i8259.c` | The mask registers and EOI commands. |
| `Rtc` | `rtc.c` | Rate encoding and register A. |
| `Paging` | `paging.c` | The PDE/PTE layout and the page walk of section 4.3 of the Intel SDM, Volume 3A. |
| `Idt` | `idt.c` | Gates in the format of section 6.11 of the same manual. |
| `FileSys` | `file_sys.c` | The file system. |
| `Keyboard` | `kb.c` | The keyboard line discipline. |
| `Terminal` | `terminal.c` | The terminals. |
| `Process` | `systemcall.c` | The PCB, the kernel record and the address arithmetic. |
| `Syscall` | `systemcall.c` | The system calls. |
| `Schedule` | `schedule.c` | The timer tick. |

`Common` holds bytes, NUL-free strings, powers of two and little-endian words.

Behaviour at C's undefined edges is excluded by a precondition named
`…Defined`, not guessed. These cases are:

- a name whose terminator overflows its buffer;
- a 128-byte command whose terminator overflows the argument buffer;
- an empty file name;
- a header shorter than the bytes `execute` reads;
- an uninitialised `free_fd`;
- `getargs` over-reading its buffer.

Notes on how the model reads the code:

- **Short program files.** If a program file is too short for the header
  bytes, `execute` reads its entry point from uninitialised stack. The model
  requires the header bytes (`Syscall.HeaderDefined`).
- **Short directory reads.** When `dir_read` gets a count shorter than the
  name, it clears and copies only that many bytes. It then stores a NUL
  right after the full name and returns `strlen` of the buffer. So the
  result counts whatever non-NUL bytes the caller's buffer already held
  past the count. The model follows the code: `FileSys.DirRead` takes the
  buffer's old contents as a parameter, and `FileSys.DirReadShort` states
  both outcomes.
- **Seeding a terminal.** When a timer tick starts a terminal and runs a
  shell there, the code that redisplays the previous terminal is reached only
  if `execute` returns. When the shell launches, control is in user mode.
- **Switching stacks.** When the scheduler switches, it saves the stack into
  the target process's PCB and loads the stack from that same PCB. So the
  modelled tick resumes on the stack it was entered on (`Schedule.SwitchState`).

## Model

| member | source | states |
|---|---|---|
| Process.PcbAddress | student-distrib/systemcall.c:22 | For each of the six pids, the PCB's 8 KB block is 8 KB aligned. It lies above the kernel's 4 MB page and ends at or below 8 MB. |
| Process.KernelStackTop | student-distrib/systemcall.c:186 | esp0 lies inside the pid's own 8 KB block, four bytes below its top. It fits in 32 bits for every pid value. |
| Process.GetFopsTable | student-distrib/systemcall.c:444-450 | NULL exactly for indices outside 0..5. Indices 0-3 give the RTC, directory, file and terminal tables, in both directions. 4 and 5 give unfilled slots. |
| Process.LowestFree | student-distrib/systemcall.c:130-140 | The slot found is free, and every lower slot is used. No slot is found only when all six are used. |
| Process.StdFds | student-distrib/systemcall.c:171-179 | A new process's fds 0 and 1 are open on the terminal table with inode -1 and position 0. Fds 2-7 are marked closed, and their other fields are kept. |
| Process.ArgBuffer | student-distrib/systemcall.c:143-145 | For a command shorter than 128 bytes, the 128-byte argument buffer starts with the command line and is NUL-filled after it. Read back as a C string, it is the command again. |
| Process.Boot | student-distrib/systemcall.c:4-12 | Before the first process no slot is used and no pid runs. The terminals are as `term_init` leaves them. |
| Syscall.Claim | student-distrib/systemcall.c:130-140 | Claiming slot p marks only p used and makes p the running pid. The displayed terminal's pid becomes p, and nothing else changes. |
| Syscall.Load | student-distrib/systemcall.c:152-189 | Only p's frame receives the program; every other frame keeps its contents. Only directory entry 32 changes, to a 4 MB user page over p's frame. The TSS gets the kernel data segment and p's kernel stack. Nothing else in the kernel changes. |
| Syscall.NewPcb | student-distrib/systemcall.c:143-189 | The new PCB records its pid, its caller's context, the replaced TSS and the command line. Its fds are fresh. Its parent is -1 for pids 0-2 and the displayed terminal's previous pid otherwise. |
| Syscall.Execute | student-distrib/systemcall.c:93-213 | Returns 0 exactly for a name over 32 bytes, and -1 on every other failure; every failure leaves only the prologue's effects. It enters user mode exactly when a slot is free, the pid is below 5, the command fits, the name resolves and the file starts with the ELF magic. |
| Syscall.LaunchState | student-distrib/systemcall.c:130-209 | After a successful execute, the new pid is the lowest free slot, now used, and the displayed terminal's process. Its PCB has the caller, parent, arguments and fresh fds, and other PCBs are unchanged. The command line `getargs` reads back is exactly the command. The frame holds the file, and the user window and TSS are the new pid's. |
| Syscall.CloseIn | student-distrib/systemcall.c:307-319 | close refuses fds 0-1, fds outside 0..7 and closed fds, changing nothing. Otherwise it clears exactly that fd's flag, and the file system's copy as well for files and directories. A terminal fd empties the displayed line buffer and returns -1. The result is 0 exactly for a non-terminal fd. |
| Syscall.Close | student-distrib/systemcall.c:307-319 | `close` on the running process's table has the effect of CloseIn and leaves every other PCB unchanged. A refused fd changes nothing. |
| Syscall.CloseAll | student-distrib/systemcall.c:25-30 | After halt's loop, every fd from 2 on is closed. Fds 0-1 keep their flag, and every other field is kept. |
| Syscall.CloseAllGlobal | student-distrib/systemcall.c:25-30 | The loop closes the file system's copy of exactly the open file and directory fds it closes. |
| Syscall.CloseAllKeyboard | student-distrib/systemcall.c:25-30 | The loop empties the displayed line buffer exactly when it closes an open terminal fd. |
| Syscall.ReturnedStatus | student-distrib/systemcall.c:49-51 | The parent sees 256 exactly for status 111. Every other status passes through unchanged. |
| Syscall.HaltOutput | student-distrib/systemcall.c:52-57 | halt prints the Ctrl+C banner for status 42 and otherwise only a newline. The output always ends in a newline. |
| Syscall.Detach | student-distrib/systemcall.c:19-57 | halt frees the slot and closes the fds, and the parent becomes the running pid. The scheduled terminal takes the parent pid and the saved parent stack, which is cleared in the PCB. Paging, TSS, screen, clock and PIC are untouched. |
| Syscall.HaltFinish | student-distrib/systemcall.c:64-82 | The user window and TSS are bound to the pid now running, and control returns on the saved parent stack with the value. |
| Syscall.RestartShell | student-distrib/systemcall.c:59-62 | With no process left, the new shell is entered exactly when it can be launched. Otherwise halt continues on its own path after execute's prologue. |
| Syscall.Halt | student-distrib/systemcall.c:19-87 | halt either resumes the parent with the translated status or enters a new shell. A process with a parent always resumes it. |
| Syscall.HaltResumesParent | student-distrib/systemcall.c:19-87 | A process with a parent halts into it. The slot is freed, the parent runs with its own user window and TSS, its execute returns the status, and the console gets the halt output. |
| Syscall.HaltRestartsShell | student-distrib/systemcall.c:33-62 | A process without a parent is replaced by a shell exactly when one can be launched. Otherwise it returns with its slot freed and no pid running. |
| Syscall.ExecuteThenHalt | student-distrib/systemcall.c:19-213 | Executing a child and then halting it returns to the caller's stack with the translated status. The slot table, running pid, user window and TSS are the parent's again. |
| Syscall.Read | student-distrib/systemcall.c:221-246 | read refuses fd 1, fds outside 0..7, a NULL buffer and closed fds, changing nothing. Otherwise the driver runs on a copy of the process's table, which comes back as the driver left it. Each of the four drivers' results is stated. A directory read of any count is covered, given the caller's buffer contents. |
| Syscall.Write | student-distrib/systemcall.c:255-265 | write refuses fd 0, fds outside 0..7, a NULL buffer and closed fds. Files and directories always fail. The clock accepts exactly the rates with a code and changes only its rate nibble. The terminal appends the bytes to the console. |
| Syscall.Open | student-distrib/systemcall.c:271-300 | An unknown name or a full table gives -1, with nothing changed. Otherwise the lowest closed fd gets the entry's inode, its type's table, position 0 and the open flag. For the clock, register A is set to 2 Hz and the masks are exactly those left by enabling IRQ 8. For a file or directory, the file system fills its own slot. Nothing else in the kernel changes: a terminal open touches only the fd, and only a clock open touches the clock or the masks. |
| Syscall.OpenThenClose | student-distrib/systemcall.c:271-319 | Opening a name and closing the fd it returns restores every open flag of the table. close reports 0 exactly when the name is not the terminal. |
| Syscall.ArgsScan | student-distrib/systemcall.c:336-351 | The two-flag scan stops exactly at the start of the arguments: after the first word and the spaces that follow it. |
| Syscall.Getargs | student-distrib/systemcall.c:326-370 | -1 for a NULL buffer or nbytes < 1. Otherwise 0 exactly when the arguments are non-empty and fit in nbytes; the output is then the arguments, NUL-padded to nbytes. |
| Syscall.Vidmap | student-distrib/systemcall.c:378-402 | Succeeds exactly for a pointer in [128 MB, KEY_MEM), and fails without change otherwise. On success entry 34 is a present user 4 KB entry over `vid_table`. Entry 0 of `vid_table` maps the VGA page, and 0x08800000 is written back. |
| Syscall.VidmapShowsVideo | student-distrib/systemcall.c:378-402 | After vidmap, every address in the page it hands out translates to the same offset in the VGA text page. |
| FileSys.LookupKey | student-distrib/file_sys.c:43-47 | The searched name is the given name with at most one trailing newline dropped. |
| FileSys.Search | student-distrib/file_sys.c:56-78 | The search finds the first entry among `dir_count` whose stored name equals the key, or reports that none matches. |
| FileSys.ReadDentryByName | student-distrib/file_sys.c:39-82 | NULL and names over 32 bytes fail. A found entry is the first matching entry, and it lies within both `dir_count` and `inode_count`. No result means no such entry matches. |
| FileSys.LookupFindsEntry | student-distrib/file_sys.c:39-82 | Looking up an entry's stored name, with or without a trailing newline, returns that entry when no earlier entry has the same name. |
| FileSys.ReadDentryByIndex | student-distrib/file_sys.c:88-104 | Succeeds exactly when the index is below `inode_count`, and then returns that entry. |
| FileSys.ReadCount | student-distrib/file_sys.c:115-121 | A read from inside the file never goes past its end. |
| FileSys.ReadDataLoop | student-distrib/file_sys.c:110-138 | Returns 0 for an inode out of range or an offset at or past the end, and min(len, length - offset) otherwise. Byte k is byte (offset+k) mod 4096 of the data block listed for (offset+k)/4096. |
| FileSys.ReadDataSplit | student-distrib/file_sys.c:110-138 | Reading a bytes and then b bytes from where the first read stopped gives the same bytes as one read of a+b. |
| FileSys.LowestClosed | student-distrib/file_sys.c:182-194 | The fd found is closed, and every lower fd is open. None is found only when all eight are open. |
| FileSys.FsInit | student-distrib/file_sys.c:13-33 | After init only fds 0 and 1 are open. Every inode and position is 0, and the tables are kept. |
| FileSys.FileRead | student-distrib/file_sys.c:145-162 | An fd out of range returns 0. Otherwise the count is the bytes read_data delivers, the buffer holds them followed by zeros, and the position advances by exactly the count. |
| FileSys.FileReadChunk | student-distrib/file_sys.c:145-162 | One chunked file_read returns 0 exactly when nothing remains. Otherwise it returns the next bytes of the file and moves the cursor past them. |
| FileSys.ReadMore | student-distrib/file_sys.c:145-162 | One more non-empty read extends what has been read so far with the next bytes of the file and strictly shrinks what remains. |
| FileSys.ReadUntilEnd | student-distrib/file_sys.c:145-162 | Reading with any chunk size until a read returns 0 delivers exactly the rest of the file from the starting position. The cursor ends past it, and a further read returns 0. |
| FileSys.FileWrite | student-distrib/file_sys.c:168-170 | file_write always fails. |
| FileSys.FileClose | student-distrib/file_sys.c:207-218 | Succeeds exactly for fds 2-7, and then clears only that fd's flag. Any other fd fails with nothing changed. |
| FileSys.FileOpen | student-distrib/file_sys.c:176-202 | An unknown name fails unchanged. Otherwise the lowest closed slot gets position 0, and the inode for a regular file or 0 for any other type. |
| FileSys.DirOpen | student-distrib/file_sys.c:264-295 | An unknown name fails unchanged. Otherwise the lowest closed slot is reset. The call fails exactly when the entry is not a directory, and returns that slot otherwise. |
| FileSys.DirRead | student-distrib/file_sys.c:225-251 | An fd outside 0..7 gives -1. Every in-range call advances the position by one, whatever the count. Past `inode_count` it returns 0 and leaves the buffer alone. When the count covers the name, the buffer holds the name, NUL-filled to the count, and the result is the name's length. When the count is shorter, the buffer holds that much of the name, then the caller's old bytes up to a NUL stored after the name. The result is the count plus the old bytes before their first NUL. Bytes outside that window are kept. |
| FileSys.DirReadShort | student-distrib/file_sys.c:236-250 | With a short count and a buffer whose byte at the count is NUL, the result is the count, and the buffer starts with that much of the name. With a non-NUL byte there, the result exceeds the count. |
| FileSys.ListDirectory | student-distrib/file_sys.c:225-251 | Repeated reads with a cleared 33-byte buffer and a count of 32, until one returns 0, yield the stored names in index order from the cursor. They stop at `inode_count` or the first empty name, matching the reference `Listing`. |
| Keyboard.Pressed | student-distrib/kb.c:150-161 | Letters take the upper-case column exactly when shift XOR caps. Other keys take the shifted column exactly when shift is held. |
| Keyboard.LetterCase | student-distrib/kb.c:150-161 | For every letter key, the shifted column is the letter minus 0x20. Pressing it yields the upper-case letter exactly when shift XOR caps. |
| Keyboard.Modifier | student-distrib/kb.c:111-146 | Caps toggles. Shift, ctrl and alt presses set their flag and releases clear it. Buffers and the read flag never change. |
| Keyboard.Edit | student-distrib/kb.c:168-207 | Only the current buffer and the read flag can change, and no modifier flag does. An echo appends exactly the echoed byte. An erase removes exactly the last byte of a non-empty buffer. Any other action leaves the state alone. The read flag changes only by being raised, together with an echoed newline or carriage return. The per-key outcomes are in the three lemmas below. |
| Keyboard.EditCommands | student-distrib/kb.c:168-185 | Backspace on an empty buffer does nothing. On a non-empty buffer it removes the last byte and erases five cells for a tab, one otherwise. Ctrl+L gives a screen clear and Ctrl+C a halt with 42, both with the buffer untouched. |
| Keyboard.EditLineEnd | student-distrib/kb.c:186-192 | A newline or carriage return that is not a Ctrl command is echoed, appended and raises the read flag when fewer than 128 bytes are buffered. Otherwise it is dropped. |
| Keyboard.EditOther | student-distrib/kb.c:193-207 | Alt+F1, F2 or F3 switches to terminal 0, 1 or 2. Any other byte is echoed and appended when fewer than 127 bytes are buffered, and dropped otherwise. |
| Keyboard.Handler | student-distrib/kb.c:95-211 | The EOI for line 1 is issued on every path. A modifier gives exactly `Modifier`'s flag update and no action. A key that is past the table or produces 0, other than F1-F3, is ignored. Every other key has exactly `Edit`'s effect on its translated byte. Other terminals' buffers never change. |
| Keyboard.BackspaceUndoesKey | student-distrib/kb.c:168-207 | A key that buffers a byte is undone by a backspace, which erases the one cell (or five for a tab) it echoed. |
| Keyboard.ClearBuffer | student-distrib/kb.c:213-219 | Empties the current terminal's buffer and nothing else. |
| Keyboard.KeyboardInit | student-distrib/kb.c:84-88 | Unmasks line 1 and changes no other mask bit. Empties the current buffer and clears the screen. |
| Keyboard.Init | student-distrib/kb.c:7-14 | At boot, every modifier is off and every buffer is empty. |
| Terminal.TermInit | student-distrib/terminal.c:104-112 | Every terminal has pid -1, is off and has esp/ebp 0. Terminal 0 is both displayed and scheduled. |
| Terminal.OpenTerminal | student-distrib/terminal.c:117-133 | An id out of range or already displayed changes nothing. Otherwise the live screen is saved into the old terminal's page, and the new terminal's page is shown. |
| Terminal.SwitchAndBack | student-distrib/terminal.c:117-133 | Switching to another terminal and back restores the terminals and the live screen, and leaves the other terminal's page holding what it showed. |
| Terminal.TerminalOpen | student-distrib/terminal.c:11-13 | terminal_open always succeeds. |
| Terminal.TerminalClose | student-distrib/terminal.c:20-23 | terminal_close empties the displayed buffer and returns -1. |
| Terminal.Line | student-distrib/terminal.c:57-62 | The copied line is a prefix of the buffer with no earlier newline. It ends in a newline unless it is the whole buffer, and it is the whole buffer when the buffer has no newline. |
| Terminal.LineAtFirstNewline | student-distrib/terminal.c:57-62 | When the first newline is at i, the line is exactly the first i+1 bytes. |
| Terminal.TerminalRead | student-distrib/terminal.c:32-66 | A NULL buffer returns 0 and only clears the flag. Otherwise 128 bytes come out: the line, then zeros. The count is the line's length, the displayed buffer is emptied and the flag cleared, whatever nbytes is. |
| Terminal.TerminalWrite | student-distrib/terminal.c:76-98 | NULL gives -1. Otherwise the first nbytes bytes are printed (none for a negative count), and their number is returned. |
| Rtc.WithRate | student-distrib/rtc.c:135-137 | The new register A has the requested rate-select nibble, and its high nibble is kept. |
| Rtc.RateCodeIsSixteenMinusLog | student-distrib/rtc.c:130-131 | The code for 2^k is 16 - k, for k from 1 to 10. |
| Rtc.RateCodeOnlyPowers | student-distrib/rtc.c:126-131 | Only the powers of two from 2 to 1024 have a code. |
| Rtc.ScanBits | student-distrib/rtc.c:113-123 | The 32-bit scan counts the set bits of the rate. When there is exactly one, the recorded index is its position. |
| Rtc.AcceptedRate | student-distrib/rtc.c:124-131 | For a single-bit rate in [2,1024], the decremented index is within the table, and the table gives that rate's code. |
| Rtc.CodedRatePasses | student-distrib/rtc.c:126-128 | Every rate with a code passes the driver's range and single-bit checks. |
| Rtc.RtcWrite | student-distrib/rtc.c:108-140 | NULL or nbytes other than 4 fails unchanged. A rate is accepted exactly when it has a code, and then only the rate nibble of register A changes. |
| Rtc.RtcWriteRateSelect | student-distrib/rtc.c:130-137 | An accepted rate 2^k programs rate-select 16 - k. The MC146818's periodic rate for that select, 32768 >> (select - 1), is 2^k Hz again. |
| Rtc.RtcOpen | student-distrib/rtc.c:70-80 | NULL fails unchanged. Otherwise the clock runs at 2 Hz, keeping the high nibble, and its line is unmasked on the slave; the master mask is untouched. |
| Rtc.RtcRead | student-distrib/rtc.c:94-101 | rtc_read consumes the interrupt flag and returns 0. |
| Rtc.RtcClose | student-distrib/rtc.c:86-88 | rtc_close does nothing and returns 0. |
| Rtc.RtcInterrupt | student-distrib/rtc.c:45-63 | The handler raises the flag and issues the slave EOI for line 0 and then the master EOI for the cascade line. |
| Paging.PdeRoundTrip | student-distrib/paging.h:17-29 | Decoding the 32-bit word of a directory entry gives the entry back. |
| Paging.PdeWordRoundTrip | student-distrib/paging.h:17-29 | Every 32-bit word is the encoding of the directory entry it decodes to. |
| Paging.PteRoundTrip | student-distrib/paging.h:32-44 | Decoding the 32-bit word of a table entry gives the entry back. |
| Paging.PteWordRoundTrip | student-distrib/paging.h:32-44 | Every 32-bit word is the encoding of the table entry it decodes to. |
| Paging.PageInit | student-distrib/paging.c:12-80 | Only directory entries 0 and 1 are present: entry 0 has 4 KB pages over the table, entry 1 is a 4 MB page at 4 MB. Every table entry i has frame i. Exactly 0xB8 and 0xBA-0xBC are present, and only 0xBA-0xBC are user pages. |
| Paging.PageInitMapping | student-distrib/paging.c:12-80 | After page_init, the VGA page, the three save pages and the kernel's 4 MB translate to themselves, and every other address faults. |
| Paging.UserFrame | student-distrib/systemcall.c:154 | The frame field is (8 MB + 4 MB·pid) >> 12 whenever that address fits in 32 bits. |
| Paging.UserWindowPde | student-distrib/systemcall.c:152-154 | Entry 32 is a present, writable, user, 4 MB, global page over the pid's frame, with every other bit clear. |
| Paging.BindUserWindow | student-distrib/systemcall.c:152-155 | Binding changes entry 32 only. |
| Paging.BindUserWindowTwice | student-distrib/systemcall.c:66-69 | A second binding replaces the first entirely. So halt's rebinding after execute's leaves exactly the parent's window. |
| Paging.UserWindowMapping | student-distrib/systemcall.c:152-155 | Once bound to pid, the window at 128 MB translates to 8 MB + 4 MB·pid plus the offset. |
| Paging.VidmapPde | student-distrib/systemcall.c:385-388 | Entry 34 becomes present, writable, user, 4 KB pages over `vid_table`, and its other fields are kept. |
| Paging.VideoPte | student-distrib/systemcall.c:391-392 | Entry 0 of `vid_table` becomes present, writable and user on the given page, and its other fields are kept. |
| Paging.VidmapMapping | student-distrib/systemcall.c:385-396 | 0x08800000 is the start of entry 34. After the two updates, every address in that page reaches the target page at the same offset. |
| Idt.DefaultGate | student-distrib/idt.c:103-129 | A gate's type is a 32-bit trap gate exactly for vectors below 32 and 0x80, and an interrupt gate otherwise. |
| Idt.InitIdt | student-distrib/idt.c:100-163 | All 256 gates are present on the kernel code segment. A gate is a trap gate exactly for vectors below 32 and 0x80, and DPL 3 exactly for 0x80. Vectors 0-19 go to their stubs, 20-31 to NULL, and 0x80, 0x21, 0x28 and 0x20 to their wrappers. |
| Idt.ExceptionHandler | student-distrib/idt.c:171-221 | Halts with 111 exactly for ids 0-19 and 0x80, and returns without halting otherwise. |
| Pic.Init | student-distrib/i8259.c:43-68 | After init only the cascade line of the master is unmasked, and every slave line is masked. |
| Pic.UpdateBit | student-distrib/i8259.c:89-111 | Setting or clearing bit n changes only that line. A shift of 8 or more, truncated to the 8-bit port, changes nothing. |
| Pic.EnableIrq | student-distrib/i8259.c:76-91 | Lines 0-7 unmask the master bit and lines 8-15 the slave bit irq-8. No other bit or chip changes. |
| Pic.DisableIrq | student-distrib/i8259.c:98-113 | The same bit is masked, and no other bit or chip changes. |
| Pic.DisableAfterEnable | student-distrib/i8259.c:76-113 | Disabling a masked line after enabling it restores both registers. |
| Pic.EnableAfterDisable | student-distrib/i8259.c:76-113 | Enabling an unmasked line after disabling it restores both registers. |
| Pic.EoiValueOfLine | student-distrib/i8259.c:128-135 | The command byte for line n below 8 is 0x60 + n. |
| Pic.SendEoi | student-distrib/i8259.c:122-137 | A master line gets one EOI with its number. A slave line gets the slave EOI for irq-8, then the master EOI for line 2. |
| Schedule.NextTerminal | student-distrib/schedule.c:47 | The cursor stays in 0..2. It wraps to 0 exactly from 2, and otherwise goes up by one. |
| Schedule.RoundRobinVisitsAll | student-distrib/schedule.c:47 | Three ticks from any terminal visit all three terminals once and come back. |
| Schedule.VideoFrame | student-distrib/schedule.c:74-79 | The user video page is video memory when the scheduled terminal is displayed, and that terminal's save page otherwise. |
| Schedule.VideoFramesDistinct | student-distrib/schedule.c:74-79 | Different terminals get different pages, and a terminal that is not displayed never gets video memory. |
| Schedule.SeedPrologue | student-distrib/schedule.c:32-35 | The terminal is marked on and displayed. Pids and the process table are unchanged. |
| Schedule.Seed | student-distrib/schedule.c:32-44 | Seeding marks the terminal on and leaves the cursor. It enters the shell exactly when execute can launch it. Otherwise the previously displayed terminal is displayed again. |
| Schedule.TimerTick | student-distrib/schedule.c:27-102 | The PIT EOI is sent and the cursor stays in 0..2. It advances only when the terminal is on. A switch happens exactly when the terminal is on and the next terminal's pid is 3 or more. |
| Schedule.NoSwitchToRootShell | student-distrib/schedule.c:47-53 | A tick that lands on a root shell or an empty terminal only moves the cursor. |
| Schedule.SwitchState | student-distrib/schedule.c:56-98 | On a switch, the target pid runs and its terminal is scheduled. The window translates to 8 MB + 4 MB·pid. The video page follows VideoFrame, and esp0 is 8 MB - 8 KB·pid - 4. The stack loaded is the one just saved. |
| Schedule.SeedStartsShell | student-distrib/schedule.c:32-44 | A seeded shell is the lowest free pid, becomes the terminal's process, has no parent when its pid is below 3, and runs in user mode. When it cannot launch, the display returns to the previous terminal. |

## Left out

- **Inline assembly.** This covers:
  - the `iret` frame and the `HALT_RET` label;
  - the esp/ebp capture and restore;
  - `leave; ret` in `halt`;
  - the CR0/CR3/CR4 writes in `enabling`;
  - `flush_tlb` and `lidt`.

  These become `Transfer` values or `Context` fields, or do nothing. The
  exception stubs (`idt.c:14-90`) are a handler tag carrying their vector.
- **Port I/O.** `rtc_init`, the 8259 initialisation words, the keyboard
  scancode read and the CMOS index writes are left out as hardware access.
  The scancode is a parameter, and register A is state.
- **`PIT_init`.** It only programs the timer chip.
- **Busy-waits and cli/sti.** The spins in `rtc_read` and `terminal_read`
  are modelled from the moment their flag is seen set, and cli/sti pairing
  is not modelled. Both belong to interrupt concurrency.
- **Screen drawing.** `putc`/`puts` output is kept as bytes. `del_c`,
  `clear_screen` and `open_terminal` requests from the keyboard are
  `KeyAction` values. `update_cursor` and character rendering are not
  modelled; that code is not part of this model.
- **Exception messages.** The exception name that `exception_handler`
  prints with `printf` before halting with 111 is not modelled.
  `Idt.ExceptionHandler` states only the halt.
- **`tests.c`.** It is an interactive test harness, not kernel logic.
- **Function-pointer tables.** `init_fops_tables` and the fops dispatch are
  the closed enumeration `FileSys.Ops`, returned by `Process.GetFopsTable`.
- **`set_handler` and `sigreturn`.** Both always return -1 and touch no
  state.
- **`old_pid`.** It only carries the parent pid into `execute`, and it is
  represented there by `Pcb.parentPid`.
- **The user buffer.** Buffers passed to `read`, `write` and `getargs` are
  byte sequences. The model does not check that the caller's memory is as
  large as what is written.
- FileSys.DirReadDefined: `dir_read` also reads back bytes of the caller's
  buffer that it did not write. The model takes those bytes as the
  parameter `prior`, and asks only that `prior` reach as far as the call
  writes or reads. Every count and every buffer content is covered.
- **Interrupted stacks.** The kernel context a system call or tick was
  entered on is a parameter (`caller`, `frame`, `here`).
- **Returning into a seeding tick.** When a later `halt` resumes onto the
  stack of a seeding tick's `execute`, the rest of that tick is not
  modelled. The model gives the `Transfer`, not what runs after it.
- **Undefined behaviour, excluded by preconditions.** These are:
  - a 32-byte program name, whose terminator overflows the name buffer (`Syscall.ExecuteDefined`);
  - an empty file name, for which the lookup reads the byte before it (`FileSys.LookupDefined`);
  - a program file too short for the header bytes `execute` inspects (`Syscall.HeaderDefined`);
  - `file_open`/`dir_open` with every global fd open, which reads an uninitialised `free_fd` (`FileSys.OpenDefined`);
  - `getargs` asked for more than 128 bytes (`Syscall.GetargsDefined`);
  - a 128-byte command that passes every check of `execute`: `strcpy` puts its terminator past the PCB's 128-byte argument buffer (`Syscall.ExecuteDefined`);
  - `getargs` on an argument buffer without a terminator, which overflows its 128-byte stack copy (`Syscall.GetargsDefined`);
  - a negative count to `memset` in `file_read` or `dir_read` (`Syscall.ReadDefined`, `FileSys.DirReadDefined`);
  - dispatch through the unfilled table slots 4 and 5 (`Syscall.CloseDefined`, `Syscall.ReadDefined`, `Syscall.WriteDefined`, `Syscall.OpenDefined`);
  - `open` on a directory entry whose type is 6 or more: `get_fops_table` returns NULL and `open` calls through it (`Syscall.OpenDefined`);
  - an IRQ number whose shift overflows an `int` (`Pic.ShiftDefined`).
- **A NULL command to `execute`.** The code dereferences the command while
  parsing the name, before it tests for NULL, so that test never fires. The
  model's command is always present.
- **Out-of-table scancodes.** Keyboard scancodes past the 0x3B-entry table
  read a byte past the end of the table. The model takes that byte as the parameter
  `stray` rather than excluding those scancodes, because Alt+F1..F3 depend
  on them.

=== FILE: common.dfy ===
/** Shared vocabulary of the kernel model: machine integer ranges, the
    Option wrapper used for NULL pointers and failed lookups, and the small
    byte-level helpers several drivers need. */
module Common {

  /** An unsigned 8-bit value. */
  type byte = x: int | 0 <= x < 0x100

  /** An unsigned 32-bit value. */
  type u32 = x: int | 0 <= x < 0x1_0000_0000

  datatype Option<+T> = None | Some(value: T)

  /** The four flat segments of the GDT, named rather than numbered: their
      selector values are defined outside the modelled sources. */
  datatype Selector = KernelCs | KernelDs | UserCs | UserDs

  const NUL: byte := 0x00
  const SPACE: byte := 0x20
  const NEWLINE: byte := 0x0A
  const CARRIAGE_RETURN: byte := 0x0D
  const TAB: byte := 0x09

  /** A signed 32-bit value. */
  type i32 = x: int | -0x8000_0000 <= x < 0x8000_0000

  /** The byte of an ASCII character. */
  function Ascii(c: char): byte
    requires c as int < 0x80
  {
    c as int
  }

  /** The bytes of an ASCII string literal. */
  function AsciiString(s: string): (r: seq<byte>)
    requires forall i :: 0 <= i < |s| ==> s[i] as int < 0x80
    ensures |r| == |s| && forall i :: 0 <= i < |s| ==> r[i] == s[i] as int
  {
    if |s| == 0 then [] else [Ascii(s[0])] + AsciiString(s[1..])
  }

  /** A C string's contents: the bytes before its terminating NUL. */
  predicate NoNul(s: seq<byte>) {
    forall i :: 0 <= i < |s| ==> s[i] != NUL
  }

  function Min(a: int, b: int): int {
    if a <= b then a else b
  }

  function Pow2(k: nat): (r: nat)
    ensures r >= 1
  {
    if k == 0 then 1 else 2 * Pow2(k - 1)
  }

  lemma {:induction false} Pow2Monotone(a: nat, b: nat)
    requires a < b
    ensures Pow2(a) < Pow2(b)
  {
    if b == a + 1 {
    } else {
      Pow2Monotone(a, b - 1);
    }
  }

  lemma {:induction false} Pow2Add(a: nat, b: nat)
    ensures Pow2(a + b) == Pow2(a) * Pow2(b)
  {
    if a > 0 {
      Pow2Add(a - 1, b);
    }
  }

  lemma Pow2Of32()
    ensures Pow2(32) == 0x1_0000_0000
  {
    assert Pow2(8) == 0x100;
    Pow2Add(8, 8);
    Pow2Add(16, 16);
  }

  /** The little-endian 32-bit value of four bytes. */
  function LittleEndian32(b: seq<byte>): (r: u32)
    requires |b| == 4
    ensures r % 0x100 == b[0]
    ensures r / 0x100_0000 == b[3]
  {
    b[0] as int + 0x100 * (b[1] as int) + 0x1_0000 * (b[2] as int) + 0x100_0000 * (b[3] as int)
  }

  /** A sequence of n zero bytes. */
  function Zeros(n: nat): (r: seq<byte>)
    ensures |r| == n
    ensures forall i :: 0 <= i < n ==> r[i] == NUL
  {
    seq(n, _ => NUL)
  }
}

=== FILE: filesys.dfy ===
/** The read-only file system: a boot block of directory entries, a run of
    inodes and a run of 4096-byte data blocks, with name and index lookup,
    block-indexed reads, and the global file-descriptor array the file and
    directory drivers keep their cursors in. */
module FileSys {
  import opened Common

  /** Directory entries the boot block has room for. */
  const DIRENTRIES_SIZE: nat := 63
  const NUM_DATA_BLOCKS: nat := 1024
  const BLOCK_SIZE: nat := 4096
  const MAX_NAME_LENGTH: nat := 32
  const RTC_FILE_TYPE: nat := 0
  const DIR_FILE_TYPE: nat := 1
  const REG_FILE_NUM: nat := 2
  const FD_COUNT: nat := 8
  /** An inode names at most 1023 data blocks. */
  const MAX_FILE_LENGTH: nat := (NUM_DATA_BLOCKS - 1) * BLOCK_SIZE
  /** The unsigned value -1 stored in a descriptor's inode field. */
  const NO_INODE: u32 := 0xFFFF_FFFF

  /** A directory entry: a 32-byte name (NUL-padded, not necessarily
      NUL-terminated), the file type and the inode number. */
  datatype Dentry = Dentry(name: seq<byte>, filetype: u32, inode: u32)

  /** An inode: the file length in bytes and its 1023 data-block numbers. */
  datatype Inode = Inode(length: u32, blocks: seq<u32>)

  /** A file-system image.  `dentries` is the boot block's entry array read
      as far as an index can reach: `read_dentry_by_index` bounds its index
      by `inodeCount`, not by the 63 slots, so entries from 63 on stand for
      the bytes after the boot block read as directory entries. */
  datatype Image = Image(dirCount: u32, inodeCount: u32, dentries: seq<Dentry>,
                         inodes: seq<Inode>, data: seq<seq<byte>>)

  /** Whether inode `i` describes a file that lies inside the image. */
  predicate InodeFits(img: Image, i: Inode) {
    && i.length <= MAX_FILE_LENGTH
    && |i.blocks| == NUM_DATA_BLOCKS - 1
    && forall k :: 0 <= k < |i.blocks| && k * BLOCK_SIZE < i.length ==> i.blocks[k] < |img.data|
  }

  predicate WellFormed(img: Image) {
    && img.dirCount <= DIRENTRIES_SIZE
    && DIRENTRIES_SIZE <= |img.dentries| && img.inodeCount <= |img.dentries|
    && (forall d :: d in img.dentries ==> |d.name| == MAX_NAME_LENGTH)
    && |img.inodes| == img.inodeCount
    && (forall i :: i in img.inodes ==> InodeFits(img, i))
    && (forall b :: b in img.data ==> |b| == BLOCK_SIZE)
  }

  /** The length of a C string stored in `s`: the bytes before the first
      NUL, or all of `s` when it holds none. */
  function NameLength(s: seq<byte>): (n: nat)
    ensures n <= |s| && NoNul(s[..n])
    ensures n < |s| ==> s[n] == NUL
  {
    if |s| == 0 || s[0] == NUL then 0
    else
      var m := NameLength(s[1..]);
      assert s[..1 + m] == [s[0]] + s[1..][..m];
      1 + m
  }

  /** A C string ends at its first NUL. */
  lemma FirstNul(s: seq<byte>, n: nat)
    requires n < |s| && NoNul(s[..n]) && s[n] == NUL
    ensures NameLength(s) == n
  {
  }

  /** The name a directory entry stores, as the lookup counts it. */
  function StoredName(d: Dentry): (r: seq<byte>)
    ensures |r| <= |d.name| && NoNul(r)
  {
    d.name[..NameLength(d.name)]
  }

  /** The name `read_dentry_by_name` searches for: one trailing newline is
      dropped. */
  function LookupKey(fname: seq<byte>): (key: seq<byte>)
    requires |fname| > 0
    ensures key == fname || key + [NEWLINE] == fname
  {
    if fname[|fname| - 1] == NEWLINE then fname[..|fname| - 1] else fname
  }

  /** Directory entry `i` matches `key`: same stored length, same bytes. */
  predicate Matches(img: Image, i: nat, key: seq<byte>)
    requires WellFormed(img) && i < img.dirCount
  {
    StoredName(img.dentries[i]) == key
  }

  /** The first entry at or after `i` among the first `dirCount` that
      matches `key`. */
  function Search(img: Image, key: seq<byte>, i: nat): (r: Option<nat>)
    requires WellFormed(img)
    decreases img.dirCount - i
    ensures r.Some? ==> i <= r.value < img.dirCount && Matches(img, r.value, key)
    ensures r.Some? ==> forall j :: i <= j < r.value ==> !Matches(img, j, key)
    ensures r.None? ==> forall j :: i <= j < img.dirCount ==> !Matches(img, j, key)
  {
    if i >= img.dirCount then None
    else if NameLength(img.dentries[i].name) == |key| && img.dentries[i].name[..|key|] == key then Some(i)
    else Search(img, key, i + 1)
  }

  /** `read_dentry_by_index`: fails exactly for an index at or beyond
      `inodeCount`; otherwise copies the entry. */
  function ReadDentryByIndex(img: Image, index: u32): (r: Option<Dentry>)
    requires WellFormed(img)
    ensures r.Some? <==> index < img.inodeCount
    ensures r.Some? ==> r.value == img.dentries[index]
  {
    if index >= img.inodeCount then None else Some(img.dentries[index])
  }

  /** Whether a name passed to `read_dentry_by_name` is one it can read:
      NULL, or a non-empty C string (an empty one is read at index -1). */
  predicate LookupDefined(fname: Option<seq<byte>>) {
    fname.Some? ==> |fname.value| > 0 && NoNul(fname.value)
  }

  /** `read_dentry_by_name`: NULL and names longer than 32 bytes (after one
      trailing newline is dropped) fail; otherwise the first matching entry
      among the first `dirCount` is read by index, and no match fails. */
  function ReadDentryByName(img: Image, fname: Option<seq<byte>>): (r: Option<Dentry>)
    requires WellFormed(img) && LookupDefined(fname)
    ensures fname.None? ==> r.None?
    ensures fname.Some? && |LookupKey(fname.value)| > MAX_NAME_LENGTH ==> r.None?
    ensures r.Some? ==> exists i :: 0 <= i < img.dirCount && i < img.inodeCount
                          && Matches(img, i, LookupKey(fname.value)) && r.value == img.dentries[i]
                          && forall j :: 0 <= j < i ==> !Matches(img, j, LookupKey(fname.value))
    ensures fname.Some? && r.None? && |LookupKey(fname.value)| <= MAX_NAME_LENGTH ==>
      forall i :: 0 <= i < img.dirCount && i < img.inodeCount ==>
        !Matches(img, i, LookupKey(fname.value)) || exists j :: 0 <= j < i && Matches(img, j, LookupKey(fname.value))
  {
    if fname.None? then None
    else
      var key := LookupKey(fname.value);
      if |key| > MAX_NAME_LENGTH then None
      else match Search(img, key, 0)
        case None => None
        case Some(i) => ReadDentryByIndex(img, i)
  }

  /** Looking up the stored name of an entry, with or without a trailing
      newline, finds that entry when no earlier entry stores the same name. */
  lemma LookupFindsEntry(img: Image, i: nat, newline: bool)
    requires WellFormed(img) && i < img.dirCount && i < img.inodeCount
    requires |StoredName(img.dentries[i])| > 0
    requires !newline ==> StoredName(img.dentries[i])[|StoredName(img.dentries[i])| - 1] != NEWLINE
    requires forall j :: 0 <= j < i ==> StoredName(img.dentries[j]) != StoredName(img.dentries[i])
    ensures var name := StoredName(img.dentries[i]);
            ReadDentryByName(img, Some(if newline then name + [NEWLINE] else name)) == Some(img.dentries[i])
  {
    var name := StoredName(img.dentries[i]);
    var fname := if newline then name + [NEWLINE] else name;
    assert NoNul(fname);
    assert LookupKey(fname) == name by {
      if newline { assert fname[..|fname| - 1] == name; }
    }
    assert Matches(img, i, name);
    assert Search(img, name, 0) == Some(i);
  }

  /** Where byte `pos` of inode `ino`'s file lives: the position in the
      block list, and that block's number, are inside the image. */
  lemma BlockInRange(img: Image, ino: nat, pos: nat)
    requires WellFormed(img) && ino < img.inodeCount && pos < img.inodes[ino].length
    ensures pos / BLOCK_SIZE < |img.inodes[ino].blocks|
    ensures img.inodes[ino].blocks[pos / BLOCK_SIZE] < |img.data|
    ensures |img.data[img.inodes[ino].blocks[pos / BLOCK_SIZE]]| == BLOCK_SIZE
  {
    var node := img.inodes[ino];
    assert node in img.inodes;
    var k := pos / BLOCK_SIZE;
    assert k * BLOCK_SIZE <= pos;
    assert img.data[node.blocks[k]] in img.data;
  }

  /** Byte `pos` of the file of inode `ino`: byte pos mod 4096 of the data
      block its block list names at position pos / 4096. */
  function BlockByte(img: Image, ino: nat, pos: nat): byte
    requires WellFormed(img) && ino < img.inodeCount && pos < img.inodes[ino].length
  {
    BlockInRange(img, ino, pos);
    img.data[img.inodes[ino].blocks[pos / BLOCK_SIZE]][pos % BLOCK_SIZE]
  }

  /** The whole contents of inode `ino`'s file, in order: byte k is byte
      k mod 4096 of the data block its block list names at position k / 4096. */
  function Content(img: Image, ino: nat): (r: seq<byte>)
    requires WellFormed(img) && ino < img.inodeCount
    ensures |r| == img.inodes[ino].length
    ensures forall k :: 0 <= k < |r| ==> r[k] == BlockByte(img, ino, k)
  {
    var len := img.inodes[ino].length;
    seq(len, k requires 0 <= k < len => BlockByte(img, ino, k))
  }

  /** How many bytes `read_data` delivers: none for a bad inode or an offset
      at or past the end, otherwise the request clamped to what is left. */
  function ReadCount(img: Image, ino: nat, offset: nat, len: nat): (n: nat)
    requires WellFormed(img)
    ensures ino < img.inodeCount && offset < img.inodes[ino].length ==> offset + n <= img.inodes[ino].length
  {
    if ino >= img.inodeCount || offset >= img.inodes[ino].length then 0
    else Min(len, img.inodes[ino].length - offset)
  }

  /** The bytes `read_data` delivers, as a reference definition: the slice
      of the file's contents at `offset`. */
  function ReadData(img: Image, ino: nat, offset: nat, len: nat): (r: seq<byte>)
    requires WellFormed(img)
    ensures |r| == ReadCount(img, ino, offset, len)
  {
    if ino >= img.inodeCount || offset >= img.inodes[ino].length then []
    else Content(img, ino)[offset..offset + ReadCount(img, ino, offset, len)]
  }

  /** `read_data`, with its block and in-block cursors: returns
      min(len, length - offset) bytes (none for a bad inode or an offset past
      the end), byte k being byte (offset + k) mod 4096 of the block the
      inode lists at position (offset + k) / 4096. */
  method ReadDataLoop(img: Image, ino: u32, offset: u32, len: u32) returns (n: int, out: seq<byte>)
    requires WellFormed(img)
    ensures n == |out|
    ensures ino >= img.inodeCount || offset >= img.inodes[ino].length ==> n == 0
    ensures ino < img.inodeCount && offset < img.inodes[ino].length ==>
      n == Min(len, img.inodes[ino].length - offset)
    ensures forall k :: 0 <= k < n ==> out[k] == BlockByte(img, ino, offset + k)
    ensures out == ReadData(img, ino, offset, len)
  {
    if ino >= img.inodeCount || offset >= img.inodes[ino].length {
      return 0, [];
    }
    var node := img.inodes[ino];
    var count := len;
    if count > node.length { count := node.length; }
    if offset + count > node.length { count := node.length - offset; }
    var blockNum: nat := offset / BLOCK_SIZE;
    var byteIndex: nat := offset % BLOCK_SIZE;
    out := [];
    var i := 0;
    while i < count
      invariant 0 <= i <= count && |out| == i
      invariant blockNum * BLOCK_SIZE + byteIndex == offset + i && byteIndex < BLOCK_SIZE
      invariant forall k :: 0 <= k < i ==> out[k] == BlockByte(img, ino, offset + k)
    {
      DivisionByBlock(offset + i, blockNum, byteIndex);
      BlockInRange(img, ino, offset + i);
      out := out + [img.data[node.blocks[blockNum]][byteIndex]];
      byteIndex := byteIndex + 1;
      if byteIndex >= BLOCK_SIZE {
        byteIndex := 0;
        blockNum := blockNum + 1;
      }
      i := i + 1;
    }
    n := count;
    forall k | 0 <= k < n
      ensures out[k] == ReadData(img, ino, offset, len)[k]
    {
      assert Content(img, ino)[offset + k] == BlockByte(img, ino, offset + k);
    }
  }

  lemma DivisionByBlock(x: nat, q: nat, r: nat)
    requires x == q * BLOCK_SIZE + r && r < BLOCK_SIZE
    ensures x / BLOCK_SIZE == q && x % BLOCK_SIZE == r
  {
  }

  /** Two consecutive reads deliver what one read of their total does. */
  lemma ReadDataSplit(img: Image, ino: nat, offset: nat, a: nat, b: nat)
    requires WellFormed(img)
    requires ino < img.inodeCount && offset + a <= img.inodes[ino].length
    ensures ReadData(img, ino, offset, a) + ReadData(img, ino, offset + a, b) == ReadData(img, ino, offset, a + b)
  {
    var c := Content(img, ino);
    var len := img.inodes[ino].length;
    if offset < len {
      if offset + a < len {
        assert c[offset..offset + a] + c[offset + a..offset + a + Min(b, len - offset - a)]
            == c[offset..offset + a + Min(b, len - offset - a)];
      }
    }
  }

  /** The drivers that can sit behind a descriptor; `Unset` is a slot of
      the operations table that no driver fills. */
  datatype Ops = RtcOps | DirOps | FileOps | TerminalOps | Unset

  /** A file descriptor: its operations table (None for NULL), inode,
      cursor and open flag. */
  datatype FdEntry = FdEntry(ops: Option<Ops>, inode: u32, position: u32, open: bool)

  predicate IsFdTable(fds: seq<FdEntry>) { |fds| == FD_COUNT }

  /** The lowest closed descriptor, if any. */
  function LowestClosed(fds: seq<FdEntry>): (r: Option<nat>)
    ensures r.Some? ==> r.value < |fds| && !fds[r.value].open
    ensures r.Some? ==> forall j :: 0 <= j < r.value ==> fds[j].open
    ensures r.None? ==> forall j :: 0 <= j < |fds| ==> fds[j].open
  {
    if |fds| == 0 then None
    else if !fds[0].open then Some(0)
    else match LowestClosed(fds[1..])
      case None => None
      case Some(i) => Some(i + 1)
  }

  /** `fileSystem_init`'s descriptor setup: every descriptor gets inode 0
      and cursor 0; only 0 and 1 (stdin, stdout) are open.  The operations
      pointers are left as they were. */
  function FsInit(fds: seq<FdEntry>): (r: seq<FdEntry>)
    requires IsFdTable(fds)
    ensures IsFdTable(r)
    ensures forall i :: 0 <= i < FD_COUNT ==>
      r[i].inode == 0 && r[i].position == 0 && r[i].ops == fds[i].ops && (r[i].open <==> i < 2)
  {
    seq(FD_COUNT, i requires 0 <= i < FD_COUNT => fds[i].(inode := 0, position := 0, open := i < 2))
  }

  /** The (unsigned) cursor after moving `n` bytes. */
  function Advance(pos: u32, n: nat): u32 {
    (pos + n) % 0x1_0000_0000
  }

  /** `file_read`: an fd outside 0..7 reads nothing; otherwise the first
      `nbytes` bytes of the buffer are zeroed, the bytes at the cursor are
      read into them, and the cursor advances by exactly the count returned.
      The result is (count, descriptors, bytes written to the buffer). */
  function FileRead(img: Image, fds: seq<FdEntry>, fd: int, nbytes: int): (r: (int, seq<FdEntry>, seq<byte>))
    requires WellFormed(img) && IsFdTable(fds)
    requires 0 <= fd < FD_COUNT ==> 0 <= nbytes < 0x8000_0000
    ensures !(0 <= fd < FD_COUNT) ==> r == (0, fds, [])
    ensures 0 <= fd < FD_COUNT ==>
      var e := fds[fd];
      var data := ReadData(img, e.inode, e.position, nbytes);
      && r.0 == |data| && r.2 == data + Zeros(nbytes - |data|)
      && r.1 == fds[fd := e.(position := e.position + r.0)]
  {
    if !(0 <= fd < FD_COUNT) then (0, fds, [])
    else
      var e := fds[fd];
      var data := ReadData(img, e.inode, e.position, nbytes);
      (|data|, fds[fd := e.(position := Advance(e.position, |data|))], data + Zeros(nbytes - |data|))
  }

  /** The bytes left to read from offset `pos` of inode `ino`. */
  function Remaining(img: Image, ino: nat, pos: nat): nat
    requires WellFormed(img)
  {
    if ino < img.inodeCount && pos < img.inodes[ino].length then img.inodes[ino].length - pos else 0
  }

  /** A reader calling `file_read` on `fd` with `c`-byte chunks until a read
      returns 0: the reads walk the file from the cursor to its end, together
      deliver exactly the rest of the file, and leave the cursor at the end. */
  method ReadUntilEnd(img: Image, fds0: seq<FdEntry>, fd: nat, c: nat) returns (out: seq<byte>, fds: seq<FdEntry>)
    requires WellFormed(img) && IsFdTable(fds0) && fd < FD_COUNT && 0 < c < 0x8000_0000
    ensures var e := fds0[fd];
      out == ReadData(img, e.inode, e.position, Remaining(img, e.inode, e.position))
    ensures IsFdTable(fds) && fds[fd].inode == fds0[fd].inode
    ensures fds[fd].position == fds0[fd].position + |out|
    ensures FileRead(img, fds, fd, c).0 == 0
  {
    var ino: nat, pos0: nat := fds0[fd].inode, fds0[fd].position;
    out, fds := [], fds0;
    var r := FileRead(img, fds, fd, c);
    while r.0 != 0
      invariant ReadSoFar(img, fds, fd, ino, pos0, out)
      invariant r == FileRead(img, fds, fd, c)
      decreases Remaining(img, ino, fds[fd].position)
    {
      ReadMore(img, fds, fd, c, ino, pos0, out);
      out, fds := out + r.2[..r.0], r.1;
      r := FileRead(img, fds, fd, c);
    }
    FileReadChunk(img, fds, fd, c, ino, pos0 + |out|);
    SameLength(img, ino, pos0, |out|, Remaining(img, ino, pos0));
  }

  /** What a reader has after some reads through `fd`, which started at
      offset `pos0` of inode `ino`: the first bytes of the rest of the file,
      with the cursor just past them. */
  predicate ReadSoFar(img: Image, fds: seq<FdEntry>, fd: nat, ino: nat, pos0: nat, out: seq<byte>)
    requires WellFormed(img)
  {
    && IsFdTable(fds) && fd < FD_COUNT && fds[fd].inode == ino
    && fds[fd].position == pos0 + |out|
    && out == ReadData(img, ino, pos0, |out|)
    && |out| <= Remaining(img, ino, pos0)
    && Remaining(img, ino, pos0 + |out|) == Remaining(img, ino, pos0) - |out|
  }

  /** A read that returns bytes extends what the reader has and leaves
      fewer bytes to read. */
  lemma ReadMore(img: Image, fds: seq<FdEntry>, fd: nat, c: nat, ino: nat, pos0: nat, out: seq<byte>)
    requires WellFormed(img) && ReadSoFar(img, fds, fd, ino, pos0, out) && 0 < c < 0x8000_0000
    requires FileRead(img, fds, fd, c).0 != 0
    ensures var r := FileRead(img, fds, fd, c);
      && ReadSoFar(img, r.1, fd, ino, pos0, out + r.2[..r.0])
      && Remaining(img, ino, r.1[fd].position) < Remaining(img, ino, fds[fd].position)
  {
    var r := FileRead(img, fds, fd, c);
    var n := r.0;
    FileReadChunk(img, fds, fd, c, ino, pos0 + |out|);
    ReadDataSplit(img, ino, pos0, |out|, n);
    SameLength(img, ino, pos0, |out| + |r.2[..n]|, |out| + n);
  }

  /** Reads whose lengths are equal integers deliver the same bytes. */
  lemma SameLength(img: Image, ino: nat, offset: nat, a: nat, b: nat)
    requires WellFormed(img) && a == b
    ensures ReadData(img, ino, offset, a) == ReadData(img, ino, offset, b)
  {
  }

  /** One `file_read` of `c` bytes at offset `pos` of inode `ino`: it
      returns 0 exactly when nothing is left, and otherwise delivers the next
      bytes of the file and moves the cursor past them. */
  lemma FileReadChunk(img: Image, fds: seq<FdEntry>, fd: nat, c: nat, ino: nat, pos: nat)
    requires WellFormed(img) && IsFdTable(fds) && fd < FD_COUNT && 0 < c < 0x8000_0000
    requires fds[fd].inode == ino && fds[fd].position == pos
    ensures var r := FileRead(img, fds, fd, c);
      && r.0 == ReadCount(img, ino, pos, c)
      && (r.0 == 0 <==> Remaining(img, ino, pos) == 0)
      && (r.0 != 0 ==>
            && ino < img.inodeCount && pos + r.0 <= img.inodes[ino].length
            && Remaining(img, ino, pos + r.0) == Remaining(img, ino, pos) - r.0
            && r.2[..r.0] == ReadData(img, ino, pos, r.0)
            && IsFdTable(r.1) && r.1[fd].inode == ino && r.1[fd].position == pos + r.0)
  {
    var r := FileRead(img, fds, fd, c);
    var data := ReadData(img, ino, pos, c);
    assert r.2[..r.0] == data;
  }


  /** `file_write` and `dir_write` refuse every write. */
  function FileWrite(): (r: int) ensures r == -1 { -1 }

  /** `file_close` and `dir_close`: only descriptors 2-7 can be closed;
      closing one clears its open flag and succeeds. */
  function FileClose(fds: seq<FdEntry>, fd: int): (r: (int, seq<FdEntry>))
    requires IsFdTable(fds)
    ensures r.0 == 0 <==> 2 <= fd < FD_COUNT
    ensures r.0 != 0 ==> r.0 == -1 && r.1 == fds
    ensures r.0 == 0 ==> r.1 == fds[fd := fds[fd].(open := false)]
  {
    if 1 < fd < FD_COUNT then (0, fds[fd := fds[fd].(open := false)]) else (-1, fds)
  }

  /** Whether an open of `fname` reaches the free-descriptor search with
      no descriptor closed, where the source would use an uninitialised
      index. */
  predicate OpenDefined(img: Image, fds: seq<FdEntry>, fname: Option<seq<byte>>)
    requires WellFormed(img) && LookupDefined(fname)
  {
    ReadDentryByName(img, fname).Some? ==> LowestClosed(fds).Some?
  }

  /** `file_open`: a name that does not resolve fails; otherwise the lowest
      closed descriptor gets the entry's inode if it is a regular file (0
      otherwise) and cursor 0, and its number is returned.  The open flag is
      not set. */
  function FileOpen(img: Image, fds: seq<FdEntry>, fname: Option<seq<byte>>): (r: (int, seq<FdEntry>))
    requires WellFormed(img) && IsFdTable(fds) && LookupDefined(fname) && OpenDefined(img, fds, fname)
    ensures ReadDentryByName(img, fname).None? ==> r == (-1, fds)
    ensures ReadDentryByName(img, fname).Some? ==>
      var d := ReadDentryByName(img, fname).value;
      var fd := LowestClosed(fds).value;
      && r.0 == fd
      && r.1 == fds[fd := fds[fd].(inode := if d.filetype == REG_FILE_NUM then d.inode else 0, position := 0)]
  {
    match ReadDentryByName(img, fname)
    case None => (-1, fds)
    case Some(d) =>
      var fd: int := LowestClosed(fds).value;
      (fd, fds[fd := fds[fd].(inode := if d.filetype == REG_FILE_NUM then d.inode else 0, position := 0)])
  }

  /** `dir_open`: NULL or an unresolved name fails untouched; otherwise the
      lowest closed descriptor gets cursor 0 and inode 0 for a directory, or
      the inode -1 for anything else, in which case -1 is returned. */
  function DirOpen(img: Image, fds: seq<FdEntry>, fname: Option<seq<byte>>): (r: (int, seq<FdEntry>))
    requires WellFormed(img) && IsFdTable(fds) && LookupDefined(fname) && OpenDefined(img, fds, fname)
    ensures ReadDentryByName(img, fname).None? ==> r == (-1, fds)
    ensures ReadDentryByName(img, fname).Some? ==>
      var d := ReadDentryByName(img, fname).value;
      var fd := LowestClosed(fds).value;
      && (r.0 == -1 <==> d.filetype != DIR_FILE_TYPE)
      && (r.0 != -1 ==> r.0 == fd)
      && r.1 == fds[fd := fds[fd].(inode := if d.filetype == DIR_FILE_TYPE then 0 else NO_INODE, position := 0)]
  {
    if fname.None? then (-1, fds)
    else match ReadDentryByName(img, fname)
      case None => (-1, fds)
      case Some(d) =>
        var fd: int := LowestClosed(fds).value;
        var inode := if d.filetype == DIR_FILE_TYPE then 0 else NO_INODE;
        (if inode == NO_INODE then -1 else fd, fds[fd := fds[fd].(inode := inode, position := 0)])
  }

  /** Whether `dir_read` can run: a negative count would be handed to
      `memset`, and `prior` (the caller's buffer as it was before the call,
      read as far as the call looks) must reach every byte the call writes
      or reads: the `nbytes` it clears and the terminator it stores right
      after the name. */
  predicate DirReadDefined(img: Image, fds: seq<FdEntry>, fd: int, nbytes: int, prior: seq<byte>)
    requires WellFormed(img) && IsFdTable(fds)
  {
    0 <= fd < FD_COUNT && fds[fd].position < img.inodeCount ==>
      0 <= nbytes <= |prior| && NameLength(img.dentries[fds[fd].position].name) < |prior|
  }

  /** The caller's buffer after `dir_read` copied `name` into it: the
      first `nbytes` bytes are cleared, as many of them as the name covers
      take the name, and the byte right after the name becomes NUL. */
  function DirBuffer(prior: seq<byte>, name: seq<byte>, nbytes: nat): (b: seq<byte>)
    requires nbytes <= |prior| && |name| < |prior|
    ensures |b| == |prior|
  {
    seq(|prior|, k requires 0 <= k < |prior| =>
      if k < nbytes && k < |name| then name[k]
      else if k < nbytes || k == |name| then NUL
      else prior[k])
  }

  /** A count that covers the name leaves the name, then NUL, at the
      front of the buffer. */
  lemma DirBufferLong(prior: seq<byte>, name: seq<byte>, nbytes: nat)
    requires |name| <= nbytes <= |prior| && |name| < |prior| && NoNul(name)
    ensures var b := DirBuffer(prior, name, nbytes);
      b[..|name|] == name && NameLength(b) == |name|
  {
    var b := DirBuffer(prior, name, nbytes);
    assert b[..|name|] == name;
    FirstNul(b, |name|);
  }

  /** A count short of the name leaves that much of the name, then the
      caller's stale bytes up to the terminator stored after the name. */
  lemma DirBufferShort(prior: seq<byte>, name: seq<byte>, nbytes: nat)
    requires nbytes < |name| < |prior| && NoNul(name)
    ensures var b := DirBuffer(prior, name, nbytes);
      && b[..nbytes] == name[..nbytes] && b[nbytes..|name|] == prior[nbytes..|name|]
      && NameLength(b) == nbytes + NameLength(prior[nbytes..|name|])
  {
    var b := DirBuffer(prior, name, nbytes);
    assert b[..nbytes] == name[..nbytes];
    assert b[nbytes..|name|] == prior[nbytes..|name|];
    var m := NameLength(prior[nbytes..|name|]);
    assert b[nbytes + m] == NUL;
    assert NoNul(b[..nbytes + m]) by {
      forall k | 0 <= k < nbytes + m ensures b[k] != NUL {
        if k >= nbytes { assert b[k] == prior[nbytes..|name|][..m][k - nbytes]; }
      }
    }
    FirstNul(b, nbytes + m);
  }

  /** `dir_read`: an fd outside 0..7 fails; otherwise the entry at the
      cursor is read by index and the cursor moves on by one whatever
      happens; past `inodeCount` it returns 0 and leaves the buffer alone.
      Otherwise the name is copied into the buffer (at most `nbytes` of it)
      and the result is the C-string length of what the buffer then holds:
      the name's length when `nbytes` covers it, and otherwise `nbytes`
      plus however many stale bytes the caller's buffer held before the
      first NUL up to the stored terminator. */
  function DirRead(img: Image, fds: seq<FdEntry>, fd: int, nbytes: int, prior: seq<byte>): (r: (int, seq<FdEntry>, seq<byte>))
    requires WellFormed(img) && IsFdTable(fds) && DirReadDefined(img, fds, fd, nbytes, prior)
    ensures !(0 <= fd < FD_COUNT) ==> r == (-1, fds, prior)
    ensures 0 <= fd < FD_COUNT ==> r.1 == fds[fd := fds[fd].(position := Advance(fds[fd].position, 1))]
    ensures 0 <= fd < FD_COUNT && fds[fd].position >= img.inodeCount ==> r.0 == 0 && r.2 == prior
    ensures 0 <= fd < FD_COUNT && fds[fd].position < img.inodeCount ==>
      var name := StoredName(img.dentries[fds[fd].position]);
      && |r.2| == |prior| && r.2[|name|] == NUL
      && (forall k :: nbytes <= k < |prior| && k != |name| ==> r.2[k] == prior[k])
      && (nbytes >= |name| ==>
            && r.0 == |name| <= MAX_NAME_LENGTH && r.2[..|name|] == name
            && forall k :: |name| <= k < nbytes ==> r.2[k] == NUL)
      && (nbytes < |name| ==>
            && r.2[..nbytes] == name[..nbytes]
            && r.2[nbytes..|name|] == prior[nbytes..|name|]
            && r.0 == nbytes + NameLength(prior[nbytes..|name|]) <= |name|)
  {
    if !(0 <= fd < FD_COUNT) then (-1, fds, prior)
    else
      var e := fds[fd];
      var fds' := fds[fd := e.(position := Advance(e.position, 1))];
      match ReadDentryByIndex(img, e.position)
      case None => (0, fds', prior)
      case Some(d) =>
        assert d in img.dentries;
        var name := StoredName(d);
        var b := DirBuffer(prior, name, nbytes);
        if nbytes >= |name| then
          DirBufferLong(prior, name, nbytes);
          (NameLength(b), fds', b)
        else
          DirBufferShort(prior, name, nbytes);
          (NameLength(b), fds', b)
  }

  /** A count shorter than the name: with a cleared buffer the result is
      the count and the buffer starts with that much of the name; with a
      stale non-NUL byte just past the count, the result exceeds it. */
  lemma DirReadShort(img: Image, fds: seq<FdEntry>, fd: nat, nbytes: nat, prior: seq<byte>)
    requires WellFormed(img) && IsFdTable(fds) && fd < FD_COUNT && fds[fd].position < img.inodeCount
    requires nbytes <= |prior| && MAX_NAME_LENGTH < |prior|
    requires nbytes < |StoredName(img.dentries[fds[fd].position])|
    ensures var r := DirRead(img, fds, fd, nbytes, prior);
      && (prior[nbytes] == NUL ==> r.0 == nbytes && r.2[..r.0] == StoredName(img.dentries[fds[fd].position])[..nbytes])
      && (prior[nbytes] != NUL ==> r.0 > nbytes)
  {
  }

  /** The names a directory listing shows from entry `i` on: each entry's
      stored name in index order, up to `inodeCount` or the first empty
      name, whichever comes first. */
  function Listing(img: Image, i: nat): (names: seq<seq<byte>>)
    requires WellFormed(img)
    decreases img.inodeCount - i
  {
    if i >= img.inodeCount || |StoredName(img.dentries[i])| == 0 then []
    else [StoredName(img.dentries[i])] + Listing(img, i + 1)
  }

  /** Reading a directory descriptor again and again with a cleared
      33-byte buffer and a count of 32, until a read returns 0, yields the
      entries' names in index order from the cursor on. */
  method ListDirectory(img: Image, fds0: seq<FdEntry>, fd: nat) returns (names: seq<seq<byte>>)
    requires WellFormed(img) && IsFdTable(fds0) && fd < FD_COUNT
    requires fds0[fd].position <= img.inodeCount
    ensures names == Listing(img, fds0[fd].position)
  {
    var buf := Zeros(MAX_NAME_LENGTH + 1);
    var fds := fds0;
    names := [];
    var more := true;
    while more
      invariant IsFdTable(fds) && fds[fd].position <= img.inodeCount
      invariant more ==> names + Listing(img, fds[fd].position) == Listing(img, fds0[fd].position)
      invariant !more ==> names == Listing(img, fds0[fd].position)
      decreases img.inodeCount - fds[fd].position, more
    {
      ListStep(img, fds, fd);
      var r := DirRead(img, fds, fd, MAX_NAME_LENGTH, buf);
      if r.0 == 0 {
        more := false;
      } else {
        names := names + [r.2[..r.0]];
        fds := r.1;
      }
    }
  }

  /** One read of `ListDirectory`: a non-zero result is the next listed
      name and moves the cursor on by one; a zero result ends the listing. */
  lemma ListStep(img: Image, fds: seq<FdEntry>, fd: nat)
    requires WellFormed(img) && IsFdTable(fds) && fd < FD_COUNT && fds[fd].position <= img.inodeCount
    ensures var r := DirRead(img, fds, fd, MAX_NAME_LENGTH, Zeros(MAX_NAME_LENGTH + 1));
      var pos := fds[fd].position;
      && (r.0 != 0 ==> IsFdTable(r.1) && r.1[fd].position == pos + 1
                       && Listing(img, pos) == [r.2[..r.0]] + Listing(img, pos + 1))
      && (r.0 == 0 ==> Listing(img, pos) == [])
  {
  }
}

=== FILE: idt.dfy ===
/** The interrupt descriptor table as `init_idt` fills it, in the gate
    format of section 6.11 of the Intel SDM, Volume 3A, and the common
    exception handler that turns every processor exception and a stray
    system-call vector into `halt(111)`. */
module Idt {
  import opened Common

  const NUM_VEC: nat := 256
  const SYS_CALL: nat := 0x80
  const PIT_VECTOR: nat := 0x20
  const KEYBOARD_VECTOR: nat := 0x21
  const RTC_VECTOR: nat := 0x28
  /** Vectors 0-19 have their own stub. */
  const STUB_COUNT: nat := 20
  /** Vectors below 32 are reserved for processor exceptions. */
  const EXCEPTION_VECTORS: nat := 32
  /** The halt status that marks a program killed by an exception. */
  const EXCEPTION_HALT: byte := 111

  /** 32-bit trap gate type (interrupts stay enabled). */
  const TRAP_GATE_32: nat := 0xF
  /** 32-bit interrupt gate type (interrupts are disabled on entry). */
  const INTERRUPT_GATE_32: nat := 0xE

  /** The code a gate's offset field points at. */
  datatype Handler =
    | ExceptionStub(vector: nat)   // `exception_n`, which passes n on
    | NullHandler                  // an explicit NULL offset
    | SyscallWrapper
    | KeyboardWrapper
    | RtcWrapper
    | PitWrapper

  type privilege = x: int | 0 <= x < 4

  /** One gate descriptor.  The four one-bit fields `size`, `reserved1`,
      `reserved2`, `reserved3` form the gate type in bits 43-40. */
  datatype Gate = Gate(present: bool, selector: Selector, reserved4: byte,
                       reserved3: bool, reserved2: bool, reserved1: bool, size: bool,
                       reserved0: bool, dpl: privilege, handler: Handler)

  predicate IsIdt(t: seq<Gate>) { |t| == NUM_VEC }

  function Bit(b: bool): nat { if b then 1 else 0 }

  /** The gate type a descriptor's type bits spell. */
  function GateType(g: Gate): nat {
    8 * Bit(g.size) + 4 * Bit(g.reserved1) + 2 * Bit(g.reserved2) + Bit(g.reserved3)
  }

  /** Whether vector `v` is entered through a trap gate. */
  predicate IsTrapVector(v: nat) {
    v < EXCEPTION_VECTORS || v == SYS_CALL
  }

  /** The attributes the first loop of `init_idt` gives vector `i`, with the
      handler left as it was. */
  function DefaultGate(i: nat, handler: Handler): (g: Gate)
    ensures GateType(g) == if IsTrapVector(i) then TRAP_GATE_32 else INTERRUPT_GATE_32
  {
    Gate(true, KernelCs, 0, IsTrapVector(i), true, true, true, false,
         if i == SYS_CALL then 3 else 0, handler)
  }

  /** `init_idt`: all 256 gates present on the kernel code segment; trap
      gates for the exceptions and the system call, interrupt gates for the
      rest; only the system call reachable from user mode; stubs for vectors
      0-19, NULL for 20-31, and the four wrappers on their vectors.  The
      handler of any other vector is left as it was. */
  method InitIdt(prior: seq<Gate>) returns (idt: seq<Gate>)
    requires IsIdt(prior)
    ensures IsIdt(idt)
    ensures forall i :: 0 <= i < NUM_VEC ==> idt[i].present && idt[i].selector == KernelCs
    ensures forall i :: 0 <= i < NUM_VEC ==>
      GateType(idt[i]) == if IsTrapVector(i) then TRAP_GATE_32 else INTERRUPT_GATE_32
    ensures forall i :: 0 <= i < NUM_VEC ==> (idt[i].dpl == 3 <==> i == SYS_CALL)
    ensures forall i :: 0 <= i < NUM_VEC ==> idt[i].dpl == 0 || idt[i].dpl == 3
    ensures forall i :: 0 <= i < STUB_COUNT ==> idt[i].handler == ExceptionStub(i)
    ensures forall i :: STUB_COUNT <= i < EXCEPTION_VECTORS ==> idt[i].handler == NullHandler
    ensures idt[SYS_CALL].handler == SyscallWrapper && idt[KEYBOARD_VECTOR].handler == KeyboardWrapper
    ensures idt[RTC_VECTOR].handler == RtcWrapper && idt[PIT_VECTOR].handler == PitWrapper
    ensures forall i :: EXCEPTION_VECTORS <= i < NUM_VEC && i !in {SYS_CALL, KEYBOARD_VECTOR, RTC_VECTOR, PIT_VECTOR}
              ==> idt[i].handler == prior[i].handler
  {
    idt := prior;
    var i := 0;
    while i < NUM_VEC
      invariant 0 <= i <= NUM_VEC && IsIdt(idt)
      invariant forall j :: 0 <= j < i ==> idt[j] == DefaultGate(j, prior[j].handler)
      invariant forall j :: i <= j < NUM_VEC ==> idt[j] == prior[j]
    {
      idt := idt[i := DefaultGate(i, idt[i].handler)];
      i := i + 1;
    }
    i := 0;
    while i < STUB_COUNT
      invariant 0 <= i <= STUB_COUNT && IsIdt(idt)
      invariant forall j :: 0 <= j < NUM_VEC ==>
        idt[j] == DefaultGate(j, if j < i then ExceptionStub(j) else prior[j].handler)
    {
      idt := idt[i := idt[i].(handler := ExceptionStub(i))];
      i := i + 1;
    }
    i := STUB_COUNT;
    while i < EXCEPTION_VECTORS
      invariant STUB_COUNT <= i <= EXCEPTION_VECTORS && IsIdt(idt)
      invariant forall j :: 0 <= j < NUM_VEC ==>
        idt[j] == DefaultGate(j, if j < STUB_COUNT then ExceptionStub(j)
                                 else if j < i then NullHandler else prior[j].handler)
    {
      idt := idt[i := idt[i].(handler := NullHandler)];
      i := i + 1;
    }
    idt := idt[SYS_CALL := idt[SYS_CALL].(handler := SyscallWrapper)];
    idt := idt[KEYBOARD_VECTOR := idt[KEYBOARD_VECTOR].(handler := KeyboardWrapper)];
    idt := idt[RTC_VECTOR := idt[RTC_VECTOR].(handler := RtcWrapper)];
    idt := idt[PIT_VECTOR := idt[PIT_VECTOR].(handler := PitWrapper)];
  }

  /** `exception_handler`: the status it halts the program with, or None
      when it returns without halting (an id that is neither one of the 20
      exceptions with a stub nor the system-call vector). */
  function ExceptionHandler(id: u32): (status: Option<byte>)
    ensures status.Some? <==> id < STUB_COUNT || id == SYS_CALL
    ensures status.Some? ==> status.value == EXCEPTION_HALT
  {
    if id < STUB_COUNT || id == SYS_CALL then Some(EXCEPTION_HALT) else None
  }
}

=== FILE: keyboard.dfy ===
/** The keyboard line discipline: the modifier flags, one 128-byte line
    buffer per terminal, and the effect of one scancode on them.  The
    buffer of a terminal is kept as the sequence of its first `count`
    bytes; the bytes past `count` are always zero in the source. */
module Keyboard {
  import opened Common
  import Pic

  const KEYBOARD_IRQ: u32 := 1
  const TERMINAL_COUNT: nat := 3
  const BUF_SIZE: nat := 128
  /** Cells a tab occupies on screen, erased together by backspace. */
  const TAB_SIZE: nat := 5
  /** The halt status of a program stopped with Ctrl+C. */
  const USER_HALT: byte := 42
  /** Scancodes with an entry in the translation table. */
  const SCANCODES: nat := 0x3B

  const ESCAPE: byte := 0x01
  const BACKSPACE: byte := 0x0E
  const CTRL: byte := 0x1D
  const CTRL_RELEASE: byte := 0x9D
  const LSHIFT: byte := 0x2A
  const RSHIFT: byte := 0x36
  const LSHIFT_RELEASE: byte := 0xAA
  const RSHIFT_RELEASE: byte := 0xB6
  const ALT: byte := 0x38
  const ALT_RELEASE: byte := 0xB8
  const CAPS: byte := 0x3A
  const KEYPAD_STAR: byte := 0x37
  const F1_CODE: byte := 0x3B
  const F2_CODE: byte := 0x3C
  const F3_CODE: byte := 0x3D

  /** Scancode set 1 to ASCII, unshifted and shifted; modifier keys carry
      their own scancode, which the handler never reaches. */
  function Dict(sc: byte): (byte, byte)
    requires sc < SCANCODES
  {
    match sc
    case 0x00 => (0, 0)
    case 0x01 => (0, 0)
    case 0x02 => (Ascii('1'), Ascii('!'))
    case 0x03 => (Ascii('2'), Ascii('@'))
    case 0x04 => (Ascii('3'), Ascii('#'))
    case 0x05 => (Ascii('4'), Ascii('$'))
    case 0x06 => (Ascii('5'), Ascii('%'))
    case 0x07 => (Ascii('6'), Ascii('^'))
    case 0x08 => (Ascii('7'), Ascii('&'))
    case 0x09 => (Ascii('8'), Ascii('*'))
    case 0x0A => (Ascii('9'), Ascii('('))
    case 0x0B => (Ascii('0'), Ascii(')'))
    case 0x0C => (Ascii('-'), Ascii('_'))
    case 0x0D => (Ascii('='), Ascii('+'))
    case 0x0E => (BACKSPACE, BACKSPACE)
    case 0x0F => (TAB, TAB)
    case 0x10 => (Ascii('q'), Ascii('Q'))
    case 0x11 => (Ascii('w'), Ascii('W'))
    case 0x12 => (Ascii('e'), Ascii('E'))
    case 0x13 => (Ascii('r'), Ascii('R'))
    case 0x14 => (Ascii('t'), Ascii('T'))
    case 0x15 => (Ascii('y'), Ascii('Y'))
    case 0x16 => (Ascii('u'), Ascii('U'))
    case 0x17 => (Ascii('i'), Ascii('I'))
    case 0x18 => (Ascii('o'), Ascii('O'))
    case 0x19 => (Ascii('p'), Ascii('P'))
    case 0x1A => (Ascii('['), Ascii('{'))
    case 0x1B => (Ascii(']'), Ascii('}'))
    case 0x1C => (NEWLINE, NEWLINE)
    case 0x1D => (CTRL, CTRL)
    case 0x1E => (Ascii('a'), Ascii('A'))
    case 0x1F => (Ascii('s'), Ascii('S'))
    case 0x20 => (Ascii('d'), Ascii('D'))
    case 0x21 => (Ascii('f'), Ascii('F'))
    case 0x22 => (Ascii('g'), Ascii('G'))
    case 0x23 => (Ascii('h'), Ascii('H'))
    case 0x24 => (Ascii('j'), Ascii('J'))
    case 0x25 => (Ascii('k'), Ascii('K'))
    case 0x26 => (Ascii('l'), Ascii('L'))
    case 0x27 => (Ascii(';'), Ascii(':'))
    case 0x28 => (Ascii('\''), Ascii('"'))
    case 0x29 => (Ascii('`'), Ascii('~'))
    case 0x2A => (LSHIFT, LSHIFT)
    case 0x2B => (Ascii('\\'), Ascii('|'))
    case 0x2C => (Ascii('z'), Ascii('Z'))
    case 0x2D => (Ascii('x'), Ascii('X'))
    case 0x2E => (Ascii('c'), Ascii('C'))
    case 0x2F => (Ascii('v'), Ascii('V'))
    case 0x30 => (Ascii('b'), Ascii('B'))
    case 0x31 => (Ascii('n'), Ascii('N'))
    case 0x32 => (Ascii('m'), Ascii('M'))
    case 0x33 => (Ascii(','), Ascii('<'))
    case 0x34 => (Ascii('.'), Ascii('>'))
    case 0x35 => (Ascii('/'), Ascii('?'))
    case 0x36 => (RSHIFT, RSHIFT)
    case 0x37 => (KEYPAD_STAR, KEYPAD_STAR)
    case 0x38 => (ALT, ALT)
    case 0x39 => (SPACE, SPACE)
    case _ => (CAPS, CAPS)
  }

  /** The flags and the three terminals' line buffers. */
  datatype KbState = KbState(caps: bool, shift: bool, ctrl: bool, alt: bool,
                             bufs: seq<seq<byte>>, readFlag: bool)

  predicate Valid(kb: KbState) {
    |kb.bufs| == TERMINAL_COUNT && forall t :: 0 <= t < TERMINAL_COUNT ==> |kb.bufs[t]| <= BUF_SIZE
  }

  /** What the handler asks of the screen and the rest of the kernel. */
  datatype KeyAction =
    | NoAction
    | Echo(c: byte)               // `putc` of the byte just buffered
    | Erase(cells: nat)           // `del_c` that many times
    | ClearScreen
    | HaltProgram(status: byte)   // `halt(42)`
    | SwitchTerminal(id: nat)     // `open_terminal(id)`

  function Column(dictEntry: (byte, byte), upper: bool): byte {
    if upper then dictEntry.1 else dictEntry.0
  }

  predicate IsLowerLetter(c: byte) { Ascii('a') <= c <= Ascii('z') }

  /** The byte a non-modifier scancode produces.  Letters take the shifted
      column when exactly one of shift and caps is on; other keys take it
      when shift is held.  A scancode past the table yields `stray`, the
      byte the source reads beyond the table's end. */
  function Pressed(sc: byte, shift: bool, caps: bool, stray: byte): (c: byte)
    ensures sc < SCANCODES && IsLowerLetter(Dict(sc).0) ==> c == Column(Dict(sc), shift != caps)
    ensures sc < SCANCODES && !IsLowerLetter(Dict(sc).0) ==> c == Column(Dict(sc), shift)
    ensures sc >= SCANCODES ==> c == stray
  {
    if sc >= SCANCODES then stray
    else if IsLowerLetter(Dict(sc).0) then Column(Dict(sc), shift != caps)
    else Column(Dict(sc), shift)
  }

  predicate IsModifier(sc: byte) {
    sc in {CAPS, LSHIFT, RSHIFT, LSHIFT_RELEASE, RSHIFT_RELEASE, CTRL, CTRL_RELEASE, ALT, ALT_RELEASE}
  }

  predicate IsFunctionKey(sc: byte) { sc == F1_CODE || sc == F2_CODE || sc == F3_CODE }

  /** The flag update of a modifier scancode. */
  function Modifier(kb: KbState, sc: byte): (r: KbState)
    requires IsModifier(sc)
    ensures r.bufs == kb.bufs && r.readFlag == kb.readFlag
    ensures sc == CAPS ==> r == kb.(caps := !kb.caps)
    ensures sc == LSHIFT || sc == RSHIFT ==> r == kb.(shift := true)
    ensures sc == LSHIFT_RELEASE || sc == RSHIFT_RELEASE ==> r == kb.(shift := false)
    ensures sc == CTRL ==> r == kb.(ctrl := true)
    ensures sc == CTRL_RELEASE ==> r == kb.(ctrl := false)
    ensures sc == ALT ==> r == kb.(alt := true)
    ensures sc == ALT_RELEASE ==> r == kb.(alt := false)
  {
    if sc == CAPS then kb.(caps := !kb.caps)
    else if sc == LSHIFT || sc == RSHIFT then kb.(shift := true)
    else if sc == LSHIFT_RELEASE || sc == RSHIFT_RELEASE then kb.(shift := false)
    else if sc == CTRL then kb.(ctrl := true)
    else if sc == CTRL_RELEASE then kb.(ctrl := false)
    else if sc == ALT then kb.(alt := true)
    else kb.(alt := false)
  }

  /** Terminal `cur`'s buffer replaced by `b`. */
  function SetBuf(kb: KbState, cur: nat, b: seq<byte>): KbState
    requires Valid(kb) && cur < TERMINAL_COUNT
  {
    kb.(bufs := kb.bufs[cur := b])
  }

  /** Whether Ctrl is held with `c` one of `letter`'s two cases. */
  predicate CtrlWith(kb: KbState, c: byte, letter: char)
    requires 'a' <= letter <= 'z'
  {
    kb.ctrl && (c == Ascii(letter) || c == Ascii(letter) - 0x20)
  }

  /** Whether `c` is taken by one of the tests before the newline test:
      backspace, Ctrl+L or Ctrl+C. */
  predicate Command(kb: KbState, c: byte) {
    c == BACKSPACE || CtrlWith(kb, c, 'l') || CtrlWith(kb, c, 'c')
  }

  predicate IsLineEnd(c: byte) { c == NEWLINE || c == CARRIAGE_RETURN }

  /** The effect of a byte that got past the filter, in the source's order
      of tests: backspace (a no-op on an empty buffer; a tab erases five
      cells), Ctrl+L, Ctrl+C, newline or carriage return (buffered while
      the buffer has room, raising the read flag), Alt+F1..F3, and any
      other byte (buffered while one cell stays free for the newline). */
  function Edit(kb: KbState, cur: nat, sc: byte, c: byte): (r: (KbState, KeyAction))
    requires Valid(kb) && cur < TERMINAL_COUNT
    ensures Valid(r.0)
    ensures forall t :: 0 <= t < TERMINAL_COUNT && t != cur ==> r.0.bufs[t] == kb.bufs[t]
    ensures r.0.(bufs := kb.bufs, readFlag := kb.readFlag) == kb
    ensures r.1.Echo? ==> r.0.bufs[cur] == kb.bufs[cur] + [r.1.c] && r.1.c == c
    ensures r.1.Erase? ==> |kb.bufs[cur]| > 0 && r.0.bufs[cur] == kb.bufs[cur][..|kb.bufs[cur]| - 1]
    ensures !r.1.Echo? && !r.1.Erase? ==> r.0 == kb
    ensures r.0.readFlag != kb.readFlag ==> r.0.readFlag && (r.1 == Echo(NEWLINE) || r.1 == Echo(CARRIAGE_RETURN))
  {
    var buf := kb.bufs[cur];
    if c == BACKSPACE then
      if |buf| == 0 then (kb, NoAction)
      else (SetBuf(kb, cur, buf[..|buf| - 1]), Erase(if buf[|buf| - 1] == TAB then TAB_SIZE else 1))
    else if kb.ctrl && (c == Ascii('l') || c == Ascii('L')) then (kb, ClearScreen)
    else if kb.ctrl && (c == Ascii('c') || c == Ascii('C')) then (kb, HaltProgram(USER_HALT))
    else if c == NEWLINE || c == CARRIAGE_RETURN then
      if |buf| < BUF_SIZE then (SetBuf(kb, cur, buf + [c]).(readFlag := true), Echo(c)) else (kb, NoAction)
    else if kb.alt && sc == F1_CODE then (kb, SwitchTerminal(0))
    else if kb.alt && sc == F2_CODE then (kb, SwitchTerminal(1))
    else if kb.alt && sc == F3_CODE then (kb, SwitchTerminal(2))
    else if |buf| < BUF_SIZE - 1 then (SetBuf(kb, cur, buf + [c]), Echo(c))
    else (kb, NoAction)
  }

  /** Backspace, Ctrl+L and Ctrl+C: backspace does nothing on an empty
      buffer and otherwise drops the last byte, erasing five cells for a
      tab and one otherwise; Ctrl+L clears the screen and Ctrl+C halts the
      program with 42, both leaving the buffer alone. */
  lemma EditCommands(kb: KbState, cur: nat, sc: byte, c: byte)
    requires Valid(kb) && cur < TERMINAL_COUNT
    ensures var r := Edit(kb, cur, sc, c);
      && (c == BACKSPACE && kb.bufs[cur] == [] ==> r == (kb, NoAction))
      && (c == BACKSPACE && kb.bufs[cur] != [] ==>
            var b := kb.bufs[cur];
            && r.0 == kb.(bufs := kb.bufs[cur := b[..|b| - 1]])
            && r.1 == Erase(if b[|b| - 1] == TAB then TAB_SIZE else 1))
      && (c != BACKSPACE && CtrlWith(kb, c, 'l') ==> r == (kb, ClearScreen))
      && (c != BACKSPACE && CtrlWith(kb, c, 'c') ==> r == (kb, HaltProgram(USER_HALT)))
  {
  }

  /** A newline or carriage return is echoed, buffered and raises the read
      flag while the buffer has room for it, and is dropped otherwise. */
  lemma EditLineEnd(kb: KbState, cur: nat, sc: byte, c: byte)
    requires Valid(kb) && cur < TERMINAL_COUNT
    requires !Command(kb, c) && IsLineEnd(c)
    ensures var r := Edit(kb, cur, sc, c);
      if |kb.bufs[cur]| < BUF_SIZE
      then r.1 == Echo(c) && r.0 == kb.(bufs := kb.bufs[cur := kb.bufs[cur] + [c]], readFlag := true)
      else r == (kb, NoAction)
  {
  }

  /** Alt+F1..F3 switch to terminal 0..2; any other byte is echoed and
      buffered while a cell stays free for the newline, and is dropped
      otherwise. */
  lemma EditOther(kb: KbState, cur: nat, sc: byte, c: byte)
    requires Valid(kb) && cur < TERMINAL_COUNT
    requires !Command(kb, c) && !IsLineEnd(c)
    ensures var r := Edit(kb, cur, sc, c);
      && (kb.alt && IsFunctionKey(sc) ==> r == (kb, SwitchTerminal((sc - F1_CODE) as nat)))
      && (!(kb.alt && IsFunctionKey(sc)) ==>
            if |kb.bufs[cur]| < BUF_SIZE - 1
            then r.1 == Echo(c) && r.0 == kb.(bufs := kb.bufs[cur := kb.bufs[cur] + [c]])
            else r == (kb, NoAction))
  {
  }

  /** Whether a non-modifier key gets past the handler's filter: it is in
      the table and produces a non-zero byte, or it is F1, F2 or F3. */
  predicate Passes(sc: byte, c: byte) {
    (sc < SCANCODES && c != 0) || IsFunctionKey(sc)
  }

  /** `keyboard_irq_handler` for one scancode `sc` on current terminal
      `cur`: the EOI for line 1 is issued first, on every path; modifiers
      update their flag; scancodes past the table other than F1-F3, and
      keys producing 0, are dropped; everything else is edited into the
      current terminal's buffer.  Other terminals' buffers never change. */
  function Handler(kb: KbState, cur: nat, sc: byte, stray: byte): (r: (KbState, seq<Pic.Command>, KeyAction))
    requires Valid(kb) && cur < TERMINAL_COUNT
    ensures Valid(r.0)
    ensures r.1 == [Pic.Command(Pic.Master, 0x61)]
    ensures forall t :: 0 <= t < TERMINAL_COUNT && t != cur ==> r.0.bufs[t] == kb.bufs[t]
    ensures IsModifier(sc) ==> r.0.bufs == kb.bufs && r.2 == NoAction
    ensures !IsModifier(sc) ==> r.0.(bufs := kb.bufs, readFlag := kb.readFlag) == kb
    ensures !IsModifier(sc) && sc >= SCANCODES && !IsFunctionKey(sc) ==> r == (kb, r.1, NoAction)
    ensures r.2.Echo? ==> r.0.bufs[cur] == kb.bufs[cur] + [r.2.c]
    ensures r.2.Erase? ==> |kb.bufs[cur]| > 0 && r.0.bufs[cur] == kb.bufs[cur][..|kb.bufs[cur]| - 1]
    ensures !r.2.Echo? && !r.2.Erase? && !IsModifier(sc) ==> r.0 == kb
    ensures r.0.readFlag != kb.readFlag ==> r.0.readFlag && (r.2 == Echo(NEWLINE) || r.2 == Echo(CARRIAGE_RETURN))
    // which path a scancode takes
    ensures IsModifier(sc) ==> r.0 == Modifier(kb, sc)
    ensures !IsModifier(sc) && !Passes(sc, Pressed(sc, kb.shift, kb.caps, stray)) ==> r == (kb, r.1, NoAction)
    ensures !IsModifier(sc) && Passes(sc, Pressed(sc, kb.shift, kb.caps, stray)) ==>
      (r.0, r.2) == Edit(kb, cur, sc, Pressed(sc, kb.shift, kb.caps, stray))
  {
    Pic.EoiValueOfLine(KEYBOARD_IRQ);
    var eoi := Pic.SendEoi(KEYBOARD_IRQ);
    if IsModifier(sc) then (Modifier(kb, sc), eoi, NoAction)
    else
      var c := Pressed(sc, kb.shift, kb.caps, stray);
      if !Passes(sc, c) then (kb, eoi, NoAction)
      else
        var e := Edit(kb, cur, sc, c);
        (e.0, eoi, e.1)
  }

  /** `clear_buffer`: empties the current terminal's buffer only. */
  function ClearBuffer(kb: KbState, cur: nat): (r: KbState)
    requires Valid(kb) && cur < TERMINAL_COUNT
    ensures Valid(r) && r.bufs[cur] == []
    ensures forall t :: 0 <= t < TERMINAL_COUNT && t != cur ==> r.bufs[t] == kb.bufs[t]
    ensures r.(bufs := kb.bufs) == kb
  {
    SetBuf(kb, cur, [])
  }

  /** `keyboard_init`: unmasks line 1 on the master, empties the current
      terminal's buffer and clears the screen. */
  function KeyboardInit(kb: KbState, cur: nat, masks: Pic.Masks): (r: (KbState, Pic.Masks, KeyAction))
    requires Valid(kb) && cur < TERMINAL_COUNT
    ensures r.0 == ClearBuffer(kb, cur) && r.2 == ClearScreen
    ensures !Pic.LineMasked(r.1, KEYBOARD_IRQ) && r.1.slave == masks.slave
    ensures Pic.SameExcept(masks.master, r.1.master, KEYBOARD_IRQ)
  {
    (ClearBuffer(kb, cur), Pic.EnableIrq(masks, KEYBOARD_IRQ), ClearScreen)
  }

  /** The keyboard at boot: no modifier held, all buffers empty. */
  function Init(): (kb: KbState)
    ensures Valid(kb) && forall t :: 0 <= t < TERMINAL_COUNT ==> kb.bufs[t] == []
  {
    KbState(false, false, false, false, [[], [], []], false)
  }

  /** For a letter key, the upper-case letter is produced exactly when one
      of shift and caps lock is on. */
  lemma LetterCase(sc: byte, shift: bool, caps: bool, stray: byte)
    requires sc < SCANCODES && IsLowerLetter(Dict(sc).0)
    ensures IsLowerLetter(Dict(sc).0) && Dict(sc).1 == Dict(sc).0 - 0x20
    ensures Pressed(sc, shift, caps, stray) == if shift != caps then Dict(sc).0 - 0x20 else Dict(sc).0
  {
    LetterRows(sc);
  }

  lemma LetterRows(sc: byte)
    requires sc < SCANCODES && IsLowerLetter(Dict(sc).0)
    ensures Dict(sc).1 == Dict(sc).0 - 0x20
  {
    if sc < 0x10 {
    } else if sc < 0x1E {
    } else if sc < 0x2C {
    } else {
    }
  }

  /** A key that buffers a byte is undone by a backspace: the buffer is
      back to what it was, and the screen erases the one cell (or the
      five of a tab) the echo used. */
  lemma BackspaceUndoesKey(kb: KbState, cur: nat, sc: byte, stray: byte)
    requires Valid(kb) && cur < TERMINAL_COUNT
    requires Handler(kb, cur, sc, stray).2.Echo?
    ensures var k1 := Handler(kb, cur, sc, stray);
            var k2 := Handler(k1.0, cur, BACKSPACE, stray);
            && k2.0.bufs == kb.bufs
            && k2.2 == Erase(if k1.2.c == TAB then TAB_SIZE else 1)
  {
    var k1 := Handler(kb, cur, sc, stray);
    assert k1.0.bufs[cur] == kb.bufs[cur] + [k1.2.c];
    assert (kb.bufs[cur] + [k1.2.c])[..|kb.bufs[cur]|] == kb.bufs[cur];
    assert Pressed(BACKSPACE, k1.0.shift, k1.0.caps, stray) == BACKSPACE;
  }
}

=== FILE: paging.dfy ===
/** The kernel's page directory and its one page table, in the 32-bit paging
    format of section 4.3 of the Intel SDM, Volume 3A: the first 4 MB are
    mapped with 4 KB pages (only video memory present), the second 4 MB are
    one global 4 MB kernel page, and directory entries 32 and 34 are later
    pointed at the running program's 4 MB frame and at its video page. */
module Paging {
  import opened Common

  const ENTRIES: nat := 1024
  const PAGE_SIZE: nat := 0x1000
  const FOUR_MB: nat := 0x40_0000
  const EIGHT_MB: nat := 0x80_0000
  const VIDEO_START: nat := 0xB8000
  const VIDEO_PAGES: nat := 0xBA000
  const TERMINAL_PAGES: nat := 3
  const KERNEL_START: nat := 0x40_0000
  /** Directory entry of the user program's 4 MB window (virtual 128 MB). */
  const USR_IDX: nat := 32
  /** Directory entry of the user-visible video page (virtual 136 MB). */
  const VID_IDX: nat := 34
  /** The virtual address `vidmap` hands to user programs. */
  const USER_VID_MEM: nat := 0x0880_0000

  /** The three-bit software field of an entry. */
  type bits3 = x: int | 0 <= x < 8
  /** The 20-bit frame field of an entry. */
  type frame = x: int | 0 <= x < 0x10_0000

  /** A page-directory entry, field by field in bit order from bit 0. */
  datatype Pde = Pde(present: bool, rw: bool, us: bool, pwt: bool, pcd: bool,
                     acc: bool, avl: bool, ps: bool, g: bool, avl3: bits3, addr: frame)

  /** A page-table entry, field by field in bit order from bit 0. */
  datatype Pte = Pte(present: bool, rw: bool, us: bool, pwt: bool, pcd: bool,
                     acc: bool, dirty: bool, pat: bool, g: bool, avl3: bits3, addr: frame)

  predicate IsDirectory(d: seq<Pde>) { |d| == ENTRIES }
  predicate IsTable(t: seq<Pte>) { |t| == ENTRIES }

  function Flag(b: bool): nat { if b then 1 else 0 }

  /** Flags packed from bit 0 upward below the value `rest`. */
  function PackFlags(flags: seq<bool>, rest: nat): nat {
    if |flags| == 0 then rest else Flag(flags[0]) + 2 * PackFlags(flags[1..], rest)
  }

  /** The low `n` bits of `w`, from bit 0 upward. */
  function UnpackFlags(w: nat, n: nat): (r: seq<bool>)
    ensures |r| == n
  {
    if n == 0 then [] else [w % 2 == 1] + UnpackFlags(w / 2, n - 1)
  }

  /** `w` shifted right by `n` bits. */
  function DropBits(w: nat, n: nat): nat {
    if n == 0 then w else DropBits(w / 2, n - 1)
  }

  lemma {:induction false} UnpackPack(flags: seq<bool>, rest: nat)
    ensures UnpackFlags(PackFlags(flags, rest), |flags|) == flags
    ensures DropBits(PackFlags(flags, rest), |flags|) == rest
  {
    if |flags| > 0 {
      UnpackPack(flags[1..], rest);
      var w := PackFlags(flags, rest);
      assert w % 2 == Flag(flags[0]) && w / 2 == PackFlags(flags[1..], rest);
      assert [flags[0]] + flags[1..] == flags;
    }
  }

  lemma {:induction false} PackUnpack(w: nat, n: nat)
    ensures PackFlags(UnpackFlags(w, n), DropBits(w, n)) == w
  {
    if n > 0 {
      PackUnpack(w / 2, n - 1);
      assert UnpackFlags(w, n)[1..] == UnpackFlags(w / 2, n - 1);
    }
  }

  lemma {:induction false} PackBound(flags: seq<bool>, rest: nat)
    ensures Pow2(|flags|) * rest <= PackFlags(flags, rest) < Pow2(|flags|) * (rest + 1)
  {
    if |flags| > 0 {
      var p := Pow2(|flags| - 1);
      var w := PackFlags(flags[1..], rest);
      PackBound(flags[1..], rest);
      assert PackFlags(flags, rest) == Flag(flags[0]) + 2 * w;
      assert Pow2(|flags|) == 2 * p;
      DoubleBounds(p, rest, w, Flag(flags[0]));
    }
  }

  lemma DoubleBounds(p: nat, rest: nat, w: nat, b: nat)
    requires p * rest <= w < p * (rest + 1) && b < 2
    ensures (2 * p) * rest <= b + 2 * w < (2 * p) * (rest + 1)
  {
    assert (2 * p) * rest == 2 * (p * rest);
    assert (2 * p) * (rest + 1) == 2 * (p * (rest + 1));
  }

  /** The word of an entry whose nine flag bits are `flags`: the 3-bit
      software field sits at bits 9-11 and the frame at bits 12-31. */
  function EncodeWord(flags: seq<bool>, avl3: bits3, addr: frame): (w: u32)
    requires |flags| == 9
  {
    PackBound(flags, avl3 + 8 * addr);
    assert Pow2(9) == 512;
    PackFlags(flags, avl3 + 8 * addr)
  }

  lemma EncodeWordFields(flags: seq<bool>, avl3: bits3, addr: frame)
    requires |flags| == 9
    ensures UnpackFlags(EncodeWord(flags, avl3, addr), 9) == flags
    ensures DropBits(EncodeWord(flags, avl3, addr), 9) % 8 == avl3
    ensures DropBits(EncodeWord(flags, avl3, addr), 9) / 8 == addr
  {
    UnpackPack(flags, avl3 + 8 * addr);
  }

  lemma DropNineBound(w: u32)
    ensures DropBits(w, 9) / 8 < 0x10_0000
  {
    PackUnpack(w, 9);
    PackBound(UnpackFlags(w, 9), DropBits(w, 9));
    assert Pow2(9) == 512;
  }

  function PdeFlags(e: Pde): (r: seq<bool>)
    ensures |r| == 9
  {
    [e.present, e.rw, e.us, e.pwt, e.pcd, e.acc, e.avl, e.ps, e.g]
  }

  function PteFlags(e: Pte): (r: seq<bool>)
    ensures |r| == 9
  {
    [e.present, e.rw, e.us, e.pwt, e.pcd, e.acc, e.dirty, e.pat, e.g]
  }

  /** The 32-bit word of a directory entry. */
  function EncodePde(e: Pde): u32 {
    EncodeWord(PdeFlags(e), e.avl3, e.addr)
  }

  /** The directory entry a 32-bit word denotes. */
  function DecodePde(w: u32): Pde {
    var f := UnpackFlags(w, 9);
    DropNineBound(w);
    Pde(f[0], f[1], f[2], f[3], f[4], f[5], f[6], f[7], f[8], DropBits(w, 9) % 8, DropBits(w, 9) / 8)
  }

  /** The 32-bit word of a table entry. */
  function EncodePte(e: Pte): u32 {
    EncodeWord(PteFlags(e), e.avl3, e.addr)
  }

  /** The table entry a 32-bit word denotes. */
  function DecodePte(w: u32): Pte {
    var f := UnpackFlags(w, 9);
    DropNineBound(w);
    Pte(f[0], f[1], f[2], f[3], f[4], f[5], f[6], f[7], f[8], DropBits(w, 9) % 8, DropBits(w, 9) / 8)
  }

  /** Decoding an encoded directory entry gives it back. */
  lemma PdeRoundTrip(e: Pde)
    ensures DecodePde(EncodePde(e)) == e
  {
    EncodeWordFields(PdeFlags(e), e.avl3, e.addr);
  }

  /** Every word is the encoding of the directory entry it decodes to. */
  lemma PdeWordRoundTrip(w: u32)
    ensures EncodePde(DecodePde(w)) == w
  {
    PackUnpack(w, 9);
    var e := DecodePde(w);
    assert PdeFlags(e) == UnpackFlags(w, 9);
    assert e.avl3 + 8 * e.addr == DropBits(w, 9);
  }

  /** Decoding an encoded table entry gives it back. */
  lemma PteRoundTrip(e: Pte)
    ensures DecodePte(EncodePte(e)) == e
  {
    EncodeWordFields(PteFlags(e), e.avl3, e.addr);
  }

  /** Every word is the encoding of the table entry it decodes to. */
  lemma PteWordRoundTrip(w: u32)
    ensures EncodePte(DecodePte(w)) == w
  {
    PackUnpack(w, 9);
    var e := DecodePte(w);
    assert PteFlags(e) == UnpackFlags(w, 9);
    assert e.avl3 + 8 * e.addr == DropBits(w, 9);
  }

  /** The directory entry `page_init` writes for every index before the
      special cases: absent, writable, supervisor, 4 MB, global, with the
      frame field left as it was. */
  function AbsentPde(addr: frame): Pde {
    Pde(false, true, false, false, false, false, false, true, true, 0, addr)
  }

  /** The table entry `page_init` writes for index `i`: a supervisor,
      writable identity mapping of page `i`, present only for the VGA text
      buffer at 0xB8000. */
  function KernelPte(i: nat): Pte
    requires i < ENTRIES
  {
    Pte(i * PAGE_SIZE == VIDEO_START, true, false, false, false, false, false, false, false, 0, i)
  }

  /** The table entry of one of the three terminals' video save pages:
      present, writable and user-accessible, identity mapped. */
  function TerminalPagePte(i: nat): Pte
    requires i < ENTRIES
  {
    Pte(true, true, true, false, false, false, false, false, false, 0, i)
  }

  const VIDEO_FRAME: nat := VIDEO_START / PAGE_SIZE
  const FIRST_TERMINAL_FRAME: nat := VIDEO_PAGES / PAGE_SIZE

  /** The directory entry of index `i` after the first loop of `page_init`. */
  function InitPde(i: nat, tableAddr: u32, prior: Pde): Pde {
    if i == 0 then AbsentPde(prior.addr).(present := true, ps := false, addr := tableAddr / PAGE_SIZE)
    else if i == 1 then AbsentPde(prior.addr).(present := true, addr := KERNEL_START / PAGE_SIZE)
    else AbsentPde(prior.addr)
  }

  /** The layout `page_init` establishes: only directory entries 0 and 1
      present, entry 0 a 4 KB-page table at `tableAddr`, entry 1 a 4 MB page
      at `KERNEL_START`; the table identity maps its 1024 pages, of which
      only the VGA text page and the three terminal save pages are present. */
  predicate InitLayout(dir: seq<Pde>, table: seq<Pte>, tableAddr: u32) {
    && IsDirectory(dir) && IsTable(table)
    && (forall i :: 0 <= i < ENTRIES ==> (dir[i].present <==> i < 2))
    && !dir[0].ps && dir[0].addr == tableAddr / PAGE_SIZE
    && dir[1].ps && dir[1].addr * PAGE_SIZE == KERNEL_START
    && (forall i :: 0 <= i < ENTRIES ==> table[i].addr == i)
    && (forall i :: 0 <= i < ENTRIES ==>
         (table[i].present <==> i == VIDEO_FRAME || FIRST_TERMINAL_FRAME <= i < FIRST_TERMINAL_FRAME + TERMINAL_PAGES))
  }

  /** `page_init`: builds the directory and the low page table.  Only the
      first two directory entries are present, the first pointing at the
      table with 4 KB pages and the second a 4 MB kernel page at 4 MB; the
      table identity maps the first 4 MB but makes present only the VGA text
      page (supervisor) and the three terminal save pages (user).  The
      directory frames of entries 2-1023 keep whatever they held before. */
  method PageInit(priorDir: seq<Pde>, priorTable: seq<Pte>, tableAddr: u32)
    returns (dir: seq<Pde>, table: seq<Pte>)
    requires IsDirectory(priorDir) && IsTable(priorTable)
    ensures InitLayout(dir, table, tableAddr)
    ensures forall i :: 0 <= i < ENTRIES ==> dir[i].rw && !dir[i].us && dir[i].g
    ensures forall i :: 2 <= i < ENTRIES ==> dir[i] == AbsentPde(priorDir[i].addr)
    ensures forall i :: 0 <= i < ENTRIES ==> table[i].rw
    ensures forall i :: 0 <= i < ENTRIES ==>
      (table[i].us <==> FIRST_TERMINAL_FRAME <= i < FIRST_TERMINAL_FRAME + TERMINAL_PAGES)
  {
    dir := priorDir;
    table := priorTable;
    var i := 0;
    while i < ENTRIES
      invariant 0 <= i <= ENTRIES && IsDirectory(dir) && IsTable(table)
      invariant forall j :: 0 <= j < i ==> dir[j] == InitPde(j, tableAddr, priorDir[j])
      invariant forall j :: i <= j < ENTRIES ==> dir[j] == priorDir[j]
      invariant forall j :: 0 <= j < i ==> table[j] == KernelPte(j)
    {
      var d := AbsentPde(dir[i].addr);
      var t := KernelPte(i).(present := false);
      if i * PAGE_SIZE == VIDEO_START {
        t := t.(present := true);
      }
      if i == 0 {
        d := d.(present := true, ps := false, addr := tableAddr / PAGE_SIZE);
      } else if i == 1 {
        d := d.(present := true, addr := KERNEL_START / PAGE_SIZE);
      }
      dir := dir[i := d];
      table := table[i := t];
      i := i + 1;
    }
    i := FIRST_TERMINAL_FRAME;
    while i < FIRST_TERMINAL_FRAME + TERMINAL_PAGES
      invariant FIRST_TERMINAL_FRAME <= i <= FIRST_TERMINAL_FRAME + TERMINAL_PAGES && IsTable(table)
      invariant forall j :: 0 <= j < ENTRIES ==>
        table[j] == if FIRST_TERMINAL_FRAME <= j < i then TerminalPagePte(j) else KernelPte(j)
    {
      table := table[i := TerminalPagePte(i)];
      i := i + 1;
    }
  }

  /** The frame number of the 4 MB user frame of process `pid`, computed as
      the source does in unsigned 32-bit arithmetic: 8 MB + 4 MB * pid,
      shifted right by 12. */
  function UserFrame(pid: int): (r: frame)
    ensures 0 <= EIGHT_MB + pid * FOUR_MB < 0x1_0000_0000 ==> r * PAGE_SIZE == EIGHT_MB + pid * FOUR_MB
  {
    var a := EIGHT_MB + pid * FOUR_MB;
    var w := a % 0x1_0000_0000;
    assert a == PAGE_SIZE * (0x800 + 0x400 * pid);
    FrameOfAddress(w);
    if 0 <= a < 0x1_0000_0000 then
      PageMultiple(0x800 + 0x400 * pid);
      w / PAGE_SIZE
    else
      w / PAGE_SIZE
  }

  /** A 32-bit address lies in one of 2^20 frames. */
  lemma FrameOfAddress(w: int)
    requires 0 <= w < 0x1_0000_0000
    ensures 0 <= w / PAGE_SIZE < 0x10_0000
  {
  }

  lemma PageMultiple(m: int)
    ensures (PAGE_SIZE * m) / PAGE_SIZE == m
  {
  }

  /** Directory entry 32 as `execute`, `halt` and the scheduler write it:
      every field is assigned, so the result depends on `pid` alone. */
  function UserWindowPde(pid: int): (e: Pde)
    ensures e.present && e.rw && e.us && e.ps && e.g
    ensures !e.pwt && !e.pcd && !e.acc && !e.avl && e.avl3 == 0
    ensures e.addr == UserFrame(pid)
  {
    Pde(true, true, true, false, false, false, false, true, true, 0, UserFrame(pid))
  }

  /** Point the user window of a directory at process `pid`'s frame. */
  function BindUserWindow(dir: seq<Pde>, pid: int): (r: seq<Pde>)
    requires IsDirectory(dir)
    ensures IsDirectory(r) && r[USR_IDX] == UserWindowPde(pid)
    ensures forall i :: 0 <= i < ENTRIES && i != USR_IDX ==> r[i] == dir[i]
  {
    dir[USR_IDX := UserWindowPde(pid)]
  }

  /** Binding the user window twice keeps only the second binding. */
  lemma BindUserWindowTwice(dir: seq<Pde>, p: int, q: int)
    requires IsDirectory(dir)
    ensures BindUserWindow(BindUserWindow(dir, p), q) == BindUserWindow(dir, q)
  {
  }

  /** Directory entry 34 as `vidmap` writes it: present, writable, user,
      4 KB pages, pointing at `vid_table`; its other fields are kept. */
  function VidmapPde(e: Pde, vidTableAddr: u32): (r: Pde)
    ensures r.present && r.rw && r.us && !r.ps && r.addr == vidTableAddr / PAGE_SIZE
    ensures r.(present := e.present, rw := e.rw, us := e.us, ps := e.ps, addr := e.addr) == e
  {
    e.(present := true, rw := true, us := true, ps := false, addr := vidTableAddr / PAGE_SIZE)
  }

  /** Entry 0 of `vid_table` as `vidmap` and the scheduler write it:
      present, writable, user, mapping physical page `target`; its other
      fields are kept. */
  function VideoPte(e: Pte, target: frame): (r: Pte)
    ensures r.present && r.rw && r.us && r.addr == target
    ensures r.(present := e.present, rw := e.rw, us := e.us, addr := e.addr) == e
  {
    e.(present := true, rw := true, us := true, addr := target)
  }

  /** The page walk of section 4.3 of the Intel SDM, Volume 3A, for 32-bit
      paging with 4 MB pages enabled: the directory entry selected by bits
      31-22, then either the 4 MB frame in bits 31-22 of that entry or the
      table entry selected by bits 21-12 of the table the entry points to.
      `tables` maps a table's frame number to its entries.  None is a page
      fault. */
  function Translate(dir: seq<Pde>, tables: map<nat, seq<Pte>>, va: u32): Option<nat>
    requires IsDirectory(dir)
  {
    var pde := dir[va / FOUR_MB];
    if !pde.present then None
    else if pde.ps then Some((pde.addr / ENTRIES) * FOUR_MB + va % FOUR_MB)
    else if pde.addr !in tables || !IsTable(tables[pde.addr]) then None
    else
      var pte := tables[pde.addr][(va / PAGE_SIZE) % ENTRIES];
      if !pte.present then None else Some(pte.addr * PAGE_SIZE + va % PAGE_SIZE)
  }

  /** After `page_init`, the VGA text page, the terminal save pages and the
      kernel's 4 MB are identity mapped, and every other address faults. */
  lemma PageInitMapping(dir: seq<Pde>, table: seq<Pte>, tableAddr: u32, va: u32)
    requires InitLayout(dir, table, tableAddr)
    ensures var tr := Translate(dir, map[tableAddr / PAGE_SIZE := table], va);
      && (tr.Some? <==> (VIDEO_START <= va < VIDEO_START + PAGE_SIZE
                         || VIDEO_PAGES <= va < VIDEO_PAGES + TERMINAL_PAGES * PAGE_SIZE
                         || KERNEL_START <= va < KERNEL_START + FOUR_MB))
      && (tr.Some? ==> tr.value == va)
  {
    if va < FOUR_MB {
      assert va / FOUR_MB == 0;
      var k := (va / PAGE_SIZE) % ENTRIES;
      assert k == va / PAGE_SIZE;
      assert k * PAGE_SIZE + va % PAGE_SIZE == va;
    } else if va < EIGHT_MB {
      assert va / FOUR_MB == 1;
    } else {
      assert va / FOUR_MB >= 2;
    }
  }

  /** Once entry 32 is bound to process `pid`, the 4 MB user window at
      128 MB translates to that process's frame at 8 MB + 4 MB * pid. */
  lemma UserWindowMapping(dir: seq<Pde>, tables: map<nat, seq<Pte>>, pid: int, va: u32)
    requires IsDirectory(dir) && 0 <= pid < 6
    requires USR_IDX * FOUR_MB <= va < (USR_IDX + 1) * FOUR_MB
    ensures Translate(BindUserWindow(dir, pid), tables, va)
            == Some(EIGHT_MB + pid * FOUR_MB + (va - USR_IDX * FOUR_MB))
  {
    assert va / FOUR_MB == USR_IDX;
    assert UserFrame(pid) == 0x800 + 0x400 * pid;
    assert UserFrame(pid) / ENTRIES == 2 + pid;
  }

  /** The address `vidmap` returns is the first byte of directory entry 34,
      and after its two updates that page reaches the physical page `target`. */
  lemma VidmapMapping(dir: seq<Pde>, vidTable: seq<Pte>, vidTableAddr: u32, target: frame, va: u32)
    requires IsDirectory(dir) && IsTable(vidTable)
    requires USER_VID_MEM <= va < USER_VID_MEM + PAGE_SIZE
    ensures USER_VID_MEM == VID_IDX * FOUR_MB
    ensures Translate(dir[VID_IDX := VidmapPde(dir[VID_IDX], vidTableAddr)],
                      map[vidTableAddr / PAGE_SIZE := vidTable[0 := VideoPte(vidTable[0], target)]], va)
            == Some(target * PAGE_SIZE + (va - USER_VID_MEM))
  {
    assert va / FOUR_MB == VID_IDX;
    assert (va / PAGE_SIZE) % ENTRIES == 0;
  }
}

=== FILE: pic.dfy ===
/** The cascaded pair of 8259A programmable interrupt controllers, seen
    through the interrupt-mask registers the kernel reads and writes and the
    end-of-interrupt commands it issues.  IRQ lines 0-7 belong to the master
    chip and lines 8-15 to the slave, which is cascaded on master line 2. */
module Pic {
  import opened Common

  datatype Chip = Master | Slave

  /** A command byte written to a chip's command port. */
  datatype Command = Command(chip: Chip, value: byte)

  /** The two interrupt-mask registers; a set bit masks (disables) a line. */
  datatype Masks = Masks(master: bv8, slave: bv8)

  const MASTER_INIT_MASK: bv8 := 0xFB
  const SLAVE_INIT_MASK: bv8 := 0xFF
  const MASTER_IRQS: nat := 8
  /** The master line the slave chip is cascaded on. */
  const CASCADE_LINE: nat := 2
  /** OCW2 "specific EOI" command of the 8259A; the line number goes in the low bits. */
  const EOI: bv32 := 0x60

  /** The mask-register bit of line `n`, `1 << n`. */
  function Bit(n: nat): bv8
    requires n < 8
  {
    match n
    case 0 => 0x01 case 1 => 0x02 case 2 => 0x04 case 3 => 0x08
    case 4 => 0x10 case 5 => 0x20 case 6 => 0x40 case _ => 0x80
  }

  /** True when line `n` of a chip's mask register is masked. */
  predicate IsMasked(mask: bv8, n: nat)
    requires n < 8
  {
    mask & Bit(n) != 0
  }

  /** Two mask registers agree on every line except possibly `n`. */
  predicate SameExcept(a: bv8, b: bv8, n: nat)
    requires n < 8
  {
    forall j :: 0 <= j < 8 && j != n ==> (IsMasked(a, j) <==> IsMasked(b, j))
  }

  /** The masks after initialisation: only the cascade line is open. */
  function Init(): (m: Masks)
    ensures forall j :: 0 <= j < 8 ==> (IsMasked(m.master, j) <==> j != CASCADE_LINE)
    ensures forall j :: 0 <= j < 8 ==> IsMasked(m.slave, j)
  {
    Masks(MASTER_INIT_MASK, SLAVE_INIT_MASK)
  }

  /** Whether a shift `1 << n` in a C `int` is defined for the line offset
      the routing computes (n below 31). */
  predicate ShiftDefined(irq: u32) {
    irq < MASTER_IRQS || irq - MASTER_IRQS < 31
  }

  /** Clear (enable) or set (disable) bit `n` of a mask byte, as the C code
      does with an `int` shift whose result is truncated to 8 bits: a line
      offset of 8 or more touches no bit of the register. */
  function UpdateBit(mask: bv8, n: nat, masked: bool): (r: bv8)
    requires n < 31
    ensures n < 8 ==> (IsMasked(r, n) <==> masked) && SameExcept(mask, r, n)
    ensures n >= 8 ==> r == mask
  {
    if n >= 8 then mask
    else
      UpdateBitEffect(mask, n, masked);
      if masked then mask | Bit(n) else mask & !Bit(n)
  }

  lemma UpdateBitEffect(mask: bv8, n: nat, masked: bool)
    requires n < 8
    ensures var r := if masked then mask | Bit(n) else mask & !Bit(n);
            (IsMasked(r, n) <==> masked) && SameExcept(mask, r, n)
  {
    DistinctBits(n, n);
    SetClearOwnBit(mask, Bit(n));
    forall j | 0 <= j < 8 && j != n
      ensures IsMasked(mask, j) <==> IsMasked(if masked then mask | Bit(n) else mask & !Bit(n), j)
    {
      DistinctBits(n, j);
      SetClearOtherBit(mask, Bit(n), Bit(j));
    }
  }

  lemma DistinctBits(n: nat, j: nat)
    requires n < 8 && j < 8
    ensures Bit(n) != 0
    ensures n != j ==> Bit(n) & Bit(j) == 0
  {
  }

  lemma SetClearOwnBit(mask: bv8, b: bv8)
    requires b != 0
    ensures (mask | b) & b != 0
    ensures (mask & !b) & b == 0
  {
  }

  lemma SetClearOtherBit(mask: bv8, b: bv8, c: bv8)
    requires b & c == 0
    ensures (mask | b) & c == mask & c
    ensures (mask & !b) & c == mask & c
  {
  }

  function EnableIrq(m: Masks, irq: u32): (r: Masks)
    requires ShiftDefined(irq)
    ensures irq < 8 ==> r.slave == m.slave && !IsMasked(r.master, irq) && SameExcept(m.master, r.master, irq)
    ensures 8 <= irq < 16 ==> r.master == m.master && !IsMasked(r.slave, irq - 8) && SameExcept(m.slave, r.slave, irq - 8)
    ensures irq >= 16 ==> r == m
  {
    if irq < MASTER_IRQS then m.(master := UpdateBit(m.master, irq, false))
    else m.(slave := UpdateBit(m.slave, irq - MASTER_IRQS, false))
  }

  function DisableIrq(m: Masks, irq: u32): (r: Masks)
    requires ShiftDefined(irq)
    ensures irq < 8 ==> r.slave == m.slave && IsMasked(r.master, irq) && SameExcept(m.master, r.master, irq)
    ensures 8 <= irq < 16 ==> r.master == m.master && IsMasked(r.slave, irq - 8) && SameExcept(m.slave, r.slave, irq - 8)
    ensures irq >= 16 ==> r == m
  {
    if irq < MASTER_IRQS then m.(master := UpdateBit(m.master, irq, true))
    else m.(slave := UpdateBit(m.slave, irq - MASTER_IRQS, true))
  }

  /** The line `irq` is masked in the register of the chip it is routed to. */
  predicate LineMasked(m: Masks, irq: u32)
    requires irq < 16
  {
    if irq < 8 then IsMasked(m.master, irq) else IsMasked(m.slave, irq - 8)
  }

  /** Disabling a line that enabling had opened restores the registers. */
  lemma DisableAfterEnable(m: Masks, irq: u32)
    requires irq < 16 && LineMasked(m, irq)
    ensures DisableIrq(EnableIrq(m, irq), irq) == m
  {
    var r := DisableIrq(EnableIrq(m, irq), irq);
    if irq < 8 {
      assert r.master == m.master by { BitsDetermineMask(r.master, m.master); }
    } else {
      assert r.slave == m.slave by { BitsDetermineMask(r.slave, m.slave); }
    }
  }

  /** Enabling a line that disabling had closed restores the registers. */
  lemma EnableAfterDisable(m: Masks, irq: u32)
    requires irq < 16 && !LineMasked(m, irq)
    ensures EnableIrq(DisableIrq(m, irq), irq) == m
  {
    var r := EnableIrq(DisableIrq(m, irq), irq);
    if irq < 8 {
      assert r.master == m.master by { BitsDetermineMask(r.master, m.master); }
    } else {
      assert r.slave == m.slave by { BitsDetermineMask(r.slave, m.slave); }
    }
  }

  lemma BitsDetermineMask(a: bv8, b: bv8)
    requires forall j :: 0 <= j < 8 ==> (IsMasked(a, j) <==> IsMasked(b, j))
    ensures a == b
  {
    assert IsMasked(a, 0) <==> IsMasked(b, 0);
    assert IsMasked(a, 1) <==> IsMasked(b, 1);
    assert IsMasked(a, 2) <==> IsMasked(b, 2);
    assert IsMasked(a, 3) <==> IsMasked(b, 3);
    assert IsMasked(a, 4) <==> IsMasked(b, 4);
    assert IsMasked(a, 5) <==> IsMasked(b, 5);
    assert IsMasked(a, 6) <==> IsMasked(b, 6);
    assert IsMasked(a, 7) <==> IsMasked(b, 7);
  }

  /** The byte `EOI | n` truncated to the 8-bit port write. */
  function EoiValue(n: u32): byte {
    ((EOI | (n as bv32)) & 0xFF) as int
  }

  lemma EoiValueOfLine(n: u32)
    requires n < 8
    ensures EoiValue(n) == 0x60 + n
  {
    if n == 0 {} else if n == 1 {} else if n == 2 {} else if n == 3 {}
    else if n == 4 {} else if n == 5 {} else if n == 6 {} else {}
  }

  /** The end-of-interrupt commands for `irq`, in the order they are issued. */
  function SendEoi(irq: u32): (cmds: seq<Command>)
    ensures irq < 8 ==> cmds == [Command(Master, 0x60 + irq)]
    ensures 8 <= irq < 16 ==> cmds == [Command(Slave, 0x60 + (irq - 8)), Command(Master, 0x62)]
  {
    if irq < MASTER_IRQS then
      EoiValueOfLine(irq);
      [Command(Master, EoiValue(irq))]
    else if irq < 16 then
      EoiValueOfLine(irq - MASTER_IRQS);
      EoiValueOfLine(CASCADE_LINE);
      SlaveEoi(irq)
    else
      SlaveEoi(irq)
  }

  /** The slave's EOI for `irq` followed by the master's EOI for the cascade line. */
  function SlaveEoi(irq: u32): seq<Command>
    requires irq >= MASTER_IRQS
  {
    [Command(Slave, EoiValue(irq - MASTER_IRQS)), Command(Master, EoiValue(CASCADE_LINE))]
  }
}

=== FILE: process.dfy ===
/** The process side of the kernel: the six process slots, the process
    control blocks, the layout of kernel stacks and user frames, the
    operations table, and the whole-kernel state the system calls and
    interrupt handlers act on. */
module Process {
  import opened Common
  import FileSys
  import Paging
  import Terminal
  import Keyboard
  import Rtc
  import Pic

  const MAX_OPEN_PROGS: nat := 6
  const NUM_DEVICES: nat := 6
  const RTC_INDEX: nat := 0
  const DIR_INDEX: nat := 1
  const FILE_INDEX: nat := 2
  const TERMINAL_INDEX: nat := 3
  const FOUR_KB: nat := 0x1000
  const EIGHT_KB: nat := 0x2000
  /** Bytes left free above a kernel stack (`MEM_FENCE`). */
  const MEM_FENCE: nat := 4
  const USER_START: nat := 0x0800_0000
  /** The user stack pointer a new program starts with. */
  const KEY_MEM: nat := 0x0840_0000 - MEM_FENCE
  const EXEC_LOAD_ADDRESS: nat := 0x0804_8000
  /** Size of the argument buffer of a PCB (`BUF_SIZE`). */
  const ARG_SIZE: nat := 128
  const EXCEPTION_HALT: byte := 111
  /** What a parent's `execute` returns for a child stopped by an exception. */
  const RET_EXCEPTION_HALT: int := 256

  /** A kernel stack position: the stack and frame pointers. */
  datatype Context = Context(esp: u32, ebp: u32)

  /** The two fields of the task-state segment the kernel writes: the stack
      segment and stack pointer loaded on entry from user mode. */
  datatype Tss = Tss(ss0: Selector, esp0: u32)

  /** A process control block: its pid and kernel-stack context, its
      parent's pid and the kernel context `execute` was called from, its
      descriptor table, the TSS values saved when it started, and the
      command line it was started with (128 bytes, NUL-padded). */
  datatype Pcb = Pcb(pid: int, program: Context, parentPid: int, parent: Context,
                     fds: seq<FileSys.FdEntry>, savedTss: Tss, args: seq<byte>)

  /** Where control goes when a kernel entry point finishes. */
  datatype Transfer =
    | Return(value: int)     // back to the caller (or the interrupted code) with this value
    | EnterUser(eip: u32, esp: u32, cs: Selector, ss: Selector, interrupts: bool)
                             // `iret` to a freshly loaded program
    | ResumeParent(at: Context, value: int)
                             // `leave; ret` on the stack `execute` was called from

  /** Everything the modelled kernel code reads and writes.  `newPid` is the
      global `new_pid` (the running process, -1 before the first one);
      `pcbs[p]` is the block at `PcbAddress(p)`; `images[p]` the program
      bytes copied into process p's user frame; `console` the bytes handed
      to `putc`/`puts`; `globalFds` the file system's own descriptor array;
      `temp` the scheduler's `temp_terminal`. */
  datatype Kernel = Kernel(
    progs: seq<bool>, newPid: int, pcbs: seq<Pcb>, images: seq<seq<byte>>,
    term: Terminal.TermState, kb: Keyboard.KbState, screen: Terminal.Screen, console: seq<byte>,
    globalFds: seq<FileSys.FdEntry>, dir: seq<Paging.Pde>, vidTable: seq<Paging.Pte>,
    vidTableAddr: u32, tss: Tss, rtc: Rtc.Rtc, masks: Pic.Masks, img: FileSys.Image, temp: nat)

  /** A pid value the kernel can hold: a slot, or -1 for none. */
  predicate PidValue(p: int) { -1 <= p < MAX_OPEN_PROGS as int }

  /** The process tables: one entry per slot, each block with a full
      descriptor table and a pid-valued parent. */
  predicate ValidProcs(progs: seq<bool>, newPid: int, pcbs: seq<Pcb>, images: seq<seq<byte>>) {
    && |progs| == MAX_OPEN_PROGS && |pcbs| == MAX_OPEN_PROGS && |images| == MAX_OPEN_PROGS
    && PidValue(newPid)
    && forall p :: 0 <= p < MAX_OPEN_PROGS ==> FileSys.IsFdTable(pcbs[p].fds) && PidValue(pcbs[p].parentPid)
  }

  /** The terminals, each holding a pid value. */
  predicate ValidTerminals(term: Terminal.TermState) {
    Terminal.Valid(term) && forall t :: 0 <= t < Terminal.TERMINAL_COUNT ==> PidValue(term.terms[t].pid)
  }

  predicate Valid(k: Kernel) {
    && ValidProcs(k.progs, k.newPid, k.pcbs, k.images)
    && ValidTerminals(k.term) && Keyboard.Valid(k.kb) && Terminal.ValidScreen(k.screen)
    && FileSys.IsFdTable(k.globalFds) && Paging.IsDirectory(k.dir) && Paging.IsTable(k.vidTable)
    && FileSys.WellFormed(k.img) && k.temp < Terminal.TERMINAL_COUNT
  }

  /** The PCB of the running process. */
  function Current(k: Kernel): Pcb
    requires Valid(k) && 0 <= k.newPid
  {
    k.pcbs[k.newPid]
  }

  /** Address of the PCB of `pid`: the bottom of its 8 KB block, the
      (pid+1)-th block down from 8 MB. */
  function PcbAddress(pid: int): (a: int)
    ensures 0 <= pid < MAX_OPEN_PROGS ==> Paging.KERNEL_START < a && a + EIGHT_KB <= Paging.EIGHT_MB
    ensures a % EIGHT_KB == 0
  {
    Paging.EIGHT_MB - EIGHT_KB * (pid + 1)
  }

  /** The kernel stack pointer loaded on entry from user mode while `pid`
      runs: four bytes below the top of its 8 KB block. */
  function KernelStackTop(pid: int): (a: int)
    ensures PcbAddress(pid) < a < PcbAddress(pid) + EIGHT_KB
    ensures a == PcbAddress(pid) + EIGHT_KB - MEM_FENCE
    ensures PidValue(pid) ==> 0 <= a < 0x1_0000_0000
  {
    Paging.EIGHT_MB - EIGHT_KB * pid - MEM_FENCE
  }

  /** The 8 KB blocks of two different processes do not overlap, so the
      PCB and kernel stack of each are its own. */
  lemma BlocksDisjoint(p: int, q: int)
    requires 0 <= p < MAX_OPEN_PROGS && 0 <= q < MAX_OPEN_PROGS && p != q
    ensures PcbAddress(p) + EIGHT_KB <= PcbAddress(q) || PcbAddress(q) + EIGHT_KB <= PcbAddress(p)
  {
  }

  /** The user frames of the processes lie above the kernel's 4 MB page
      and do not overlap one another. */
  lemma UserFramesDisjoint(p: int, q: int)
    requires 0 <= p < MAX_OPEN_PROGS && 0 <= q < MAX_OPEN_PROGS && p != q
    ensures Paging.UserFrame(p) * Paging.PAGE_SIZE >= Paging.KERNEL_START + Paging.FOUR_MB
    ensures Paging.UserFrame(p) / Paging.ENTRIES != Paging.UserFrame(q) / Paging.ENTRIES
  {
    assert Paging.UserFrame(p) == 0x800 + 0x400 * p;
    assert Paging.UserFrame(q) == 0x800 + 0x400 * q;
  }

  /** `get_fops_table`: the operations table of a device index; indices 4
      and 5 are slots no driver fills, anything outside 0..5 is NULL. */
  function GetFopsTable(index: int): (r: Option<FileSys.Ops>)
    ensures r.None? <==> index < 0 || index >= NUM_DEVICES
    ensures r == Some(FileSys.RtcOps) <==> index == RTC_INDEX
    ensures r == Some(FileSys.DirOps) <==> index == DIR_INDEX
    ensures r == Some(FileSys.FileOps) <==> index == FILE_INDEX
    ensures r == Some(FileSys.TerminalOps) <==> index == TERMINAL_INDEX
  {
    if index < 0 || index >= NUM_DEVICES then None
    else if index == RTC_INDEX then Some(FileSys.RtcOps)
    else if index == DIR_INDEX then Some(FileSys.DirOps)
    else if index == FILE_INDEX then Some(FileSys.FileOps)
    else if index == TERMINAL_INDEX then Some(FileSys.TerminalOps)
    else Some(FileSys.Unset)
  }

  /** Whether a descriptor's operations table has functions to call. */
  predicate Dispatchable(e: FileSys.FdEntry) {
    e.ops.Some? && e.ops.value != FileSys.Unset
  }

  /** The lowest free process slot, if any. */
  function LowestFree(progs: seq<bool>): (r: Option<nat>)
    ensures r.Some? ==> r.value < |progs| && !progs[r.value] && forall j :: 0 <= j < r.value ==> progs[j]
    ensures r.None? ==> forall j :: 0 <= j < |progs| ==> progs[j]
  {
    if |progs| == 0 then None
    else if !progs[0] then Some(0)
    else match LowestFree(progs[1..])
      case None => None
      case Some(i) => Some(i + 1)
  }

  /** The descriptor table `execute` gives a new process: 0 and 1 open on
      the terminal with inode -1 and cursor 0, the rest marked closed (their
      other fields are whatever the block held before). */
  function StdFds(prior: seq<FileSys.FdEntry>): (r: seq<FileSys.FdEntry>)
    requires FileSys.IsFdTable(prior)
    ensures FileSys.IsFdTable(r)
    ensures forall i :: 0 <= i < 2 ==> r[i] == FileSys.FdEntry(Some(FileSys.TerminalOps), FileSys.NO_INODE, 0, true)
    ensures forall i :: 2 <= i < FileSys.FD_COUNT ==> r[i] == prior[i].(open := false)
  {
    var std := FileSys.FdEntry(Some(FileSys.TerminalOps), FileSys.NO_INODE, 0, true);
    [std, std] + seq(FileSys.FD_COUNT - 2, i requires 0 <= i < FileSys.FD_COUNT - 2 => prior[i + 2].(open := false))
  }

  /** The argument buffer: the command line followed by NULs, which holds
      the command as a C string again. */
  function ArgBuffer(command: seq<byte>): (r: seq<byte>)
    requires |command| < ARG_SIZE && NoNul(command)
    ensures |r| == ARG_SIZE && r[..|command|] == command
    ensures forall i :: |command| <= i < ARG_SIZE ==> r[i] == NUL
    ensures FileSys.NameLength(r) == |command|
  {
    FileSys.FirstNul(command + Zeros(ARG_SIZE - |command|), |command|);
    command + Zeros(ARG_SIZE - |command|)
  }

  /** The kernel before the first process: no slot used, no process
      running, every terminal blank with terminal 0 displayed, and the
      given boot-time values for everything the modelled code does not
      initialise. */
  function Boot(pcbs: seq<Pcb>, images: seq<seq<byte>>, kb: Keyboard.KbState, screen: Terminal.Screen,
                globalFds: seq<FileSys.FdEntry>, dir: seq<Paging.Pde>, vidTable: seq<Paging.Pte>,
                vidTableAddr: u32, tss: Tss, rtc: Rtc.Rtc, masks: Pic.Masks, img: FileSys.Image): (k: Kernel)
    requires |pcbs| == MAX_OPEN_PROGS && |images| == MAX_OPEN_PROGS
    requires forall p :: 0 <= p < MAX_OPEN_PROGS ==> FileSys.IsFdTable(pcbs[p].fds) && PidValue(pcbs[p].parentPid)
    requires Keyboard.Valid(kb) && Terminal.ValidScreen(screen) && FileSys.IsFdTable(globalFds)
    requires Paging.IsDirectory(dir) && Paging.IsTable(vidTable) && FileSys.WellFormed(img)
    ensures Valid(k) && k.newPid == -1 && k.temp == 0
    ensures forall p :: 0 <= p < MAX_OPEN_PROGS ==> !k.progs[p]
    ensures k.term == Terminal.TermInit()
  {
    Kernel([false, false, false, false, false, false], -1, pcbs, images, Terminal.TermInit(), kb, screen, [],
           globalFds, dir, vidTable, vidTableAddr, tss, rtc, masks, img, 0)
  }
}

=== FILE: rtc.dfy ===
/** The real-time-clock driver: the MC146818 periodic-interrupt rate in the
    low nibble of register A, and the flag the interrupt handler raises for
    `rtc_read`.  The busy wait inside `rtc_read` is not modelled: its model
    starts at the moment the flag is observed set. */
module Rtc {
  import opened Common
  import Pic

  /** Register A of the clock chip and the driver's "interrupt received" flag. */
  datatype Rtc = Rtc(regA: bv8, interruptReceived: bool)

  const RTC_IRQ: u32 := 8
  /** Rate-select value for 2 Hz. */
  const RATE_2HZ: bv8 := 0x0F
  /** The driver's table of rate-select values for 2, 4, ..., 1024 Hz. */
  const FREQ_VALUES: seq<bv8> := [0x0F, 0x0E, 0x0D, 0x0C, 0x0B, 0x0A, 0x09, 0x08, 0x07, 0x06]

  /** The high nibble of register A, which the driver never changes. */
  function High(a: bv8): bv8 { a & 0xF0 }
  /** The rate-select nibble of register A. */
  function RateSelect(a: bv8): bv8 { a & 0x0F }

  /** Register A with its rate-select nibble replaced by `code`. */
  function WithRate(a: bv8, code: bv8): (r: bv8)
    requires code <= 0x0F
    ensures High(r) == High(a) && RateSelect(r) == code
  {
    (a & 0xF0) | code
  }

  /** The rate-select code the chip needs for `rate` interrupts per second:
      defined exactly for the powers of two from 2 to 1024. */
  function RateCode(rate: int): Option<bv8> {
    if rate == 2 then Some(0x0F) else if rate == 4 then Some(0x0E)
    else if rate == 8 then Some(0x0D) else if rate == 16 then Some(0x0C)
    else if rate == 32 then Some(0x0B) else if rate == 64 then Some(0x0A)
    else if rate == 128 then Some(0x09) else if rate == 256 then Some(0x08)
    else if rate == 512 then Some(0x07) else if rate == 1024 then Some(0x06)
    else None
  }

  /** The code for 2^k is 16 - k, for every accepted exponent. */
  lemma RateCodeIsSixteenMinusLog(k: nat)
    requires 1 <= k <= 10
    ensures RateCode(Pow2(k)) == Some((16 - k) as bv8)
  {
    if k == 1 {} else if k == 2 {} else if k == 3 {} else if k == 4 {} else if k == 5 {}
    else if k == 6 {} else if k == 7 {} else if k == 8 {} else if k == 9 {} else {}
  }

  /** Every rate with a code is 2^k for an exponent 1..10. */
  lemma RateCodeOnlyPowers(rate: int)
    requires RateCode(rate).Some?
    ensures exists k :: 1 <= k <= 10 && rate == Pow2(k)
  {
    if rate == 2 { assert rate == Pow2(1); }
    else if rate == 4 { assert rate == Pow2(2); }
    else if rate == 8 { assert rate == Pow2(3); }
    else if rate == 16 { assert rate == Pow2(4); }
    else if rate == 32 { assert rate == Pow2(5); }
    else if rate == 64 { assert rate == Pow2(6); }
    else if rate == 128 { assert rate == Pow2(7); }
    else if rate == 256 { assert rate == Pow2(8); }
    else if rate == 512 { assert rate == Pow2(9); }
    else { assert rate == Pow2(10); }
  }

  /** Number of set bits. */
  function Ones(x: nat): nat {
    if x == 0 then 0 else x % 2 + Ones(x / 2)
  }

  lemma {:induction false} OnesZero(x: nat)
    requires Ones(x) == 0
    ensures x == 0
  {
    if x != 0 {
      assert x % 2 == 0;
      OnesZero(x / 2);
    }
  }

  lemma {:induction false} OnesOfPow2(k: nat)
    ensures Ones(Pow2(k)) == 1
  {
    if k == 0 {
      assert Ones(1) == 1;
    } else {
      var h := Pow2(k - 1);
      assert Pow2(k) == 2 * h && (2 * h) % 2 == 0 && (2 * h) / 2 == h;
      OnesOfPow2(k - 1);
    }
  }

  /** The scan's loop invariant after looking at the low `i` bits: `v` is
      what is left of the rate, `p` its weight, and while at most one bit
      has been seen the seen part is exactly that bit. */
  predicate ScanInvariant(rate: nat, i: nat, p: nat, v: nat, exponent: nat, index: nat) {
    && i <= 32 && p == Pow2(i) && v < Pow2(32 - i)
    && exponent + Ones(v) == Ones(rate)
    && (exponent == 0 ==> rate == p * v)
    && (exponent == 1 ==> rate == Pow2(index) + p * v)
  }

  lemma ScanStep(rate: nat, i: nat, p: nat, v: nat, exponent: nat, index: nat)
    requires i < 32 && ScanInvariant(rate, i, p, v, exponent, index)
    ensures var e := if v % 2 == 1 then exponent + 1 else exponent;
            var x := if v % 2 == 1 then i else index;
            ScanInvariant(rate, i + 1, 2 * p, v / 2, e, x)
  {
    SplitProduct(p, v);
    assert Pow2(32 - i) == 2 * Pow2(32 - (i + 1));
  }

  lemma SplitProduct(p: nat, v: nat)
    ensures p * v == (2 * p) * (v / 2) + p * (v % 2)
  {
    assert v == 2 * (v / 2) + v % 2;
  }

  /** The driver's scan of all 32 bits of `rate`: counts the set bits and
      remembers the position of the highest one. */
  method ScanBits(rate: u32) returns (exponent: nat, index: nat)
    ensures exponent == Ones(rate)
    ensures exponent == 1 ==> rate == Pow2(index)
  {
    exponent := 0;
    index := 0;
    var v: nat := rate;
    ghost var p: nat := 1;
    var i := 0;
    Pow2Of32();
    while i < 32
      invariant ScanInvariant(rate, i, p, v, exponent, index)
    {
      ScanStep(rate, i, p, v, exponent, index);
      if v % 2 == 1 {
        exponent := exponent + 1;
        index := i;
      }
      v := v / 2;
      p := 2 * p;
      i := i + 1;
    }
  }

  /** A single-bit rate in [2, 1024] is 2^k for k in 1..10, and its code is
      the driver's table entry k - 1. */
  lemma AcceptedRate(rate: nat, index: nat)
    requires 2 <= rate <= 1024 && rate == Pow2(index)
    ensures 1 <= index <= 10
    ensures RateCode(rate) == Some(FREQ_VALUES[index - 1])
  {
    if index == 0 {
    } else if index > 10 {
      assert Pow2(11) == 2048;
      Pow2Monotone(11, index);
    }
    RateCodeIsSixteenMinusLog(index);
  }

  /** Every rate with a code is one the driver's checks let through. */
  lemma CodedRatePasses(rate: nat)
    requires RateCode(rate).Some?
    ensures 2 <= rate <= 1024 && Ones(rate) == 1
  {
    RateCodeOnlyPowers(rate);
    var k :| 1 <= k <= 10 && rate == Pow2(k);
    OnesOfPow2(k);
  }

  /** `rtc_write`: a NULL buffer or a size other than 4 is refused; the rate
      is accepted when it has a single set bit and lies in [2, 1024], and
      then only the rate-select nibble of register A changes. */
  method RtcWrite(s: Rtc, buf: Option<seq<byte>>, nbytes: int) returns (r: int, s': Rtc)
    requires buf.Some? && nbytes == 4 ==> |buf.value| >= 4
    ensures buf.None? || nbytes != 4 ==> r == -1 && s' == s
    ensures buf.Some? && nbytes == 4 ==>
      var code := RateCode(LittleEndian32(buf.value[..4]));
      && (r == 0 <==> code.Some?)
      && (r != 0 ==> r == -1 && s' == s)
      && (code.Some? ==> s' == s.(regA := WithRate(s.regA, code.value)))
  {
    if buf.None? || nbytes != 4 {
      return -1, s;
    }
    var rate := LittleEndian32(buf.value[..4]);
    var exponent, index := ScanBits(rate);
    if rate < 2 || rate > 1024 || exponent != 1 {
      if RateCode(rate).Some? {
        CodedRatePasses(rate);
      }
      return -1, s;
    }
    AcceptedRate(rate, index);
    var freq := FREQ_VALUES[index - 1];
    return 0, s.(regA := WithRate(s.regA, freq));
  }

  /** `rtc_open`: refuses a NULL name; otherwise selects 2 Hz and unmasks the
      clock's interrupt line. */
  function RtcOpen(s: Rtc, masks: Pic.Masks, filename: Option<seq<byte>>): (r: (int, Rtc, Pic.Masks))
    ensures filename.None? ==> r == (-1, s, masks)
    ensures filename.Some? ==>
      && r.0 == 0
      && r.1 == s.(regA := WithRate(s.regA, RATE_2HZ))
      && !Pic.LineMasked(r.2, RTC_IRQ) && r.2.master == masks.master
  {
    if filename.None? then (-1, s, masks)
    else (0, s.(regA := WithRate(s.regA, RATE_2HZ)), Pic.EnableIrq(masks, RTC_IRQ))
  }

  /** `rtc_read`, from the moment the interrupt flag is seen set: the flag is
      consumed and 0 returned. */
  function RtcRead(s: Rtc): (r: (int, Rtc))
    ensures r.0 == 0 && !r.1.interruptReceived && r.1.regA == s.regA
  {
    (0, s.(interruptReceived := false))
  }

  /** `rtc_close` does nothing and succeeds. */
  function RtcClose(s: Rtc): (r: (int, Rtc))
    ensures r == (0, s)
  {
    (0, s)
  }

  /** The clock's interrupt handler: acknowledges the slave line of the
      clock and raises the flag `rtc_read` waits for. */
  function RtcInterrupt(s: Rtc): (r: (Rtc, seq<Pic.Command>))
    ensures r.0 == s.(interruptReceived := true)
    ensures r.1 == [Pic.Command(Pic.Slave, 0x60), Pic.Command(Pic.Master, 0x62)]
  {
    (s.(interruptReceived := true), Pic.SendEoi(RTC_IRQ))
  }

  /** The periodic interrupt rate, in Hz, that the MC146818 clock derives
      from a rate-select value of 3 to 15 with its 32.768 kHz time base:
      32768 >> (select - 1). */
  function PeriodicHz(select: bv8): nat
    requires 3 <= select <= 15
  {
    ((0x8000 as bv16) >> (select - 1)) as nat
  }

  /** An accepted rate 2^k programs rate-select 16 - k, and the clock then
      interrupts at 2^k Hz: the code table inverts the hardware's rate. */
  lemma RtcWriteRateSelect(s: Rtc, k: nat)
    requires 1 <= k <= 10
    ensures RateCode(Pow2(k)).Some?
    ensures var select := RateSelect(WithRate(s.regA, RateCode(Pow2(k)).value));
      && select == (16 - k) as bv8 && PeriodicHz(select) == Pow2(k)
  {
    RateCodeIsSixteenMinusLog(k);
    PeriodicHzOfCode(k);
  }

  lemma PeriodicHzOfCode(k: nat)
    requires 1 <= k <= 10
    ensures PeriodicHz((16 - k) as bv8) == Pow2(k)
  {
    var select := (16 - k) as bv8;
    if k <= 5 {
      if k == 1 { assert select == 15; } else if k == 2 { assert select == 14; }
      else if k == 3 { assert select == 13; } else if k == 4 { assert select == 12; }
      else { assert select == 11; }
    } else {
      if k == 6 { assert select == 10; } else if k == 7 { assert select == 9; }
      else if k == 8 { assert select == 8; } else if k == 9 { assert select == 7; }
      else { assert select == 6; }
    }
  }
}

=== FILE: schedule.dfy ===
/** The scheduler: the timer interrupt handler `pit_irq_handler`, a state
    machine over the three terminals.  A tick on a terminal that has not
    been started starts it and runs a shell in it; otherwise the cursor
    `temp_terminal` moves round-robin to the next terminal and, when that
    terminal runs a program of its own (pid 3 or more), the kernel switches
    to it: user window, video page, TSS and kernel stack.  The register
    save and load are modelled as the PCB's `program` context and the
    stack the handler returns on. */
module Schedule {
  import opened Common
  import Terminal
  import Paging
  import Pic
  import opened Process
  import Syscall

  /** The PIT's interrupt line. */
  const PIT_IRQ: u32 := 0
  /** Pids 0-2 are the terminals' root shells, which the tick never
      switches to. */
  const ROOT_SHELLS: int := 3

  /** How a tick ends. */
  datatype TickEnd =
    | Resumed                   // `sti; return` to the interrupted code
    | Started(into: Transfer)   // a seeded shell was entered in user mode
    | SwitchedTo(stack: Context)
                                // return on the kernel stack loaded from the target's PCB

  /** The next terminal in round-robin order. */
  function NextTerminal(t: nat): (r: nat)
    ensures r < Terminal.TERMINAL_COUNT
    ensures t < Terminal.TERMINAL_COUNT ==> (r == 0 <==> t == Terminal.TERMINAL_COUNT - 1)
    ensures t < Terminal.TERMINAL_COUNT - 1 ==> r == t + 1
  {
    (t + 1) % Terminal.TERMINAL_COUNT
  }

  /** Round robin is fair: from any terminal, three ticks visit every
      terminal once and come back. */
  lemma RoundRobinVisitsAll(t: nat)
    requires t < Terminal.TERMINAL_COUNT
    ensures NextTerminal(NextTerminal(NextTerminal(t))) == t
    ensures {t, NextTerminal(t), NextTerminal(NextTerminal(t))} == {0, 1, 2}
    ensures t != NextTerminal(t) && NextTerminal(t) != NextTerminal(NextTerminal(t))
            && t != NextTerminal(NextTerminal(t))
  {
  }

  /** The physical page the user's video window shows while terminal
      `sched` runs: video memory itself when `sched` is displayed, its save
      page otherwise. */
  function VideoFrame(sched: nat, current: nat): (f: Paging.frame)
    requires sched < Terminal.TERMINAL_COUNT
    ensures sched == current ==> f * Paging.PAGE_SIZE == Paging.VIDEO_START
    ensures sched != current ==> f * Paging.PAGE_SIZE == Paging.VIDEO_PAGES + sched * Terminal.VID_MEM
  {
    if sched == current then Paging.VIDEO_FRAME else Paging.FIRST_TERMINAL_FRAME + sched
  }

  /** The save page of every terminal lies past video memory, and distinct
      terminals have distinct save pages, so a program that is not
      displayed never draws on the screen or on another terminal's page. */
  lemma VideoFramesDistinct(s: nat, t: nat, current: nat)
    requires s < Terminal.TERMINAL_COUNT && t < Terminal.TERMINAL_COUNT && s != t
    ensures VideoFrame(s, current) != VideoFrame(t, current)
    ensures s != current ==> VideoFrame(s, current) != Paging.VIDEO_FRAME
  {
  }

  /** Whether the tick is defined: seeding a shell runs `execute`, whose
      header checks must read bytes the shell file supplies. */
  predicate TickDefined(k: Kernel)
    requires Valid(k)
  {
    !k.term.terms[k.temp].on ==> Syscall.HeaderDefined(k.img, Syscall.Shell())
  }

  /** The kernel with terminal `t` marked started and displayed, as the
      seeding branch prepares it before `execute`. */
  function SeedPrologue(k: Kernel): (r: Kernel)
    requires Valid(k)
    ensures Valid(r) && r.term.current == k.temp && r.term.terms[k.temp].on
    ensures r.newPid == k.newPid && r.progs == k.progs && r.img == k.img && r.temp == k.temp
    ensures forall u :: 0 <= u < Terminal.TERMINAL_COUNT ==> r.term.terms[u].pid == k.term.terms[u].pid
  {
    var t := k.temp;
    var term1 := k.term.(terms := k.term.terms[t := k.term.terms[t].(on := true)]);
    var shown := Terminal.OpenTerminal(term1, k.screen, t);
    StartedValid(k, shown.0, shown.1);
    k.(term := shown.0, screen := shown.1)
  }

  lemma StartedValid(k: Kernel, term: Terminal.TermState, screen: Terminal.Screen)
    requires Valid(k) && Terminal.Valid(term) && Terminal.ValidScreen(screen)
    requires forall u :: 0 <= u < Terminal.TERMINAL_COUNT ==> term.terms[u].pid == k.term.terms[u].pid
    ensures Valid(k.(term := term, screen := screen))
  {
  }

  /** The seeding branch: terminal `temp` is marked started and displayed
      and a shell is executed in it.  When `execute` launches the shell the
      handler does not come back here; when it returns, the previously
      displayed terminal is displayed again.  The cursor does not move. */
  function Seed(k: Kernel, caller: Context): (r: (Kernel, TickEnd))
    requires Valid(k) && !k.term.terms[k.temp].on && Syscall.HeaderDefined(k.img, Syscall.Shell())
    ensures Valid(r.0) && r.0.temp == k.temp && r.0.term.terms[k.temp].on
    ensures r.1.Resumed? || r.1.Started?
    ensures r.1.Started? <==> Syscall.Launches(SeedPrologue(k), Syscall.Shell())
    ensures r.1.Started? ==> (r.0, r.1.into) == Syscall.Launch(SeedPrologue(k), Syscall.Shell(), caller)
    ensures r.1.Resumed? ==> r.0.term.current == k.term.current
  {
    var k1 := SeedPrologue(k);
    assert Syscall.ExecuteDefined(k1, Syscall.Shell());
    var e := Syscall.Execute(k1, Syscall.Shell(), caller);
    if e.1.EnterUser? then (e.0, Started(e.1))
    else
      var back := Terminal.OpenTerminal(e.0.term, e.0.screen, k.term.current);
      StartedValid(e.0, back.0, back.1);
      (e.0.(term := back.0, screen := back.1), Resumed)
  }

  /** The switch to terminal `next`, whose process `pid` (3 or more) is not
      a root shell: `sched_terminal` and `new_pid` become `next` and `pid`;
      the user window is pointed at the frame of the pid recorded in pid's
      PCB; the video page at `VideoFrame(next, current)`; the TSS at pid's
      kernel stack; the stack the handler runs on (`here`) is saved in
      pid's PCB and the stack to return on is loaded from that same PCB. */
  function Switch(k: Kernel, next: nat, here: Context): (r: (Kernel, TickEnd))
    requires Valid(k) && next < Terminal.TERMINAL_COUNT && k.term.terms[next].pid >= ROOT_SHELLS
    ensures Valid(r.0)
  {
    var pid := k.term.terms[next].pid;
    var pcbs := k.pcbs[pid := k.pcbs[pid].(program := here)];
    var nxt := pcbs[pid];
    var k1 := k.(temp := next, term := k.term.(sched := next), newPid := pid, pcbs := pcbs,
                 dir := Paging.BindUserWindow(k.dir, nxt.pid),
                 vidTable := k.vidTable[0 := Paging.VideoPte(k.vidTable[0], VideoFrame(next, k.term.current))],
                 tss := Tss(KernelDs, KernelStackTop(pid)));
    SwitchedValid(k, next, k1);
    (k1, SwitchedTo(nxt.program))
  }

  lemma SwitchedValid(k: Kernel, next: nat, k1: Kernel)
    requires Valid(k) && next < Terminal.TERMINAL_COUNT && k.term.terms[next].pid >= ROOT_SHELLS
    requires k1.progs == k.progs && k1.images == k.images && k1.kb == k.kb && k1.screen == k.screen
    requires k1.globalFds == k.globalFds && k1.img == k.img
    requires k1.term == k.term.(sched := next) && k1.temp == next && k1.newPid == k.term.terms[next].pid
    requires |k1.pcbs| == |k.pcbs|
    requires forall p :: 0 <= p < MAX_OPEN_PROGS ==> k1.pcbs[p].fds == k.pcbs[p].fds && k1.pcbs[p].parentPid == k.pcbs[p].parentPid
    requires Paging.IsDirectory(k1.dir) && Paging.IsTable(k1.vidTable)
    ensures Valid(k1)
  {
  }

  /** `pit_irq_handler`, entered on kernel stack `here` (which is also the
      context a seeded shell's `execute` is called from): the PIT's EOI is
      sent; a terminal not yet started is seeded; otherwise the cursor moves
      on, and the kernel switches to the next terminal unless its process
      is a root shell. */
  function TimerTick(k: Kernel, here: Context): (r: (Kernel, seq<Pic.Command>, TickEnd))
    requires Valid(k) && TickDefined(k)
    ensures Valid(r.0) && r.0.temp < Terminal.TERMINAL_COUNT
    ensures r.1 == [Pic.Command(Pic.Master, 0x60)]
    ensures r.0.temp == if k.term.terms[k.temp].on then NextTerminal(k.temp) else k.temp
    ensures r.2.SwitchedTo? <==>
              k.term.terms[k.temp].on && k.term.terms[NextTerminal(k.temp)].pid >= ROOT_SHELLS
  {
    var eoi := Pic.SendEoi(PIT_IRQ);
    if !k.term.terms[k.temp].on then
      var s := Seed(k, here);
      (s.0, eoi, s.1)
    else
      var next := NextTerminal(k.temp);
      if k.term.terms[next].pid < ROOT_SHELLS then (k.(temp := next), eoi, Resumed)
      else
        var s := Switch(k, next, here);
        (s.0, eoi, s.1)
  }

  /** A tick that lands on a terminal running only its root shell (or
      nothing) moves the cursor and changes nothing else. */
  lemma NoSwitchToRootShell(k: Kernel, here: Context)
    requires Valid(k) && TickDefined(k) && k.term.terms[k.temp].on
    requires k.term.terms[NextTerminal(k.temp)].pid < ROOT_SHELLS
    ensures TimerTick(k, here).0 == k.(temp := NextTerminal(k.temp))
    ensures TimerTick(k, here).2 == Resumed
  {
  }

  /** A switching tick to process `pid`: pid runs with its terminal
      scheduled; the user window translates to pid's own 4 MB frame (when
      pid's PCB records pid); the video window shows the screen when pid's
      terminal is displayed and that terminal's save page otherwise; the
      TSS holds the same kernel stack `execute` gave pid; and the stack the
      handler returns on is the one it saved, so the switch of stacks
      resumes exactly where this tick was entered. */
  lemma SwitchState(k: Kernel, here: Context, va: u32)
    requires Valid(k) && TickDefined(k) && k.term.terms[k.temp].on
    requires k.term.terms[NextTerminal(k.temp)].pid >= ROOT_SHELLS
    requires Paging.USR_IDX * Paging.FOUR_MB <= va < (Paging.USR_IDX + 1) * Paging.FOUR_MB
    ensures var next := NextTerminal(k.temp);
            var pid := k.term.terms[next].pid;
            var (r, eoi, e) := TimerTick(k, here);
            && r.newPid == pid && r.term.sched == next && r.term.current == k.term.current
            && r.pcbs[pid].program == here
            && e == SwitchedTo(here)
            && (k.pcbs[pid].pid == pid ==>
                  Paging.Translate(r.dir, map[], va) == Some(Paging.EIGHT_MB + pid * Paging.FOUR_MB + (va - Paging.USR_IDX * Paging.FOUR_MB)))
            && r.vidTable[0].present && r.vidTable[0].us
            && r.vidTable[0].addr * Paging.PAGE_SIZE
               == (if next == k.term.current then Paging.VIDEO_START else Paging.VIDEO_PAGES + next * Terminal.VID_MEM)
            && r.tss == Tss(KernelDs, KernelStackTop(pid))
            && r.tss.esp0 == Paging.EIGHT_MB - EIGHT_KB * pid - MEM_FENCE
  {
    var next := NextTerminal(k.temp);
    var pid := k.term.terms[next].pid;
    if k.pcbs[pid].pid == pid {
      Paging.UserWindowMapping(k.dir, map[], pid, va);
    }
  }

  /** A tick on a terminal not yet started marks it started and leaves the
      cursor on it.  If the shell launches, it is the lowest free process,
      it becomes that terminal's process, it has no parent, and the
      terminal stays displayed; otherwise the displayed terminal is the one
      displayed before the tick. */
  lemma SeedStartsShell(k: Kernel, here: Context)
    requires Valid(k) && TickDefined(k) && !k.term.terms[k.temp].on
    ensures var (r, eoi, e) := TimerTick(k, here);
            && r.temp == k.temp && r.term.terms[k.temp].on
            && (e.Started? <==> Syscall.Launches(SeedPrologue(k), Syscall.Shell()))
            && (e.Started? ==>
                  && LowestFree(k.progs) == Some(r.newPid as nat)
                  && r.term.current == k.temp && r.term.terms[k.temp].pid == r.newPid
                  && (r.newPid < ROOT_SHELLS ==> r.pcbs[r.newPid].parentPid == -1)
                  && e.into.EnterUser?)
            && (e.Resumed? ==> r.term.current == k.term.current)
  {
    var k1 := SeedPrologue(k);
    if Syscall.Launches(k1, Syscall.Shell()) {
      Syscall.LaunchState(k1, Syscall.Shell(), here);
    }
  }
}

=== FILE: syscall.dfy ===
/** The system calls: `execute`, `halt`, `read`, `write`, `open`, `close`,
    `getargs` and `vidmap`, each acting on the whole kernel state.  A call
    that leaves the kernel by `iret` or by jumping onto another kernel stack
    reports where it goes as a `Transfer`.  Command lines and file names
    are the bytes of a C string before its NUL. */
module Syscall {
  import opened Common
  import opened Process
  import FileSys
  import Paging
  import Terminal
  import Keyboard
  import Rtc
  import Pic

  const FD_COUNT: nat := 8
  /** Bytes of the program file `execute` reads to check its header. */
  const HEADER_SIZE: nat := 42
  const EIP_OFFSET: nat := 24
  const USER_HALT: byte := 42
  const ELF_MAGIC: seq<byte> := [0x7F, 0x45, 0x4C, 0x46]

  /** The program every terminal falls back to. */
  function Shell(): (r: seq<byte>)
    ensures |r| == 5 && NoNul(r) && forall i :: 0 <= i < 5 ==> r[i] != SPACE
    ensures ProgramName(r) == r
  {
    var r: seq<byte> := [0x73, 0x68, 0x65, 0x6C, 0x6C];  // "shell"
    assert SpacesEnd(r, 0) == 0 by { assert r[0] != SPACE; }
    assert WordEnd(r, 0) == 5;
    r
  }

  /** The banner `halt` prints for a program stopped with Ctrl+C: a
      newline, then "Interrupt!!! Program interrupted by user" in ASCII. */
  const INTERRUPT_MESSAGE: seq<byte> :=
    [0x0A, 0x49, 0x6E, 0x74, 0x65, 0x72, 0x72, 0x75, 0x70, 0x74, 0x21, 0x21, 0x21, 0x20, 0x50, 0x72, 0x6F, 0x67, 0x72, 0x61, 0x6D, 0x20, 0x69, 0x6E, 0x74, 0x65, 0x72, 0x72, 0x75, 0x70, 0x74, 0x65, 0x64, 0x20, 0x62, 0x79, 0x20, 0x75, 0x73, 0x65, 0x72]

  // ---------------------------------------------------------------------
  // Command-line parsing

  /** The first index at or after `i` that does not hold a space. */
  function SpacesEnd(s: seq<byte>, i: nat): (r: nat)
    requires i <= |s|
    ensures i <= r <= |s|
    ensures forall j :: i <= j < r ==> s[j] == SPACE
    ensures r < |s| ==> s[r] != SPACE
    decreases |s| - i
  {
    if i == |s| || s[i] != SPACE then i else SpacesEnd(s, i + 1)
  }

  /** The first index at or after `i` that holds a space. */
  function WordEnd(s: seq<byte>, i: nat): (r: nat)
    requires i <= |s|
    ensures i <= r <= |s|
    ensures forall j :: i <= j < r ==> s[j] != SPACE
    ensures r < |s| ==> s[r] == SPACE
    decreases |s| - i
  {
    if i == |s| || s[i] == SPACE then i else WordEnd(s, i + 1)
  }

  /** Where the program name of a command line starts and ends. */
  function NameStart(cmd: seq<byte>): nat { SpacesEnd(cmd, 0) }
  function NameEnd(cmd: seq<byte>): (r: nat)
    ensures NameStart(cmd) <= r <= |cmd|
  {
    WordEnd(cmd, NameStart(cmd))
  }

  /** The program name: the first word of the command line. */
  function ProgramName(cmd: seq<byte>): seq<byte> {
    cmd[NameStart(cmd)..NameEnd(cmd)]
  }

  /** Where the arguments start: after the first word and the spaces that
      follow it. */
  function ArgsStart(cmd: seq<byte>): (r: nat)
    ensures NameEnd(cmd) <= r <= |cmd|
  {
    SpacesEnd(cmd, NameEnd(cmd))
  }

  /** The arguments `getargs` hands out: everything after the first word
      and the spaces that follow it, trailing spaces included. */
  function Args(cmd: seq<byte>): seq<byte> {
    cmd[ArgsStart(cmd)..]
  }

  // ---------------------------------------------------------------------
  // execute

  predicate IsElf(head: seq<byte>)
    requires |head| >= 4
  {
    head[..4] == ELF_MAGIC
  }

  /** Whether `execute`'s header checks read only bytes the file supplied:
      a name that resolves must have at least the 4 magic bytes, and an
      executable also the 4 entry-point bytes at offset 24 (the rest of the
      header buffer is uninitialised stack). */
  predicate HeaderDefined(img: FileSys.Image, name: seq<byte>)
    requires FileSys.WellFormed(img) && FileSys.LookupDefined(Some(name))
  {
    match FileSys.ReadDentryByName(img, Some(name))
    case None => true
    case Some(d) =>
      var head := FileSys.ReadData(img, d.inode, 0, HEADER_SIZE);
      |head| >= 4 && (IsElf(head) ==> |head| >= EIP_OFFSET + 4)
  }

  /** Whether `execute` on `command` has defined behaviour: the program
      name is not exactly 32 bytes (its terminator would go past the name
      buffer), and when the lookup is reached the name is not empty (the
      lookup reads the byte before an empty name), the header is readable,
      and a command of exactly 128 bytes does not reach the copy into the
      128-byte argument buffer (its terminator would go past the PCB). */
  predicate ExecuteDefined(k: Kernel, command: seq<byte>)
    requires Valid(k)
  {
    var name := ProgramName(command);
    && NoNul(command)
    && |name| != FileSys.MAX_NAME_LENGTH
    && (|name| < FileSys.MAX_NAME_LENGTH && k.newPid < MAX_OPEN_PROGS - 1 && |command| <= ARG_SIZE ==>
          && |name| > 0 && HeaderDefined(k.img, name)
          && (|command| == ARG_SIZE ==> !Starts(k, name)))
  }

  /** Whether a resolvable program name passes `execute`'s last checks: the
      file starts with the ELF magic and a slot is free. */
  predicate Starts(k: Kernel, name: seq<byte>)
    requires Valid(k) && FileSys.LookupDefined(Some(name)) && HeaderDefined(k.img, name)
  {
    match FileSys.ReadDentryByName(k.img, Some(name))
    case None => false
    case Some(d) => IsElf(Header(k, d)) && LowestFree(k.progs).Some?
  }

  /** What every `execute` does first: a newline on the console and an
      empty line buffer for the displayed terminal. */
  function ExecutePrologue(k: Kernel): (r: Kernel)
    requires Valid(k)
    ensures Valid(r)
  {
    k.(console := k.console + [NEWLINE], kb := Keyboard.ClearBuffer(k.kb, k.term.current))
  }

  /** The entry point of an executable: bytes 24-27 of its header, little
      endian. */
  function EntryPoint(head: seq<byte>): u32
    requires |head| >= EIP_OFFSET + 4
  {
    LittleEndian32(head[EIP_OFFSET..EIP_OFFSET + 4])
  }

  /** The directory entry `execute` looks up for a command line. */
  function ProgramEntry(k: Kernel, command: seq<byte>): Option<FileSys.Dentry>
    requires Valid(k) && ExecuteDefined(k, command) && |ProgramName(command)| < FileSys.MAX_NAME_LENGTH
    requires k.newPid < MAX_OPEN_PROGS - 1 && |command| <= ARG_SIZE
  {
    FileSys.ReadDentryByName(k.img, Some(ProgramName(command)))
  }

  /** The first bytes of a program file, where `execute` looks for the ELF
      magic and the entry point. */
  function Header(k: Kernel, d: FileSys.Dentry): seq<byte>
    requires Valid(k)
  {
    FileSys.ReadData(k.img, d.inode, 0, HEADER_SIZE)
  }

  /** The conditions under which `execute` starts a program. */
  predicate Launches(k: Kernel, command: seq<byte>)
    requires Valid(k) && ExecuteDefined(k, command)
  {
    && |ProgramName(command)| < FileSys.MAX_NAME_LENGTH && k.newPid < MAX_OPEN_PROGS - 1 && |command| <= ARG_SIZE
    && ProgramEntry(k, command).Some?
    && IsElf(Header(k, ProgramEntry(k, command).value))
    && LowestFree(k.progs).Some?
  }

  /** The bytes of the whole program file. */
  function Image(k: Kernel, d: FileSys.Dentry): seq<byte>
    requires Valid(k)
  {
    if d.inode < k.img.inodeCount then FileSys.ReadData(k.img, d.inode, 0, k.img.inodes[d.inode].length) else []
  }

  /** Slot `p` taken by a process with block `pcb`, which becomes the
      running process and the process of the displayed terminal. */
  function Claim(k: Kernel, p: nat, pcb: Pcb): (r: Kernel)
    requires Valid(k) && p < MAX_OPEN_PROGS && FileSys.IsFdTable(pcb.fds) && PidValue(pcb.parentPid)
    ensures Valid(r) && r.newPid == p && Current(r) == pcb
    ensures r.progs == k.progs[p := true] && r.pcbs == k.pcbs[p := pcb]
    ensures r.term == k.term.(terms := k.term.terms[k.term.current := k.term.terms[k.term.current].(pid := p)])
    ensures r == k.(progs := r.progs, newPid := p, pcbs := r.pcbs, term := r.term)
  {
    var cur := k.term.current;
    k.(progs := k.progs[p := true], newPid := p, pcbs := k.pcbs[p := pcb],
       term := k.term.(terms := k.term.terms[cur := k.term.terms[cur].(pid := p)]))
  }

  /** Process `p`'s program bytes copied into its frame, the user window
      pointed at that frame, and the TSS given p's kernel stack. */
  function Load(k: Kernel, p: nat, file: seq<byte>): (r: Kernel)
    requires Valid(k) && p < MAX_OPEN_PROGS
    ensures Valid(r)
    ensures r.images[p] == file && forall q :: 0 <= q < MAX_OPEN_PROGS && q != p ==> r.images[q] == k.images[q]
    ensures r.dir[Paging.USR_IDX] == Paging.UserWindowPde(p)
    ensures forall i :: 0 <= i < Paging.ENTRIES && i != Paging.USR_IDX ==> r.dir[i] == k.dir[i]
    ensures r.tss.ss0 == KernelDs && r.tss.esp0 == KernelStackTop(p)
    ensures r.(images := k.images, dir := k.dir, tss := k.tss) == k
  {
    k.(images := k.images[p := file], dir := Paging.BindUserWindow(k.dir, p), tss := Tss(KernelDs, KernelStackTop(p)))
  }

  /** The block `execute` writes for a new process `p`. */
  function NewPcb(k: Kernel, p: nat, command: seq<byte>, caller: Context): (r: Pcb)
    requires Valid(k) && p < MAX_OPEN_PROGS && |command| < ARG_SIZE && NoNul(command)
    ensures FileSys.IsFdTable(r.fds) && PidValue(r.parentPid)
    ensures r.pid == p && r.parent == caller && r.savedTss == k.tss
    ensures r.parentPid == (if p < 3 then -1 else k.term.terms[k.term.current].pid)
    ensures r.program == Context(KernelStackTop(p), KernelStackTop(p))
    ensures r.args == ArgBuffer(command) && r.fds == StdFds(k.pcbs[p].fds)
  {
    var top := KernelStackTop(p);
    var parent := if p < 3 then -1 else k.term.terms[k.term.current].pid;
    Pcb(p, Context(top, top), parent, caller, StdFds(k.pcbs[p].fds), k.tss, ArgBuffer(command))
  }

  /** The successful part of `execute`: the lowest free slot p is taken;
      the displayed terminal's process becomes p; p's PCB records the
      command line, the caller's context, its parent (none for p < 3, else
      the displayed terminal's previous process), the TSS it replaces and a
      fresh descriptor table; the whole file is copied into p's frame, the
      user window is pointed there, the TSS gets p's kernel stack, and
      control enters user mode on the user stack at the file's entry point
      with interrupts on. */
  function Launch(k: Kernel, command: seq<byte>, caller: Context): (r: (Kernel, Transfer))
    requires Valid(k) && ExecuteDefined(k, command) && Launches(k, command)
    ensures Valid(r.0)
    ensures var p := LowestFree(k.progs).value;
            && r.0.newPid == p && r.0.progs == k.progs[p := true]
            && r.0.dir == Paging.BindUserWindow(k.dir, p) && r.0.tss == Tss(KernelDs, KernelStackTop(p))
            && r.1 == EnterUser(EntryPoint(Header(k, ProgramEntry(k, command).value)), KEY_MEM, UserCs, UserDs, true)
  {
    var d := ProgramEntry(k, command).value;
    var head := Header(k, d);
    var p := LowestFree(k.progs).value;
    var k0 := ExecutePrologue(k);
    (Load(Claim(k0, p, NewPcb(k0, p, command, caller)), p, Image(k, d)),
     EnterUser(EntryPoint(head), KEY_MEM, UserCs, UserDs, true))
  }

  /** `execute`, called with the kernel context `caller`: a program name
      longer than 32 bytes returns 0; a running pid of 5 or more, a command
      over 128 bytes, a name that does not resolve, a file that is not ELF,
      or no free slot returns -1, after the prologue in every case.
      Otherwise the program is launched. */
  function Execute(k: Kernel, command: seq<byte>, caller: Context): (r: (Kernel, Transfer))
    requires Valid(k) && ExecuteDefined(k, command)
    ensures Valid(r.0)
    ensures !r.1.EnterUser? ==> r.1.Return? && r.0 == ExecutePrologue(k)
    ensures r.1 == Return(0) <==> |ProgramName(command)| > FileSys.MAX_NAME_LENGTH
    ensures r.1.Return? && r.1 != Return(0) ==> r.1 == Return(-1)
    ensures r.1.EnterUser? <==> Launches(k, command)
    ensures r.1.EnterUser? ==> r == Launch(k, command, caller)
  {
    var k0 := ExecutePrologue(k);
    if |ProgramName(command)| > FileSys.MAX_NAME_LENGTH then (k0, Return(0))
    else if !Launches(k, command) then (k0, Return(-1))
    else Launch(k, command, caller)
  }

  /** What a successful `execute` leaves: the new process p is the lowest
      free slot, is running, has its slot marked, is the displayed
      terminal's process, and has a block recording its caller and parent,
      its command line and fresh descriptors; the frame holds the program
      and the user window and TSS are p's. */
  lemma LaunchState(k: Kernel, command: seq<byte>, caller: Context)
    requires Valid(k) && ExecuteDefined(k, command) && Launches(k, command)
    ensures var (r, t) := Execute(k, command, caller);
            var p := r.newPid;
            var cur := k.term.current;
            && 0 <= p < MAX_OPEN_PROGS && LowestFree(k.progs) == Some(p as nat)
            && r.progs == k.progs[p := true]
            && r.term.terms[cur].pid == p
            && (forall q :: 0 <= q < MAX_OPEN_PROGS && q != p ==> r.pcbs[q] == k.pcbs[q])
            && r.pcbs[p].pid == p && r.pcbs[p].parent == caller
            && r.pcbs[p].parentPid == (if p < 3 then -1 else k.term.terms[cur].pid)
            && r.pcbs[p].args == ArgBuffer(command) && CommandLine(r.pcbs[p]) == command
            && r.pcbs[p].fds == StdFds(k.pcbs[p].fds)
            && r.images[p] == Image(k, ProgramEntry(k, command).value)
            && r.dir == Paging.BindUserWindow(k.dir, p)
            && r.tss == Tss(KernelDs, KernelStackTop(p))
            && t.EnterUser? && t.esp == KEY_MEM && t.cs == UserCs && t.ss == UserDs && t.interrupts
  {
  }

  // ---------------------------------------------------------------------
  // close and halt

  /** The running process's PCB with descriptor table `fds`. */
  function WithFds(k: Kernel, fds: seq<FileSys.FdEntry>): (r: Kernel)
    requires Valid(k) && 0 <= k.newPid && FileSys.IsFdTable(fds)
    ensures Valid(r) && r.newPid == k.newPid && Current(r).fds == fds
  {
    k.(pcbs := k.pcbs[k.newPid := Current(k).(fds := fds)])
  }

  /** What `close` acts on: the running process's descriptor table, the
      file system's descriptor array and the keyboard's line buffers. */
  datatype Files = Files(fds: seq<FileSys.FdEntry>, global: seq<FileSys.FdEntry>, kb: Keyboard.KbState)

  predicate ValidFiles(f: Files) {
    FileSys.IsFdTable(f.fds) && FileSys.IsFdTable(f.global) && Keyboard.Valid(f.kb)
  }

  function FilesOf(k: Kernel): (f: Files)
    requires Valid(k) && 0 <= k.newPid
    ensures ValidFiles(f)
  {
    Files(Current(k).fds, k.globalFds, k.kb)
  }

  /** Whether `close(fd)` has a close function to call. */
  predicate CloseDefinedIn(f: Files, fd: int)
    requires ValidFiles(f)
  {
    2 <= fd < FD_COUNT && f.fds[fd].open ==> Dispatchable(f.fds[fd])
  }

  predicate CloseDefined(k: Kernel, fd: int)
    requires Valid(k) && 0 <= k.newPid
  {
    CloseDefinedIn(FilesOf(k), fd)
  }

  /** Whether descriptor `fd` is one `close` acts on: 2-7 and open. */
  predicate Closable(f: Files, fd: int)
    requires ValidFiles(f)
  {
    2 <= fd < FD_COUNT && f.fds[fd].open
  }

  /** Whether an open descriptor `fd` belongs to the file system. */
  predicate OnFileSystem(e: FileSys.FdEntry) {
    e.ops == Some(FileSys.DirOps) || e.ops == Some(FileSys.FileOps)
  }

  /** `close` on the files of the running process, with `t` the terminals:
      descriptors 0 and 1, anything outside 0..7 and a closed descriptor
      fail untouched.  Otherwise the descriptor is marked closed in the
      process's table and its driver's close runs: the file system clears
      its own copy of the flag, the terminal empties the displayed line
      buffer and reports -1 (the descriptor stays closed), the clock does
      nothing. */
  function CloseIn(f: Files, t: Terminal.TermState, fd: int): (r: (int, Files))
    requires ValidFiles(f) && Terminal.Valid(t) && CloseDefinedIn(f, fd)
    ensures ValidFiles(r.1)
    ensures forall j :: 0 <= j < FD_COUNT ==>
      r.1.fds[j] == if j == fd && Closable(f, fd) then f.fds[j].(open := false) else f.fds[j]
    ensures forall j :: 0 <= j < FD_COUNT ==>
      r.1.global[j] == if j == fd && Closable(f, fd) && OnFileSystem(f.fds[fd]) then f.global[j].(open := false) else f.global[j]
    ensures r.1.kb == if Closable(f, fd) && f.fds[fd].ops == Some(FileSys.TerminalOps)
                      then Keyboard.ClearBuffer(f.kb, t.current) else f.kb
    ensures r.0 == 0 <==> Closable(f, fd) && f.fds[fd].ops != Some(FileSys.TerminalOps)
    ensures r.0 == 0 || r.0 == -1
  {
    if fd < 2 || fd >= FD_COUNT || !f.fds[fd].open then (-1, f)
    else
      var e := f.fds[fd];
      var f1 := f.(fds := f.fds[fd := e.(open := false)]);
      if e.ops.value == FileSys.RtcOps then (0, f1)
      else if e.ops.value == FileSys.DirOps || e.ops.value == FileSys.FileOps then
        var c := FileSys.FileClose(f1.global, fd);
        (c.0, f1.(global := c.1))
      else
        var c := Terminal.TerminalClose(t, f1.kb);
        (c.0, f1.(kb := c.1))
  }

  /** `close(fd)` for the running process. */
  function Close(k: Kernel, fd: int): (r: (int, Kernel))
    requires Valid(k) && 0 <= k.newPid && CloseDefined(k, fd)
    ensures Valid(r.1) && r.1.newPid == k.newPid
    ensures !Closable(FilesOf(k), fd) ==> r == (-1, k)
    ensures var c := CloseIn(FilesOf(k), k.term, fd);
            && r.0 == c.0 && FilesOf(r.1) == c.1
            && r.1 == k.(pcbs := r.1.pcbs, globalFds := c.1.global, kb := c.1.kb)
            && forall q :: 0 <= q < MAX_OPEN_PROGS && q != k.newPid ==> r.1.pcbs[q] == k.pcbs[q]
  {
    var c := CloseIn(FilesOf(k), k.term, fd);
    if !Closable(FilesOf(k), fd) then (-1, k)
    else (c.0, WithFds(k, c.1.fds).(globalFds := c.1.global, kb := c.1.kb))
  }

  /** The descriptors `halt` can close one after another. */
  predicate CloseAllDefined(f: Files, i: nat)
    requires ValidFiles(f)
  {
    forall fd :: i <= fd < FD_COUNT ==> CloseDefinedIn(f, fd)
  }

  /** Whether the close loop from `i` on meets a terminal descriptor. */
  predicate ClosesTerminal(f: Files, i: nat)
    requires ValidFiles(f)
  {
    exists fd :: i <= fd < FD_COUNT && Closable(f, fd) && f.fds[fd].ops == Some(FileSys.TerminalOps)
  }

  /** `halt`'s loop `close(i)` for i from `i` to 7: every descriptor from
      `i` on (and from 2 on) ends closed, the rest of each entry as it was. */
  function CloseAll(f: Files, t: Terminal.TermState, i: nat): (r: Files)
    requires ValidFiles(f) && Terminal.Valid(t) && i <= FD_COUNT && CloseAllDefined(f, i)
    ensures ValidFiles(r)
    ensures forall fd :: 0 <= fd < FD_COUNT ==>
      r.fds[fd] == f.fds[fd].(open := f.fds[fd].open && (fd < i || fd < 2))
    decreases FD_COUNT - i
  {
    if i == FD_COUNT then f
    else
      var c := CloseIn(f, t, i);
      assert CloseAllDefined(c.1, i + 1) by {
        forall fd | i + 1 <= fd < FD_COUNT ensures CloseDefinedIn(c.1, fd) {
          assert CloseDefinedIn(f, fd);
        }
      }
      CloseAll(c.1, t, i + 1)
  }

  /** The close loop closes the file system's copy of each descriptor it
      closes on a file or directory, and leaves the other copies alone. */
  lemma {:induction false} CloseAllGlobal(f: Files, t: Terminal.TermState, i: nat)
    requires ValidFiles(f) && Terminal.Valid(t) && i <= FD_COUNT && CloseAllDefined(f, i)
    ensures var r := CloseAll(f, t, i);
      forall fd :: 0 <= fd < FD_COUNT ==>
        r.global[fd] == f.global[fd].(open := f.global[fd].open &&
                                        !(i <= fd && Closable(f, fd) && OnFileSystem(f.fds[fd])))
    decreases FD_COUNT - i
  {
    if i < FD_COUNT {
      var c := CloseIn(f, t, i);
      CloseAllStep(f, t, i);
      CloseAllGlobal(c.1, t, i + 1);
    }
  }

  /** The close loop empties the displayed line buffer exactly when one of
      the descriptors it closes was open on the terminal. */
  lemma {:induction false} CloseAllKeyboard(f: Files, t: Terminal.TermState, i: nat)
    requires ValidFiles(f) && Terminal.Valid(t) && i <= FD_COUNT && CloseAllDefined(f, i)
    ensures CloseAll(f, t, i).kb == if ClosesTerminal(f, i) then Keyboard.ClearBuffer(f.kb, t.current) else f.kb
    decreases FD_COUNT - i
  {
    if i < FD_COUNT {
      var c := CloseIn(f, t, i);
      CloseAllStep(f, t, i);
      CloseAllKeyboard(c.1, t, i + 1);
      ClosesTerminalStep(f, c.1, i);
    }
  }

  /** The loop from `i` meets a terminal descriptor when `i` is one or the
      loop from `i + 1` meets one; closing `i` does not change the rest. */
  lemma ClosesTerminalStep(f: Files, g: Files, i: nat)
    requires ValidFiles(f) && ValidFiles(g) && i < FD_COUNT
    requires forall fd :: i < fd < FD_COUNT ==> g.fds[fd] == f.fds[fd]
    ensures ClosesTerminal(f, i) <==> ClosesTerminal(g, i + 1) || (Closable(f, i) && f.fds[i].ops == Some(FileSys.TerminalOps))
  {
    if ClosesTerminal(f, i) {
      var fd :| i <= fd < FD_COUNT && Closable(f, fd) && f.fds[fd].ops == Some(FileSys.TerminalOps);
      if fd > i { assert Closable(g, fd); }
    }
    if ClosesTerminal(g, i + 1) {
      var fd :| i + 1 <= fd < FD_COUNT && Closable(g, fd) && g.fds[fd].ops == Some(FileSys.TerminalOps);
      assert Closable(f, fd);
    }
  }

  /** One turn of the close loop: close `i`, then the loop from `i + 1`. */
  lemma CloseAllStep(f: Files, t: Terminal.TermState, i: nat)
    requires ValidFiles(f) && Terminal.Valid(t) && i < FD_COUNT && CloseAllDefined(f, i)
    ensures CloseDefinedIn(f, i)
    ensures CloseAllDefined(CloseIn(f, t, i).1, i + 1)
    ensures CloseAll(f, t, i) == CloseAll(CloseIn(f, t, i).1, t, i + 1)
  {
    var c := CloseIn(f, t, i);
    forall fd | i + 1 <= fd < FD_COUNT ensures CloseDefinedIn(c.1, fd) {
      assert CloseDefinedIn(f, fd);
    }
  }

  /** Whether `halt` has defined behaviour: every open descriptor has a
      close function, and when the process has no parent the shell it
      starts in its place has a readable header. */
  predicate HaltDefined(k: Kernel)
    requires Valid(k) && 0 <= k.newPid
  {
    && CloseAllDefined(FilesOf(k), 0)
    && (Current(k).parentPid == -1 ==> HeaderDefined(k.img, Shell()))
  }

  /** The status a parent's `execute` returns for a child's `halt(status)`. */
  function ReturnedStatus(status: byte): (v: int)
    ensures v == RET_EXCEPTION_HALT <==> status == EXCEPTION_HALT
    ensures v != RET_EXCEPTION_HALT ==> v == status
  {
    if status == EXCEPTION_HALT then RET_EXCEPTION_HALT else status
  }

  /** The end of `halt`: the user window and the TSS follow the process now
      running, and control returns onto the saved parent stack. */
  function HaltFinish(k: Kernel, at: Context, value: int): (r: (Kernel, Transfer))
    requires Valid(k)
    ensures Valid(r.0) && r.1 == ResumeParent(at, value)
    ensures r.0 == k.(dir := Paging.BindUserWindow(k.dir, k.newPid), tss := Tss(KernelDs, KernelStackTop(k.newPid)))
  {
    (k.(dir := Paging.BindUserWindow(k.dir, k.newPid), tss := Tss(KernelDs, KernelStackTop(k.newPid))), ResumeParent(at, value))
  }

  /** What `halt` prints: the Ctrl+C banner for status 42, then a newline. */
  function HaltOutput(status: byte): (r: seq<byte>)
    ensures |r| > 0 && r[|r| - 1] == NEWLINE
    ensures status == USER_HALT ==> r[..|r| - 1] == INTERRUPT_MESSAGE
    ensures status != USER_HALT ==> r == [NEWLINE]
  {
    if status == USER_HALT then INTERRUPT_MESSAGE + [NEWLINE] else [NEWLINE]
  }

  /** The first part of `halt(status)` for the running process p: p's
      slot is freed and its descriptors 0-7 closed; its parent becomes the
      running process and the process of the scheduled terminal, which also
      takes over p's saved parent context (cleared in p's PCB); the console
      gets the Ctrl+C banner for status 42, then a newline. */
  function Detach(k: Kernel, status: byte): (r: Kernel)
    requires Valid(k) && 0 <= k.newPid && CloseAllDefined(FilesOf(k), 0)
    ensures Valid(r) && r.newPid == Current(k).parentPid
    ensures r.progs == k.progs[k.newPid := false]
    ensures var f := CloseAll(FilesOf(k), k.term, 0);
            && r.pcbs == k.pcbs[k.newPid := Current(k).(fds := f.fds, parent := Context(0, 0))]
            && r.globalFds == f.global && r.kb == f.kb
    ensures var s := k.term.sched;
            r.term == k.term.(terms := k.term.terms[s := k.term.terms[s].(pid := Current(k).parentPid,
                                                   esp := Current(k).parent.esp, ebp := Current(k).parent.ebp)])
    ensures r.console == k.console + HaltOutput(status)
    ensures && r.images == k.images && r.screen == k.screen && r.dir == k.dir && r.vidTable == k.vidTable
            && r.vidTableAddr == k.vidTableAddr && r.tss == k.tss && r.rtc == k.rtc && r.masks == k.masks
            && r.img == k.img && r.temp == k.temp
  {
    var p := k.newPid;
    var pcb := k.pcbs[p];
    var f := CloseAll(FilesOf(k), k.term, 0);
    var s := k.term.sched;
    var term := k.term.(terms := k.term.terms[s := k.term.terms[s].(pid := pcb.parentPid, esp := pcb.parent.esp, ebp := pcb.parent.ebp)]);
    DetachedValid(k, f, term, k.console + HaltOutput(status));
    k.(progs := k.progs[p := false], newPid := pcb.parentPid, term := term,
       pcbs := k.pcbs[p := pcb.(fds := f.fds, parent := Context(0, 0))],
       globalFds := f.global, kb := f.kb,
       console := k.console + HaltOutput(status))
  }

  /** The kernel `halt` leaves before switching stacks is well formed. */
  lemma DetachedValid(k: Kernel, f: Files, term: Terminal.TermState, console: seq<byte>)
    requires Valid(k) && 0 <= k.newPid && ValidFiles(f) && ValidTerminals(term)
    ensures var p := k.newPid;
      Valid(k.(progs := k.progs[p := false], newPid := k.pcbs[p].parentPid, term := term,
               pcbs := k.pcbs[p := k.pcbs[p].(fds := f.fds, parent := Context(0, 0))],
               globalFds := f.global, kb := f.kb, console := console))
  {
  }

  /** `halt(status)` of the running process, whose `halt` runs on kernel
      context `frame`: after detaching the process, one without a parent
      is replaced by a new shell, entered directly when it starts.
      Otherwise the user window and TSS are pointed at the process now
      running and control returns on the saved parent stack with the
      status (256 for an exception's 111). */
  function Halt(k: Kernel, status: byte, frame: Context): (r: (Kernel, Transfer))
    requires Valid(k) && 0 <= k.newPid && HaltDefined(k)
    ensures Valid(r.0)
    ensures r.1.ResumeParent? || r.1.EnterUser?
    ensures r.1.ResumeParent? ==> r.1 == ResumeParent(Current(k).parent, ReturnedStatus(status))
    ensures Current(k).parentPid != -1 ==> r.1.ResumeParent?
  {
    var k2 := Detach(k, status);
    var value := ReturnedStatus(status);
    if k2.newPid == -1 then RestartShell(k2, Current(k).parent, value, frame)
    else HaltFinish(k2, Current(k).parent, value)
  }

  /** `halt`'s `execute("shell")` once no process is left in the terminal:
      the new shell is entered when it starts; when it cannot start, `halt`
      goes on to return onto the saved stack with the status. */
  function RestartShell(k: Kernel, at: Context, value: int, frame: Context): (r: (Kernel, Transfer))
    requires Valid(k) && k.newPid == -1 && HeaderDefined(k.img, Shell())
    ensures Valid(r.0)
    ensures r.1.EnterUser? <==> Launches(k, Shell())
    ensures r.1.EnterUser? ==> r == Launch(k, Shell(), frame)
    ensures !r.1.EnterUser? ==> r == HaltFinish(ExecutePrologue(k), at, value)
  {
    var e := Execute(k, Shell(), frame);
    if e.1.EnterUser? then e else HaltFinish(e.0, at, value)
  }

  /** A process with a parent halts back into it: the slot is freed, the
      parent runs again with the user window and TSS pointing at it, and
      its `execute` returns the status on the stack it was called from. */
  lemma HaltResumesParent(k: Kernel, status: byte, frame: Context)
    requires Valid(k) && 0 <= k.newPid && HaltDefined(k) && Current(k).parentPid != -1
    ensures var (r, t) := Halt(k, status, frame);
      && t == ResumeParent(Current(k).parent, ReturnedStatus(status))
      && r.newPid == Current(k).parentPid
      && r.progs == k.progs[k.newPid := false]
      && r.dir == Paging.BindUserWindow(k.dir, r.newPid)
      && r.tss == Tss(KernelDs, KernelStackTop(r.newPid))
      && r.console == k.console + HaltOutput(status)
  {
    var k2 := Detach(k, status);
    assert Halt(k, status, frame) == HaltFinish(k2, Current(k).parent, ReturnedStatus(status));
  }

  /** A process without a parent is replaced by a new shell in the same
      terminal: the shell is entered exactly when it can be launched, and
      otherwise `halt` returns onto its own saved stack. */
  lemma HaltRestartsShell(k: Kernel, status: byte, frame: Context)
    requires Valid(k) && 0 <= k.newPid && HaltDefined(k) && Current(k).parentPid == -1
    ensures var k2 := Detach(k, status);
      var (r, t) := Halt(k, status, frame);
      && (t.EnterUser? <==> Launches(k2, Shell()))
      && (t.EnterUser? ==> (r, t) == Launch(k2, Shell(), frame))
      && (t.ResumeParent? ==> r.progs == k.progs[k.newPid := false] && r.newPid == -1)
  {
    var k2 := Detach(k, status);
    assert Halt(k, status, frame) == RestartShell(k2, Current(k).parent, ReturnedStatus(status), frame);
  }

  /** A child started by `execute` and halted straight away gives control
      back to the stack `execute` was called from, with the slot table as it
      was and the user window, the TSS and the running pid of the parent. */
  lemma ExecuteThenHalt(k: Kernel, command: seq<byte>, caller: Context, status: byte, frame: Context)
    requires Valid(k) && ExecuteDefined(k, command) && Launches(k, command)
    requires LowestFree(k.progs).value >= 3 && k.term.terms[k.term.current].pid != -1
    ensures var (k1, t1) := Execute(k, command, caller);
            && 0 <= k1.newPid && HaltDefined(k1)
            && var (k2, t2) := Halt(k1, status, frame);
            && t2 == ResumeParent(caller, ReturnedStatus(status))
            && k2.progs == k.progs
            && k2.newPid == k.term.terms[k.term.current].pid
            && k2.dir == Paging.BindUserWindow(k.dir, k2.newPid)
            && k2.tss == Tss(KernelDs, KernelStackTop(k2.newPid))
  {
    LaunchState(k, command, caller);
    var (k1, t1) := Execute(k, command, caller);
    var p := k1.newPid;
    assert CloseAllDefined(FilesOf(k1), 0) by {
      forall fd | 0 <= fd < FD_COUNT ensures CloseDefinedIn(FilesOf(k1), fd) {
        assert 2 <= fd ==> !k1.pcbs[p].fds[fd].open;
      }
    }
    HaltResumesParent(k1, status, frame);
    var k2 := Halt(k1, status, frame).0;
    SetAndClear(k.progs, p);
    Paging.BindUserWindowTwice(k.dir, p, k2.newPid);
  }

  /** Marking a free slot used and then free again restores the table. */
  lemma SetAndClear(progs: seq<bool>, p: nat)
    requires p < |progs| && !progs[p]
    ensures progs[p := true][p := false] == progs
  {
    assert forall q :: 0 <= q < |progs| ==> progs[p := true][p := false][q] == progs[q];
  }

  // ---------------------------------------------------------------------
  // read and write

  /** Whether `read` reaches a driver with defined behaviour: a table with
      functions, a non-negative count for a file or a directory (it is
      handed to `memset`), and for a directory a view `prior` of the
      caller's buffer reaching every byte `dir_read` touches. */
  predicate ReadDefined(k: Kernel, fd: int, hasBuf: bool, nbytes: i32, prior: seq<byte>)
    requires Valid(k) && 0 <= k.newPid
  {
    0 <= fd < FD_COUNT && fd != 1 && hasBuf && Current(k).fds[fd].open ==>
      var e := Current(k).fds[fd];
      && Dispatchable(e)
      && (e.ops.value == FileSys.FileOps ==> 0 <= nbytes)
      && (e.ops.value == FileSys.DirOps ==> FileSys.DirReadDefined(k.img, Current(k).fds, fd, nbytes, prior))
  }

  /** Whether `read(fd, ...)` gets past its checks. */
  predicate ReadAccepted(k: Kernel, fd: int, hasBuf: bool)
    requires Valid(k) && 0 <= k.newPid
  {
    0 <= fd < FD_COUNT && fd != 1 && hasBuf && Current(k).fds[fd].open
  }

  /** `read`: descriptor 1, anything outside 0..7, a NULL buffer and a
      closed descriptor fail.  Otherwise the file system's descriptor array
      is loaded with the process's table, the driver's read runs on it, and
      the array is copied back into the process's table, so the process's
      table ends up exactly as the driver left its own.  The result is the
      value returned and the bytes written into the caller's buffer; for a
      directory, whose driver also reads back what the buffer held before
      (`prior`), it is the whole buffer after the call. */
  method Read(k: Kernel, fd: int, hasBuf: bool, nbytes: i32, prior: seq<byte>) returns (r: int, k': Kernel, out: seq<byte>)
    requires Valid(k) && 0 <= k.newPid && ReadDefined(k, fd, hasBuf, nbytes, prior)
    ensures Valid(k') && k'.newPid == k.newPid
    ensures !ReadAccepted(k, fd, hasBuf) ==> r == -1 && k' == k && out == []
    ensures ReadAccepted(k, fd, hasBuf) ==>
      var e := Current(k).fds[fd];
      && k'.globalFds == Current(k').fds
      && (forall q :: 0 <= q < MAX_OPEN_PROGS && q != k.newPid ==> k'.pcbs[q] == k.pcbs[q])
      && (e.ops.value == FileSys.FileOps ==>
            (r, k'.globalFds, out) == FileSys.FileRead(k.img, Current(k).fds, fd, nbytes)
            && k' == WithFds(k, k'.globalFds).(globalFds := k'.globalFds))
      && (e.ops.value == FileSys.DirOps ==>
            (r, k'.globalFds, out) == FileSys.DirRead(k.img, Current(k).fds, fd, nbytes, prior)
            && k' == WithFds(k, k'.globalFds).(globalFds := k'.globalFds))
      && (e.ops.value == FileSys.RtcOps ==>
            r == 0 && out == [] && k' == k.(globalFds := Current(k).fds, rtc := Rtc.RtcRead(k.rtc).1))
      && (e.ops.value == FileSys.TerminalOps ==>
            var line := Terminal.Line(k.kb.bufs[k.term.current]);
            && r == |line| && out == line + Zeros(Terminal.BUF_SIZE - |line|)
            && k' == k.(globalFds := Current(k).fds,
                        kb := Keyboard.ClearBuffer(k.kb, k.term.current).(readFlag := false)))
  {
    if !ReadAccepted(k, fd, hasBuf) {
      return -1, k, [];
    }
    var pcb := Current(k);
    var e := pcb.fds[fd];
    var global := pcb.fds;
    k' := k.(globalFds := global);
    match e.ops.value {
      case FileOps =>
        var c := FileSys.FileRead(k.img, global, fd, nbytes);
        r, out := c.0, c.2;
        k' := WithFds(k', c.1).(globalFds := c.1);
      case DirOps =>
        var c := FileSys.DirRead(k.img, global, fd, nbytes, prior);
        r, out := c.0, c.2;
        k' := WithFds(k', c.1).(globalFds := c.1);
      case RtcOps =>
        var c := Rtc.RtcRead(k.rtc);
        r, out := c.0, [];
        k' := k'.(rtc := c.1);
      case TerminalOps =>
        var kb;
        r, kb, out := Terminal.TerminalRead(k.term, k.kb, true, nbytes);
        k' := k'.(kb := kb);
    }
  }

  /** Whether `write` reaches a driver with defined behaviour: a table with
      functions, and a buffer as long as the driver reads. */
  predicate WriteDefined(k: Kernel, fd: int, buf: Option<seq<byte>>, nbytes: i32)
    requires Valid(k) && 0 <= k.newPid
  {
    0 < fd < FD_COUNT && buf.Some? && Current(k).fds[fd].open ==>
      var e := Current(k).fds[fd];
      && Dispatchable(e)
      && (e.ops.value == FileSys.RtcOps && nbytes == 4 ==> |buf.value| >= 4)
      && (e.ops.value == FileSys.TerminalOps ==> nbytes <= |buf.value|)
  }

  predicate WriteAccepted(k: Kernel, fd: int, buf: Option<seq<byte>>)
    requires Valid(k) && 0 <= k.newPid
  {
    0 < fd < FD_COUNT && buf.Some? && Current(k).fds[fd].open
  }

  /** `write`: descriptor 0, anything outside 0..7, a NULL buffer and a
      closed descriptor fail; files and directories refuse every write;
      the clock takes a 4-byte rate; the terminal prints the bytes. */
  method Write(k: Kernel, fd: int, buf: Option<seq<byte>>, nbytes: i32) returns (r: int, k': Kernel)
    requires Valid(k) && 0 <= k.newPid && WriteDefined(k, fd, buf, nbytes)
    ensures Valid(k')
    ensures !WriteAccepted(k, fd, buf) ==> r == -1 && k' == k
    ensures WriteAccepted(k, fd, buf) ==>
      var e := Current(k).fds[fd];
      && (e.ops.value == FileSys.FileOps || e.ops.value == FileSys.DirOps ==> r == -1 && k' == k)
      && (e.ops.value == FileSys.RtcOps ==>
            && k' == k.(rtc := k'.rtc)
            && (nbytes != 4 ==> r == -1 && k' == k)
            && (nbytes == 4 ==>
                  var code := Rtc.RateCode(LittleEndian32(buf.value[..4]));
                  && (r == 0 <==> code.Some?)
                  && (code.None? ==> r == -1 && k' == k)
                  && (code.Some? ==> k'.rtc == k.rtc.(regA := Rtc.WithRate(k.rtc.regA, code.value)))))
      && (e.ops.value == FileSys.TerminalOps ==>
            var w := Terminal.TerminalWrite(buf, nbytes);
            r == w.0 && k' == k.(console := k.console + w.1))
  {
    if !WriteAccepted(k, fd, buf) {
      return -1, k;
    }
    var e := Current(k).fds[fd];
    match e.ops.value {
      case FileOps => r, k' := FileSys.FileWrite(), k;
      case DirOps => r, k' := FileSys.FileWrite(), k;
      case RtcOps =>
        var s;
        r, s := Rtc.RtcWrite(k.rtc, buf, nbytes);
        k' := k.(rtc := s);
      case TerminalOps =>
        var w := Terminal.TerminalWrite(buf, nbytes);
        r, k' := w.0, k.(console := k.console + w.1);
    }
  }

  // ---------------------------------------------------------------------
  // open

  /** Whether `open` has defined behaviour: the name is one the lookup
      can read, and when a slot is found the entry's type has a table with
      an open function (types 0-3), and the file system's own descriptor
      array has a closed slot for `file_open`/`dir_open` to use. */
  predicate OpenDefined(k: Kernel, filename: Option<seq<byte>>)
    requires Valid(k) && 0 <= k.newPid
  {
    && FileSys.LookupDefined(filename)
    && (FileSys.ReadDentryByName(k.img, filename).Some? && FileSys.LowestClosed(Current(k).fds).Some? ==>
          var d := FileSys.ReadDentryByName(k.img, filename).value;
          && d.filetype <= TERMINAL_INDEX
          && (d.filetype == DIR_INDEX || d.filetype == FILE_INDEX ==> FileSys.OpenDefined(k.img, k.globalFds, filename)))
  }

  /** `open`: a name that does not resolve, or no closed descriptor in the
      process's table, fails.  Otherwise the lowest closed descriptor gets
      the entry's inode, its type's operations table, cursor 0 and the open
      flag, the driver's open runs (the clock drops to 2 Hz and is
      unmasked; the file system fills in its own descriptor array), and the
      descriptor number is returned. */
  function Open(k: Kernel, filename: Option<seq<byte>>): (r: (int, Kernel))
    requires Valid(k) && 0 <= k.newPid && OpenDefined(k, filename)
    ensures Valid(r.1) && r.1.newPid == k.newPid
    ensures FileSys.ReadDentryByName(k.img, filename).None? || FileSys.LowestClosed(Current(k).fds).None? ==> r == (-1, k)
    ensures FileSys.ReadDentryByName(k.img, filename).Some? && FileSys.LowestClosed(Current(k).fds).Some? ==>
      var d := FileSys.ReadDentryByName(k.img, filename).value;
      var fd := FileSys.LowestClosed(Current(k).fds).value;
      && r.0 == fd
      && Current(r.1).fds == Current(k).fds[fd := FileSys.FdEntry(GetFopsTable(d.filetype), d.inode, 0, true)]
      && (forall q :: 0 <= q < MAX_OPEN_PROGS && q != k.newPid ==> r.1.pcbs[q] == k.pcbs[q])
      && r.1 == WithFds(k, Current(r.1).fds).(rtc := r.1.rtc, masks := r.1.masks, globalFds := r.1.globalFds)
      && (d.filetype == RTC_INDEX ==>
            && r.1.rtc == k.rtc.(regA := Rtc.WithRate(k.rtc.regA, Rtc.RATE_2HZ))
            && r.1.masks == Pic.EnableIrq(k.masks, Rtc.RTC_IRQ) && !Pic.LineMasked(r.1.masks, Rtc.RTC_IRQ))
      && (d.filetype != RTC_INDEX ==> r.1.rtc == k.rtc && r.1.masks == k.masks)
      && (d.filetype == DIR_INDEX || d.filetype == FILE_INDEX ==>
            var g := FileSys.LowestClosed(k.globalFds).value;
            r.1.globalFds == k.globalFds[g := k.globalFds[g].(inode := if d.filetype == FILE_INDEX then d.inode else 0, position := 0)])
      && (d.filetype == RTC_INDEX || d.filetype == TERMINAL_INDEX ==> r.1.globalFds == k.globalFds)
  {
    match FileSys.ReadDentryByName(k.img, filename)
    case None => (-1, k)
    case Some(d) =>
      match FileSys.LowestClosed(Current(k).fds)
      case None => (-1, k)
      case Some(fd) =>
        var k1 := WithFds(k, Current(k).fds[fd := FileSys.FdEntry(GetFopsTable(d.filetype), d.inode, 0, true)]);
        var res: (int, Kernel) :=
          if d.filetype == RTC_INDEX then
            var o := Rtc.RtcOpen(k1.rtc, k1.masks, filename);
            (o.0, k1.(rtc := o.1, masks := o.2))
          else if d.filetype == DIR_INDEX then
            var o := FileSys.DirOpen(k1.img, k1.globalFds, filename);
            (o.0, k1.(globalFds := o.1))
          else if d.filetype == FILE_INDEX then
            var o := FileSys.FileOpen(k1.img, k1.globalFds, filename);
            (o.0, k1.(globalFds := o.1))
          else (Terminal.TerminalOpen(filename), k1);
        if res.0 == -1 then (-1, res.1) else (fd as int, res.1)
  }

  /** Opening a name and closing the descriptor it returns leaves the
      process's table as before except for that entry's fields other than
      its flag: the slot is closed again. */
  lemma OpenThenClose(k: Kernel, filename: Option<seq<byte>>)
    requires Valid(k) && 0 <= k.newPid && OpenDefined(k, filename)
    requires FileSys.ReadDentryByName(k.img, filename).Some? && FileSys.LowestClosed(Current(k).fds).Some?
    requires FileSys.LowestClosed(Current(k).fds).value >= 2
    ensures var (fd, k1) := Open(k, filename);
            && CloseDefined(k1, fd)
            && var (c, k2) := Close(k1, fd);
            && (c == 0 <==> FileSys.ReadDentryByName(k.img, filename).value.filetype != TERMINAL_INDEX)
            && forall j :: 0 <= j < FD_COUNT ==> Current(k2).fds[j].open == Current(k).fds[j].open
  {
  }

  // ---------------------------------------------------------------------
  // getargs

  /** The running process's command line: its argument buffer up to the
      first NUL. */
  function CommandLine(pcb: Pcb): (r: seq<byte>)
    ensures NoNul(r) && |r| <= |pcb.args|
  {
    pcb.args[..FileSys.NameLength(pcb.args)]
  }

  /** Whether `getargs` stays inside its 128-byte buffers: the argument
      buffer it copies with `strcpy` holds a terminator, and a successful
      copy-out asks for no more than 128 bytes. */
  predicate GetargsDefined(k: Kernel, hasBuf: bool, nbytes: i32)
    requires Valid(k) && 0 <= k.newPid
  {
    var a := Args(CommandLine(Current(k)));
    hasBuf && 1 <= nbytes ==> |CommandLine(Current(k))| < ARG_SIZE && (1 <= |a| <= nbytes ==> nbytes <= ARG_SIZE)
  }

  /** The scan of `getargs`: the index of the first byte of the second
      word, tracked with the two flags of the source ("a word has been
      seen", "a space after it has been seen"). */
  method ArgsScan(cmd: seq<byte>) returns (i: nat)
    ensures i == ArgsStart(cmd)
  {
    var lead := NameStart(cmd);
    var nameEnd := NameEnd(cmd);
    i := 0;
    var seenWord := false;
    var seenGap := false;
    while i < |cmd|
      invariant i <= ArgsStart(cmd)
      invariant seenWord <==> i > lead
      invariant seenGap <==> i > nameEnd
      invariant seenGap ==> seenWord
    {
      if cmd[i] != SPACE {
        seenWord := true;
      }
      if cmd[i] == SPACE && seenWord {
        seenGap := true;
      }
      if cmd[i] != SPACE && seenGap {
        break;
      }
      i := i + 1;
    }
  }

  /** `getargs`: a NULL buffer or a count below 1 fails; so do empty
      arguments and arguments longer than `nbytes`.  Otherwise the first
      `nbytes` bytes of the arguments, NUL-padded, are copied out. */
  method Getargs(k: Kernel, hasBuf: bool, nbytes: i32) returns (r: int, out: seq<byte>)
    requires Valid(k) && 0 <= k.newPid && GetargsDefined(k, hasBuf, nbytes)
    ensures !hasBuf || nbytes < 1 ==> r == -1 && out == []
    ensures hasBuf && nbytes >= 1 ==>
      var a := Args(CommandLine(Current(k)));
      && (r == 0 <==> 1 <= |a| <= nbytes)
      && (r != 0 ==> r == -1 && out == [])
      && (r == 0 ==> |out| == nbytes && out[..|a|] == a && forall j :: |a| <= j < nbytes ==> out[j] == NUL)
  {
    if !hasBuf || nbytes < 1 {
      return -1, [];
    }
    var cmd := CommandLine(Current(k));
    var start := ArgsScan(cmd);
    var a := cmd[start..];
    if !(|a| <= nbytes) || |a| < 1 {
      return -1, [];
    }
    var args := a + Zeros(ARG_SIZE - |a|);
    out := args[..nbytes];
    r := 0;
  }

  // ---------------------------------------------------------------------
  // vidmap

  /** `vidmap(screen_start)`, `screenStart` being the address of the
      caller's pointer (0 for NULL): an address outside [128 MB, KEY_MEM)
      fails; otherwise directory entry 34 is made a present, user,
      4 KB-page entry over `vid_table`, whose first entry is pointed at
      the VGA text page, and 0x08800000 is stored through the pointer. */
  function Vidmap(k: Kernel, screenStart: u32): (r: (int, Kernel, Option<u32>))
    requires Valid(k)
    ensures Valid(r.1)
    ensures r.0 == 0 <==> USER_START <= screenStart < KEY_MEM
    ensures r.0 != 0 ==> r == (-1, k, None)
    ensures r.0 == 0 ==>
      && r.2 == Some(Paging.USER_VID_MEM)
      && r.1 == k.(dir := k.dir[Paging.VID_IDX := Paging.VidmapPde(k.dir[Paging.VID_IDX], k.vidTableAddr)],
                   vidTable := k.vidTable[0 := Paging.VideoPte(k.vidTable[0], Paging.VIDEO_FRAME)])
  {
    if screenStart == 0 || screenStart < USER_START || screenStart >= KEY_MEM then (-1, k, None)
    else
      (0, k.(dir := k.dir[Paging.VID_IDX := Paging.VidmapPde(k.dir[Paging.VID_IDX], k.vidTableAddr)],
             vidTable := k.vidTable[0 := Paging.VideoPte(k.vidTable[0], Paging.VIDEO_FRAME)]),
       Some(Paging.USER_VID_MEM))
  }

  /** After a successful `vidmap`, the page at the address it hands out
      translates to the VGA text page. */
  lemma VidmapShowsVideo(k: Kernel, screenStart: u32, va: u32)
    requires Valid(k) && USER_START <= screenStart < KEY_MEM
    requires Paging.USER_VID_MEM <= va < Paging.USER_VID_MEM + Paging.PAGE_SIZE
    ensures var k1 := Vidmap(k, screenStart).1;
            Paging.Translate(k1.dir, map[k1.vidTableAddr / Paging.PAGE_SIZE := k1.vidTable], va)
              == Some(Paging.VIDEO_START + (va - Paging.USER_VID_MEM))
  {
    Paging.VidmapMapping(k.dir, k.vidTable, k.vidTableAddr, Paging.VIDEO_FRAME, va);
  }
}

=== FILE: terminal.dfy ===
/** The three virtual terminals: which one is displayed, which one the
    scheduler is running, the process and saved stack of each, and the
    screen contents that are swapped in and out of video memory when the
    displayed terminal changes.  Characters drawn by `putc` are modelled as
    the byte sequence handed to it; their rendering is not modelled. */
module Terminal {
  import opened Common
  import Keyboard

  const TERMINAL_COUNT: nat := 3
  const BUF_SIZE: nat := 128
  /** Bytes in one screen page (`VID_MEM`). */
  const VID_MEM: nat := 0x1000
  /** `terminal_current_pid` of a terminal with no process. */
  const NO_PID: int := -1

  /** One entry of `terminal_array`: the process running in it, the
      kernel stack it was switched away on, and whether it has been
      started. */
  datatype TerminalRec = TerminalRec(pid: int, esp: u32, ebp: u32, on: bool)

  /** `terminal_array` with `current_terminal` (the displayed one) and
      `sched_terminal` (the one whose process runs). */
  datatype TermState = TermState(terms: seq<TerminalRec>, current: nat, sched: nat)

  predicate Valid(t: TermState) {
    |t.terms| == TERMINAL_COUNT && t.current < TERMINAL_COUNT && t.sched < TERMINAL_COUNT
  }

  /** Video memory: the page being displayed and the three save pages
      that follow it. */
  datatype Screen = Screen(live: seq<byte>, pages: seq<seq<byte>>)

  predicate ValidScreen(s: Screen) {
    |s.live| == VID_MEM && |s.pages| == TERMINAL_COUNT
    && forall j :: 0 <= j < TERMINAL_COUNT ==> |s.pages[j]| == VID_MEM
  }

  /** `term_init`: no terminal has a process or has been started, and
      terminal 0 is both displayed and scheduled. */
  function TermInit(): (t: TermState)
    ensures Valid(t) && t.current == 0 && t.sched == 0
    ensures forall j :: 0 <= j < TERMINAL_COUNT ==> t.terms[j] == TerminalRec(NO_PID, 0, 0, false)
  {
    var blank := TerminalRec(NO_PID, 0, 0, false);
    TermState([blank, blank, blank], 0, 0)
  }

  /** `open_terminal`: a request for a terminal out of range or already
      displayed changes nothing; otherwise the live screen is saved into
      the page of the terminal being left and the page of terminal `id` is
      copied onto the live screen. */
  function OpenTerminal(t: TermState, s: Screen, id: int): (r: (TermState, Screen))
    requires Valid(t) && ValidScreen(s)
    ensures Valid(r.0) && ValidScreen(r.1)
    ensures id < 0 || id >= TERMINAL_COUNT || id == t.current ==> r == (t, s)
    ensures 0 <= id < TERMINAL_COUNT && id != t.current ==>
      && r.0 == t.(current := id)
      && r.1.pages == s.pages[t.current := s.live]
      && r.1.live == s.pages[id]
  {
    if id < 0 || id >= TERMINAL_COUNT || id == t.current then (t, s)
    else
      var saved := s.pages[t.current := s.live];
      (t.(current := id), Screen(saved[id], saved))
  }

  /** `terminal_open` succeeds and does nothing. */
  function TerminalOpen(filename: Option<seq<byte>>): (r: int)
    ensures r == 0
  {
    0
  }

  /** `terminal_close` empties the displayed terminal's line buffer and
      reports failure. */
  function TerminalClose(t: TermState, kb: Keyboard.KbState): (r: (int, Keyboard.KbState))
    requires Valid(t) && Keyboard.Valid(kb)
    ensures r.0 == -1 && r.1 == Keyboard.ClearBuffer(kb, t.current)
  {
    (-1, Keyboard.ClearBuffer(kb, t.current))
  }

  /** The line a read delivers: the buffer up to and including its first
      newline, or all of it when it holds none. */
  function Line(buf: seq<byte>): (r: seq<byte>)
    ensures |r| <= |buf| && r == buf[..|r|]
    ensures forall i :: 0 <= i < |r| - 1 ==> r[i] != NEWLINE
    ensures |r| < |buf| ==> |r| > 0 && r[|r| - 1] == NEWLINE
    ensures NEWLINE !in buf ==> r == buf
  {
    if |buf| == 0 then []
    else if buf[0] == NEWLINE then [NEWLINE]
    else [buf[0]] + Line(buf[1..])
  }

  /** `terminal_read`, from the moment the keyboard has raised the read
      flag: the flag is cleared; a NULL buffer gets nothing and leaves the
      line buffer alone; otherwise 128 bytes of the caller's buffer are
      overwritten with the displayed terminal's line followed by zeros, the
      line buffer is emptied, and the line's length is returned.  `nbytes`
      is not consulted. */
  method TerminalRead(t: TermState, kb: Keyboard.KbState, hasBuf: bool, nbytes: int)
    returns (n: int, kb': Keyboard.KbState, out: seq<byte>)
    requires Valid(t) && Keyboard.Valid(kb)
    ensures !hasBuf ==> n == 0 && out == [] && kb' == kb.(readFlag := false)
    ensures hasBuf ==>
      var line := Line(kb.bufs[t.current]);
      && n == |line|
      && |out| == BUF_SIZE
      && out == line + Zeros(BUF_SIZE - n)
      && kb' == Keyboard.ClearBuffer(kb, t.current).(readFlag := false)
  {
    var k := kb.(readFlag := false);
    if !hasBuf {
      return 0, k, [];
    }
    var buf := kb.bufs[t.current];
    out := Zeros(BUF_SIZE);
    n := 0;
    var i := 0;
    while i < |buf|
      invariant 0 <= i <= |buf| && n == i
      invariant |out| == BUF_SIZE
      invariant out == buf[..i] + Zeros(BUF_SIZE - i)
      invariant NEWLINE !in buf[..i]
    {
      out := out[i := buf[i]];
      n := n + 1;
      assert buf[..i + 1] == buf[..i] + [buf[i]];
      if buf[i] == NEWLINE {
        LineAtFirstNewline(buf, i);
        kb' := Keyboard.ClearBuffer(k, t.current);
        return;
      }
      i := i + 1;
    }
    assert buf[..i] == buf;
    kb' := Keyboard.ClearBuffer(k, t.current);
  }

  /** When the first newline of `buf` is at `i`, the line is `buf[..i+1]`. */
  lemma {:induction false} LineAtFirstNewline(buf: seq<byte>, i: nat)
    requires i < |buf| && buf[i] == NEWLINE && NEWLINE !in buf[..i]
    ensures Line(buf) == buf[..i + 1]
  {
    if i > 0 {
      assert buf[0] == buf[..i][0];
      assert buf[1..][..i - 1] == buf[..i][1..];
      LineAtFirstNewline(buf[1..], i - 1);
      assert buf[..i + 1] == [buf[0]] + buf[1..][..i];
    }
  }

  /** `terminal_write`: a NULL buffer is refused; otherwise the first
      `nbytes` bytes are handed to `putc` and their number returned, so a
      negative count writes nothing. */
  function TerminalWrite(buf: Option<seq<byte>>, nbytes: int): (r: (int, seq<byte>))
    requires buf.Some? ==> nbytes <= |buf.value|
    ensures buf.None? ==> r == (-1, [])
    ensures buf.Some? ==> r.0 == |r.1| && r.1 == buf.value[..if nbytes < 0 then 0 else nbytes]
  {
    if buf.None? then (-1, [])
    else if nbytes <= 0 then (0, [])
    else (nbytes, buf.value[..nbytes])
  }

  /** Switching to another terminal and back shows the original screen
      again, and the other terminal's page is left holding what it showed. */
  lemma SwitchAndBack(t: TermState, s: Screen, id: nat)
    requires Valid(t) && ValidScreen(s) && id < TERMINAL_COUNT && id != t.current
    ensures var (t1, s1) := OpenTerminal(t, s, id);
            var (t2, s2) := OpenTerminal(t1, s1, t.current);
            && t2 == t
            && s2.live == s.live
            && s2.pages[id] == s1.live
            && forall j :: 0 <= j < TERMINAL_COUNT && j != id ==> s2.pages[j] == s.pages[t.current := s.live][j]
  {
  }
}
